=== FILE: README.md ===
# greenbone-scap, modelled in Dafny

greenbone-scap moves SCAP records between sources and sinks: CPEs, CPE match
strings and CVEs go from the NVD API or a PostgreSQL database into PostgreSQL
or a JSON file. Every transfer has the same shape. A producer fetches the
expected number of items and puts chunks of items into a bounded chunk
queue. A worker takes the chunks and hands each one to a sink, until the
producer has said it is finished and the queue is empty. The sinks are
database managers that buffer records and write them in batches, or a JSON
document that accumulates items and is written once at the end.

This project models the sequential layer of that system. The two async
tasks become one state machine in which a scheduler picks the next atomic
move. Databases are logs of the transactions written to them, and queries
are lists of filter clauses. The parts of the model:

- `queue.dfy` (`ChunkQueue`): the chunk queue as a value and as a class. Also sequence helpers (`Flatten`, `FlatMap`).
- `pipeline.dfy` (`Pipeline`): producer, queue and worker as one system driven by a schedule, with the invariant every step keeps.
- `producer_base.dfy`, `worker_base.dfy`, `processor.dfy`: the generic producer, the drain loop of the worker, and the processor that wires them together.
- `nvd_api.dfy` (`NvdApiProducer`): the expected total, the retry loop and the retry budget of the NVD API producer.
- `db_producer.dfy`, `db_worker.dfy`, `settings.dfy`: connection settings resolved "argument, else environment, else default", and the re-chunking of a database stream.
- `write_buffer.dfy` (`WriteBuffer`): the pending buffer all three database managers share.
- `cve_manager.dfy`, `cpe_manager.dfy`, `cpe_match_manager.dfy`: the batch transactions and the filter clauses of the three database managers.
- `cpe_match_model.dfy`, `cpe_match_producer.dfy`: CPE match strings, and their conversion from database rows.
- `cpe_match_json.dfy`, `json_utils.dfy`, `strings.dfy`: the JSON document of match strings, key conversion to camelCase, the UUID check, and the Python string functions these use.
- `cve_models.dfy`: the comma-joined string-list column and the vulnerability statuses.
- `cli_download.dfy` (`DownloadCli`): the older CVE and CPE download commands, including their SSL parameters.
- `timer.dfy` (`Timing`) and `cli.dfy` (`CliRunner`): the stopwatch, and the runner that maps a command's ending to an exit status.

Objects whose methods update fields are classes. Each method's `ensures`
relates the new state to a function of the old state, and lemmas about
those functions state what the source promises. The source paths below are
relative to the repository root.

## Model

| member | source | states |
|---|---|---|
| ChunkQueue.NewQueue | greenbone/scap/generic_cli/queue.py:19-28 | a new queue holds no chunk, has the finished flag unset and no unfinished task, keeps the given queue and chunk sizes, and has total_items 1 |
| ChunkQueue.ScapChunkQueue.constructor | greenbone/scap/generic_cli/queue.py:19-28 | the object starts in the `NewQueue` state |
| ChunkQueue.ScapChunkQueue.PutChunk | greenbone/scap/generic_cli/queue.py:30-36 | callable only while the queue is not full; the chunk is appended after the held chunks, which stay as they were, and one more task is unfinished |
| ChunkQueue.ScapChunkQueue.GetChunk | greenbone/scap/generic_cli/queue.py:38-45 | callable only while a chunk is held; returns the oldest held chunk and removes exactly that one |
| ChunkQueue.ApplyKeepsOrder | greenbone/scap/generic_cli/queue.py:30-45 | for any run of puts, gets and task_done calls, the chunks held before plus the chunks put equal the chunks taken plus the chunks still held: chunks leave in the order they came |
| ChunkQueue.ApplyKeepsBounds | greenbone/scap/generic_cli/queue.py:24-68 | a queue with a positive size never holds more chunks than that size, and the unfinished count equals puts minus task_done calls, so task_done never outnumbers puts |
| ChunkQueue.DrainAfterFinish | greenbone/scap/generic_cli/queue.py:38-62 | once the producer has finished, taking every held chunk returns them in order and leaves `more_chunks_expected` false |
| ChunkQueue.ScapChunkQueue.MoreChunksExpectedAgrees | greenbone/scap/generic_cli/queue.py:47-56 | `more_chunks_expected` is false exactly when the finished flag is set and no chunk is held |
| ChunkQueue.SetFinishedIdempotent | greenbone/scap/generic_cli/queue.py:58-62 | setting the flag twice is the same as once; it adds and removes no chunk, and afterwards no more chunks are expected exactly when none is held |
| ChunkQueue.ScapChunkQueue.SetProducerFinished | greenbone/scap/generic_cli/queue.py:58-62 | only the finished flag changes |
| ChunkQueue.ScapChunkQueue.TaskDone | greenbone/scap/generic_cli/queue.py:67-68 | one unfinished task fewer; with none unfinished it fails with ValueError and changes nothing |
| Pipeline.InitInv | greenbone/scap/generic_cli/processor.py:89-93 | the system the task group starts with satisfies the invariant. The invariant says: chunks put were taken or are held, in put order; the finished flag is set exactly when the producer is done; the queue stays within its bound; the unfinished count matches; the item counter matches the worker's chunks |
| Pipeline.ProducerStepKeepsInv | greenbone/scap/generic_cli/queue.py:30-62 | a producer put, made only while the queue has room, and the producer's final setting of the flag both keep the invariant |
| Pipeline.TakeKeepsInv | greenbone/scap/generic_cli/worker/base.py:143-159 | a worker get, the count, the progress-task check, the handler and the task_done keep the invariant, whether the handler succeeds or raises |
| Pipeline.StepKeepsInv | greenbone/scap/generic_cli/worker/base.py:141-161 | every move of either task keeps the invariant |
| Pipeline.ExecKeepsInv | greenbone/scap/generic_cli/processor.py:89-93 | every schedule whose picks can all move ends in a state satisfying the invariant |
| Pipeline.DriveKeepsInv | greenbone/scap/generic_cli/processor.py:89-93 | every schedule whatsoever keeps the invariant |
| Pipeline.DriveKeepsQueueSettings | greenbone/scap/generic_cli/processor.py:85-93 | no step changes total_items or the queue's sizes: the expected total is never written to the queue |
| Pipeline.HandledIsPrefixOfPlan | greenbone/scap/generic_cli/worker/base.py:143-153 | whatever the schedule, the chunks handled are a prefix of the producer's chunks, in order, and no more than it put |
| Pipeline.CompletedDeliversAll | greenbone/scap/generic_cli/processor.py:89-93 | a run that returns normally took and handled every chunk exactly once, in order; the producer returned normally; `join` had nothing pending; the item counter equals the number of items |
| Pipeline.CompletingSchedule | greenbone/scap/generic_cli/processor.py:89-93 | for every list of chunks there is a schedule that completes the run normally with all chunks handled and all items counted |
| Pipeline.StrandingSchedule | greenbone/scap/generic_cli/worker/base.py:141-143 | for every list of chunks some schedule leaves the worker waiting in get_chunk on an empty, finished queue, with every chunk handled and nothing unfinished; neither task can move again |
| Pipeline.WaitingOnEmptyIsStuck | greenbone/scap/generic_cli/queue.py:38-45 | a worker waiting on an empty queue after the producer returned can never move again |
| Processor.SizeDefaults | greenbone/scap/generic_cli/processor.py:74-77 | the queue size is the given size, or 3 when it is None or 0; the chunk size is the given size, or 100 when it is None or 0 |
| Processor.QueueSizeOptionDefaultDiffers | greenbone/scap/generic_cli/processor.py:40-48 | without `--queue-size`, the option as written bounds the queue at 100 chunks, while the queue-size default is 3 |
| Processor.QueueSizeOptionAgrees | greenbone/scap/generic_cli/processor.py:40-48 | with the queue-size default, the option followed by the constructor's fallback builds the same queue as the constructor alone; the option as written does so exactly when the option is given |
| Processor.QueueSizeOptionGiven | greenbone/scap/generic_cli/processor.py:40-48 | an explicit `--queue-size` gives the same bound under both definitions |
| Processor.ScapProcessor.constructor | greenbone/scap/generic_cli/processor.py:74-79 | one fresh queue is built with the resolved sizes, and the producer and the worker both hold that same queue; nothing else about them changes |
| Processor.ScapProcessor.Run | greenbone/scap/generic_cli/processor.py:83-93 | with an expected total of 0 or less, nothing changes and neither loop starts. Otherwise the worker's loop start runs, the producer and the worker end in the state the scheduler-driven system reaches, and the result is that system's status |
| ProducerBase.BaseScapProducer.constructor | greenbone/scap/generic_cli/producer/base.py:36-51 | a new producer has no queue and no results; verbose is stored exactly as given, None included |
| ProducerBase.BaseScapProducer.SetQueue | greenbone/scap/generic_cli/producer/base.py:81-82 | stores exactly the given queue and changes no other field |
| ProducerBase.BaseScapProducer.FetchInitialData | greenbone/scap/generic_cli/producer/base.py:53-63 | the default expected total is 0 |
| ProducerBase.BaseScapProducer.DefaultRunLoop | greenbone/scap/generic_cli/producer/base.py:65-79 | the default run loop only sets the finished flag, putting no chunk; without a queue it fails with AttributeError |
| ProducerBase.BaseScapProducer.RunLoopStep | greenbone/scap/generic_cli/producer/base.py:65-79 | one move of a run loop: the next chunk is put, or the producer records its ending and sets the finished flag |
| WorkerBase.BaseScapWorker.constructor | greenbone/scap/generic_cli/worker/base.py:50-87 | a new worker has no queue yet, no progress task, a zero item counter, and has taken and handled nothing |
| WorkerBase.BaseScapWorker.SetQueue | greenbone/scap/generic_cli/worker/base.py:165-175 | stores exactly the given queue and changes nothing else |
| WorkerBase.BaseScapWorker.LoopStart | greenbone/scap/generic_cli/worker/base.py:137-140 | `run_loop` fails before its loop when no queue was assigned: AttributeError when `set_queue` never ran, ScapError "No queue has been assigned" when it was None. Otherwise `_loop_start` creates the progress task |
| WorkerBase.BaseScapWorker.Step | greenbone/scap/generic_cli/worker/base.py:141-161 | one move of the loop, as `Pipeline.WorkerStep` states it. The guard is `more_chunks_expected`. A taken chunk is counted before the progress-task check, which raises ScapError, and before the handler. A chunk is marked done only after the handler returns normally; any error ends the loop with the chunk unmarked |
| NvdApiProducer.SinceFromArgs | greenbone/scap/generic_cli/producer/nvd_api.py:116-130 | `--since` when given; otherwise the date read from an existing `--since-from-file`, whose parse error propagates; otherwise None, with a missing file ignored |
| NvdApiProducer.ExpectedTotalBounds | greenbone/scap/generic_cli/producer/nvd_api.py:252-257 | the total is min(request_results or result_count, result_count): 0 when 0 results were requested or none are available; never more than the available count, nor more than a positive cap; the available count when no cap is given |
| NvdApiProducer.RetryOutcome | greenbone/scap/generic_cli/producer/nvd_api.py:224-244 | the retry loop makes 1 to max(n, 1) attempts. Every attempt before the last raised a JSON decode error or an httpx HTTPError. The result is the last attempt's; an error ends the loop only when it is not one of those kinds or the attempts are used up |
| NvdApiProducer.RetryBudget | greenbone/scap/generic_cli/producer/nvd_api.py:229-233 | when attempt k of n ≥ 1 ends the loop, the budget left for the download, n - (k - 1), lies in 1..n |
| NvdApiProducer.FirstAttemptKeepsBudget | greenbone/scap/generic_cli/producer/nvd_api.py:224-244 | a first attempt that succeeds ends the loop at attempt 1 with its own result |
| NvdApiProducer.DownloadShape | greenbone/scap/generic_cli/producer/nvd_api.py:274-308 | the download puts every page of every attempt made, those of failed attempts included, up to the attempt that completes, raises an error that is not retried, or uses up the budget. The loop ends with that attempt's outcome; every earlier attempt raised a retried error |
| NvdApiProducer.PutPages | greenbone/scap/generic_cli/producer/nvd_api.py:290-299 | the loop over one attempt's pages puts them all, in order, after the earlier puts, and keeps the counter equal to the number of items put |
| NvdApiProducer.NvdApiProducer.constructor | greenbone/scap/generic_cli/producer/nvd_api.py:166-179 | before the initial request, the download budget equals the configured number of attempts, and no results object exists |
| NvdApiProducer.NvdApiProducer.FetchInitialData | greenbone/scap/generic_cli/producer/nvd_api.py:213-257 | the download budget is n - (k - 1) for the attempt k that ended the retry loop. A success stores the result count and returns the expected total; an error that ends the loop propagates and leaves the results as they were |
| NvdApiProducer.NvdApiProducer.RunLoop | greenbone/scap/generic_cli/producer/nvd_api.py:259-308 | the counter starts at 0 once, before the retry loop, and always equals the number of items put; a retried attempt does not reset it. The pages put and the ending are those `DownloadShape` describes |
| Settings.OrElse | greenbone/scap/generic_cli/producer/db.py:176-179 | Python's `a or b` on optional strings: `a` when it is a non-empty string, otherwise `b` |
| Settings.OrElseInt | greenbone/scap/generic_cli/producer/db.py:171-175 | Python's `a or b` on optional integers: `a` when it is non-zero, otherwise `b` |
| Settings.ResolveWithPort | greenbone/scap/generic_cli/producer/db.py:151-199 | the resolution fails exactly when no user or no password resolves, and then with CLIError. Otherwise name, host and port are never empty or zero, the schema is never empty, and echo_sql is passed through |
| DatabaseProducer.EnvPortValue | greenbone/scap/generic_cli/producer/db.py:166-170 | an unset or empty DATABASE_PORT counts as absent, a number is used, and anything else raises ValueError, which the `except TypeError` does not catch |
| DatabaseProducer.ResolveConfig | greenbone/scap/generic_cli/producer/db.py:151-199 | a non-numeric DATABASE_PORT makes the constructor raise ValueError |
| DatabaseProducer.MissingCredentials | greenbone/scap/generic_cli/producer/db.py:176-189 | no user from argument or environment raises CLIError "Missing user for … database"; a user without a password raises CLIError "Missing password for … database"; the user is checked first |
| DatabaseProducer.ConfigDefaults | greenbone/scap/generic_cli/producer/db.py:47-53 | given only credentials and no environment, the connection is database scap on localhost:5432 with no schema |
| DatabaseProducer.ConfigPrecedence | greenbone/scap/generic_cli/producer/db.py:151-179 | name, schema, host and port each resolve to the truthy argument, else the truthy environment value, else scap / None / localhost / 5432; user and password come from argument or environment; echo is passed through |
| DatabaseProducer.ProcessDatabase | greenbone/scap/generic_cli/producer/db.py:251-265 | the processor receives the database's item count, passed through `ExpectedTotal` uncapped, as its expected total, and skips the run, changing nothing, exactly when that count is 0 or less; otherwise its result is the driven system's status |
| DatabaseProducer.RechunkFlatten | greenbone/scap/generic_cli/producer/db.py:285-297 | concatenating the chunks gives back the converted items in stream order: nothing is dropped, duplicated or reordered |
| DatabaseProducer.RechunkSizes | greenbone/scap/generic_cli/producer/db.py:289-297 | every chunk is non-empty; all but the last hold exactly chunk_size items (one when chunk_size < 1) and the last holds between one and that many |
| DatabaseProducer.RechunkCount | greenbone/scap/generic_cli/producer/db.py:289-297 | n items make ceil(n / chunk_size) chunks, and an empty stream makes none |
| DatabaseProducer.FullChunksShape | greenbone/scap/generic_cli/producer/db.py:286-292 | when a conversion error ends the stream, the chunks already put are full and hold a prefix of the converted items; the dropped partial chunk holds fewer than chunk_size items |
| DatabaseProducer.ConvertStops | greenbone/scap/generic_cli/producer/db.py:286-287 | once a conversion has raised, later stream items change nothing |
| DatabaseProducer.RunLoop | greenbone/scap/generic_cli/producer/db.py:267-307 | the loop puts exactly the chunks of the converted items. A conversion error stops it after the full chunks, with that error as its ending. Its counter equals the items put, and on a normal end the number of streamed items |
| DatabaseProducer.FifteenItemsThroughSmallQueue | tests/cpe_match/producer/test_db.py:298-387 | fifteen items with chunk size 3 are put as five chunks of three; through a queue of size 2 they reach the worker as the fifteen items in their original order; the run completes |
| DatabaseWorker.EnvPortValue | greenbone/scap/generic_cli/worker/db.py:125-128 | `int()` is applied to DATABASE_PORT itself: unset gives None (the TypeError is caught), a number is used, and an empty or non-numeric value raises ValueError |
| DatabaseWorker.ResolveConfig | greenbone/scap/generic_cli/worker/db.py:110-153 | an empty or non-numeric DATABASE_PORT makes the constructor raise ValueError |
| DatabaseWorker.MissingCredentials | greenbone/scap/generic_cli/worker/db.py:134-143 | a missing user raises CLIError "Missing user for CPE database", a user without a password raises "Missing password for CPE database", and construction fails exactly in those two cases |
| DatabaseWorker.ConfigDefaults | greenbone/scap/generic_cli/worker/db.py:31-36 | given only credentials and no environment, the worker connects to scap on localhost:5432 without a schema, echo_sql as given |
| DatabaseWorker.ArgumentsOverride | greenbone/scap/generic_cli/worker/db.py:145-153 | truthy arguments win over any environment, and echo_sql is passed through unchanged |
| DatabaseWorker.EmptyPortDiffers | greenbone/scap/generic_cli/worker/db.py:125-133 | with an empty DATABASE_PORT the worker raises ValueError while the producer treats the variable as unset; in every other case the two resolve identically |
| WriteBuffer.AddManyWritesOneBatch | greenbone/scap/cpe_match/db/manager.py:64-110 | a batch call with an empty sequence changes nothing; any other writes exactly that sequence as one batch and then empties the buffer, even when the sequence was not the buffer |
| WriteBuffer.AddFlushesPastThreshold | greenbone/scap/cpe_match/db/manager.py:58-62 | `add` appends to the buffer and writes nothing while the buffer length stays within insert_threshold; once the length is strictly greater, the whole buffer is written as one batch and emptied |
| WriteBuffer.AddKeepsBufferBounded | greenbone/scap/cpe_match/db/manager.py:58-62 | with a non-negative threshold the buffer never holds more records than the threshold between calls |
| WriteBuffer.AddAllKeepsEverything | greenbone/scap/cpe_match/db/manager.py:58-62 | records written plus records buffered equal the records before followed by the added ones: nothing is lost, duplicated or reordered |
| WriteBuffer.CleanExitWritesAll | greenbone/scap/cpe_match/db/manager.py:47-56 | records added one by one and a clean exit: every record has been written, once and in order, and the buffer is empty |
| WriteBuffer.RaisingExitKeepsBuffer | greenbone/scap/cpe_match/db/manager.py:53-56 | an exit with an exception writes nothing and keeps the buffer |
| WriteBuffer.AddKeepsBatchesNonEmpty | greenbone/scap/cpe_match/db/manager.py:64-68 | no empty batch is ever written |
| CpeMatchProducer.FirstMissingId | greenbone/scap/cpe_match/producer/db.py:152-154 | the position of the first database match without a cpe_name_id, and None exactly when every match has one |
| CpeMatchProducer.ConvertDbModel | greenbone/scap/cpe_match/producer/db.py:130-177 | ScapError exactly for a model of another table, a missing or empty match_criteria_id, matches = None, or a match without cpe_name_id (the first one in order is named), checked in that order; each message names the repr of the offending model or match. Otherwise one match per database match, in order, with cpe_name and id copied, and every other field copied unchanged |
| CpeMatchManager.ParentRow | greenbone/scap/cpe_match/db/manager.py:92-106 | a match string row carries the id, criteria, status, three timestamps and four version bounds of its match string |
| CpeMatchManager.ParentRows | greenbone/scap/cpe_match/db/manager.py:92-106 | one row per match string, in order |
| CpeMatchManager.MatchRowsOf | greenbone/scap/cpe_match/db/manager.py:117-125 | one child row per match of a match string, in order, carrying the match string's id |
| CpeMatchManager.ChildRowsAppend | greenbone/scap/cpe_match/db/manager.py:117-125 | the child rows of a batch are those of each match string in input order |
| CpeMatchManager.ChildRowsEmpty | greenbone/scap/cpe_match/db/manager.py:126 | there are no child rows exactly when no match string has matches |
| CpeMatchManager.ChildRowsCount | greenbone/scap/cpe_match/db/manager.py:117-125 | there is one child row per (match string, match) pair |
| CpeMatchManager.BatchTransaction | greenbone/scap/cpe_match/db/manager.py:70-143 | a batch is one transaction: the match string rows, then the match rows when there are any, and nothing else. With update the rows upsert on match_criteria_id (and cpe_name_id for matches); without it, conflicting rows are skipped |
| CpeMatchManager.Log | greenbone/scap/cpe_match/db/manager.py:89-108 | one transaction per batch written, in order |
| CpeMatchManager.WrittenRowsOfLog | greenbone/scap/cpe_match/db/manager.py:89-108 | the match string rows written are those of the batches' match strings, in order |
| CpeMatchManager.CleanExitWritesAll | greenbone/scap/cpe_match/db/manager.py:47-62 | after adding match strings one by one and a clean exit, every match string's row has been written once and in order, and the buffer is empty |
| CpeMatchManager.CpeMatchStringDatabaseManager.constructor | greenbone/scap/cpe_match/db/manager.py:29-41 | a new manager has an empty buffer and has written nothing |
| CpeMatchManager.CpeMatchStringDatabaseManager.AddCpeMatchStrings | greenbone/scap/cpe_match/db/manager.py:64-110 | the buffer follows `AddMany`, and a non-empty call executes exactly one more transaction, that of the given batch |
| CpeMatchManager.CpeMatchStringDatabaseManager.Add | greenbone/scap/cpe_match/db/manager.py:58-62 | the buffer follows `Add` |
| CpeMatchManager.CpeMatchStringDatabaseManager.Exit | greenbone/scap/cpe_match/db/manager.py:47-56 | the buffer follows `Exit`: written on a clean exit, kept when an exception is leaving |
| CpeMatchManager.Find | greenbone/scap/cpe_match/db/manager.py:145-199 | the select keeps the given limit and offset |
| CpeMatchManager.All | greenbone/scap/cpe_match/db/manager.py:145-252 | `all` is the unfiltered `find` without an offset, and its clauses are those of the unfiltered `count`: the producer streams exactly the rows whose number it takes as its total |
| CpeMatchManager.FindAndCountAgree | greenbone/scap/cpe_match/db/manager.py:218-252 | `find` and `count` build identical clause lists: one clause per given filter, in a fixed order, the id filter first; with no filter, as the producer's count uses it, there is no clause |
| CpeMatchJson.NewResponse | greenbone/scap/cpe_match/json.py:34-55 | a new document has no items, one result per page, start index 0, one total result, format "NVD_CPEMatchString" and version "2.0" |
| CpeMatchJson.Items | greenbone/scap/cpe_match/json.py:22-31 | each match string wrapped as one item, in order |
| CpeMatchJson.ItemsAppend | greenbone/scap/cpe_match/json.py:92-96 | wrapping distributes over concatenation, so adding in parts adds the same items |
| CpeMatchJson.OutputName | greenbone/scap/cpe_match/json.py:132-139 | `<name>.json.gz` when compressing, `<name>.json` otherwise |
| CpeMatchJson.Finalized | greenbone/scap/cpe_match/json.py:118-123 | results per page and total results both become the number of items; items, start index, timestamp, format and version stay |
| CpeMatchJson.FinalizedIdempotent | greenbone/scap/cpe_match/json.py:113-123 | writing the document again puts the same counts into it |
| CpeMatchJson.MatchStringJsonManager.constructor | greenbone/scap/cpe_match/json.py:63-85 | a new manager holds an empty document with the default envelope, keeps the storage path and compression, has a validator exactly when a schema path is given (any path, an empty one included, since a path is always true), and has written nothing |
| CpeMatchJson.MatchStringJsonManager.AddMatchString | greenbone/scap/cpe_match/json.py:87-90 | one item more, at the end; nothing else changes |
| CpeMatchJson.MatchStringJsonManager.AddMatchStrings | greenbone/scap/cpe_match/json.py:92-96 | every given match string is appended, in order; nothing else changes |
| CpeMatchJson.MatchStringJsonManager.Write | greenbone/scap/cpe_match/json.py:113-142 | the counts are set to the number of items, exactly one file is written to the storage directory under the output name holding that document, and validation reports and raises as `ValidateJson` says |
| CpeMatchJson.FromArgs | greenbone/scap/cpe_match/worker/json.py:31-59 | a given storage path is kept, even an empty one, and "." is used when none is given; the schema path is kept exactly as given; verbosity 0 when not given or 0; compression taken as given |
| CpeMatchJson.CpeMatchJsonWriteWorker.constructor | greenbone/scap/cpe_match/worker/json.py:61-100 | the worker's manager gets the worker's storage path and compression, has a validator exactly when a schema path is given, holds an empty document, and never raises on a schema violation |
| CpeMatchJson.CpeMatchJsonWriteWorker.HandleChunk | greenbone/scap/cpe_match/worker/json.py:103-112 | the chunk's match strings are appended to the document in order; nothing else changes |
| CpeMatchJson.CpeMatchJsonWriteWorker.LoopEnd | greenbone/scap/cpe_match/worker/json.py:114-121 | the document is finalized and written once under "nvd-cpe-matches", and the write always passes, whatever the schema says |
| CpeMatchJson.CpeMatchJsonWriteWorker.HandleAll | greenbone/scap/cpe_match/worker/json.py:103-121 | after every chunk is handled and the loop ends, exactly one file is written, holding every item of every chunk in order, and its total is their number |
| JsonUtils.ValidateJson | greenbone/scap/data_utils/json.py:163-194 | without a validator nothing happens; a document the schema accepts passes; a violation is always reported, and raised only when raise_error_on_validation is set |
| JsonUtils.TitleAll | greenbone/scap/data_utils/json.py:52 | each piece after the first title-cased, in order |
| JsonUtils.SnakeToCamelHasNoUnderscore | greenbone/scap/data_utils/json.py:41-52 | a converted key contains no "_" |
| JsonUtils.SnakeToCamelKeepsPlainKey | greenbone/scap/data_utils/json.py:41-52 | a key without "_" is returned unchanged |
| JsonUtils.SnakeToCamelIdempotent | greenbone/scap/data_utils/json.py:41-52 | converting a converted key changes nothing |
| JsonUtils.SnakeToCamelLength | greenbone/scap/data_utils/json.py:41-52 | exactly the underscores are removed: the length drops by their number |
| JsonUtils.SnakeToCamelOfParts | greenbone/scap/data_utils/json.py:41-52 | a key joined from "_"-free pieces becomes the first piece followed by the others title-cased |
| JsonUtils.SnakeToCamelExample | greenbone/scap/data_utils/json.py:41-52 | "results_per_page" becomes "resultsPerPage" |
| JsonUtils.TitleKeepsNonLetters | greenbone/scap/data_utils/json.py:52 | title-casing neither adds nor removes a character that is not a letter |
| JsonUtils.KeyIndex | greenbone/scap/data_utils/json.py:67-74 | the position of a key in a dict, None exactly when the key is absent |
| JsonUtils.Put | greenbone/scap/data_utils/json.py:73 | storing a key adds it to the keys, keeps keys unique, and adds no entry other than the new one |
| JsonUtils.ConvertItemsPointwise | greenbone/scap/data_utils/json.py:75-76 | a list keeps its length and order, each element converted |
| JsonUtils.ConvertList | greenbone/scap/data_utils/json.py:75-76 | a converted list has the same length, each element converted, and a None element stays None |
| JsonUtils.ConvertScalar | greenbone/scap/data_utils/json.py:77-78 | a value that is neither a dict nor a list is returned unchanged |
| JsonUtils.ConvertEntriesUnique | greenbone/scap/data_utils/json.py:66-74 | a converted dict has unique keys, even when two original keys convert to the same one |
| JsonUtils.ConvertEntriesOrigin | greenbone/scap/data_utils/json.py:66-74 | every converted entry comes from an original entry, with its key converted and its value converted and not None |
| JsonUtils.ConvertEntriesKeys | greenbone/scap/data_utils/json.py:66-74 | a key is present exactly when some original entry converts to it with a value that is not None |
| JsonUtils.ConvertDropsNulls | greenbone/scap/data_utils/json.py:54-78 | no dict in the converted value holds None, at any depth |
| JsonUtils.CustomUuidValidate | greenbone/scap/data_utils/json.py:15-32 | True exactly for 36 characters in the 8-4-4-4-12 layout of hex digits, version digit 4 and variant digit one of 8, 9, a, b in either case, optionally followed by one newline, which the pattern's `$` lets through; otherwise None, never False |
| JsonUtils.HexChar | greenbone/scap/data_utils/json.py:102-103 | a hex digit is written as a lower-case hex character |
| JsonUtils.UuidText | greenbone/scap/data_utils/json.py:102-103 | a UUID's text has 36 characters: dashes at the four layout positions and its hex digits elsewhere |
| JsonUtils.EncodeUuid | greenbone/scap/data_utils/json.py:102-103 | the encoded UUID has 36 characters and none of them is lower case |
| JsonUtils.EncodedUuidValidates | greenbone/scap/data_utils/json.py:15-32 | the upper-cased text the encoder writes passes the schema's uuid format exactly when the UUID is version 4 with the RFC 4122 variant |
| CveModels.BindStrList | greenbone/scap/cve/models.py:53-54 | [] is stored as "", a single element as itself, and n elements with at least n - 1 commas |
| CveModels.ResultStrList | greenbone/scap/cve/models.py:56-57 | a null or empty column reads as [] and only then; no piece contains "," |
| CveModels.ReadJoinsBack | greenbone/scap/cve/models.py:53-57 | a non-empty stored value reads as one more piece than it has commas, and binding those pieces gives the value back |
| CveModels.ReadBound | greenbone/scap/cve/models.py:53-57 | a list whose elements hold no "," and which is not [""] reads back as itself after binding |
| CveModels.ReadBoundExceptions | greenbone/scap/cve/models.py:53-57 | the cases left out do not round-trip: [""] reads back as [], and an element holding "," reads back as two |
| CveModels.JoinEmpty | greenbone/scap/cve/models.py:53-54 | only [] and [""] are stored as "" |
| CveModels.StatusValue | greenbone/scap/cve/models.py:60-67 | every status has a non-empty stored text |
| CveModels.StatusByName | greenbone/scap/cve/models.py:60-67 | "REJECTED" and "Rejected" both name the rejected status |
| CveModels.StatusByValue | greenbone/scap/cve/models.py:60-67 | a status found by its text stores that text |
| CveModels.StatusValueRoundTrip | greenbone/scap/cve/models.py:60-67 | every status is found again from its stored text |
| CveModels.StatusValueInjective | greenbone/scap/cve/models.py:60-67 | distinct statuses store distinct texts |
| CveModels.RejectedAlias | greenbone/scap/cve/models.py:61-66 | the two names of the rejected status are one member, stored as "Rejected" |
| CveManager.CveRows | greenbone/scap/cve/manager.py:109-128 | one CVE row per CVE, in batch order, each carrying its CVE's id |
| CveManager.CveRowsAppend | greenbone/scap/cve/manager.py:109-128 | the rows of two batches together are the rows of each, in order |
| CveManager.Ids | greenbone/scap/cve/manager.py:450 | the ids of a batch, in order |
| CveManager.MetricRows | greenbone/scap/cve/manager.py:163-246 | one CVSS row per metric, in order, each carrying the CVE's id |
| CveManager.V3RowsOrder | greenbone/scap/cve/manager.py:202-246 | a CVE's v3 rows are those of its v3.0 metrics followed by those of its v3.1 metrics |
| CveManager.V3RowsOfBatch | greenbone/scap/cve/manager.py:158-246 | over a batch the v3 rows are grouped by CVE, in batch order |
| CveManager.InsertIfAny | greenbone/scap/cve/manager.py:278-300 | an insert into a child table runs exactly when it has rows, and then inserts exactly those rows |
| CveManager.ConfigurationInsertsOf | greenbone/scap/cve/manager.py:458-503 | one configuration insert per configuration of the CVE |
| CveManager.BatchTransaction | greenbone/scap/cve/manager.py:81-133 | a non-empty batch is one transaction whose first statement inserts one row per CVE, upserting on the id with `update` and skipping conflicts without it |
| CveManager.BatchTransactionShape | greenbone/scap/cve/manager.py:81-143 | the transaction starts with the CVE rows, holds at least the delete of configurations, the configuration inserts and the two CVSS deletes, and ends with the CVSS statements |
| CveManager.ConfigurationsReplaced | greenbone/scap/cve/manager.py:447-503 | every configuration of the batch's CVEs is deleted before any is inserted, and then one configuration is inserted per configuration of the batch |
| CveManager.ConfigurationInsertsAreInserts | greenbone/scap/cve/manager.py:458-503 | the configuration block after the delete holds only configuration inserts, one per configuration |
| CveManager.ConfigurationInsertOf | greenbone/scap/cve/manager.py:458-503 | each inserted configuration belongs to its CVE and carries its operator, its negation and one node per node, a node's missing match list becoming no matches |
| CveManager.InsertCvss | greenbone/scap/cve/manager.py:144-264 | the loop over the batch yields the two deletes of the batch's metrics, then the v2 insert and the v3 insert, each only when it has rows |
| CveManager.Without | greenbone/scap/cve/manager.py:248-258 | a delete for the batch keeps exactly the rows of other CVEs |
| CveManager.MetricRowsOfOwnCveHolds | greenbone/scap/cve/manager.py:158-246 | the v2 and v3 rows of a CVE belong to that CVE, and there are none when it has no metrics |
| CveManager.MetricsReplaced | greenbone/scap/cve/manager.py:144-264 | after a batch a metrics table holds, for a CVE of the batch, only rows the batch inserted and none at all when the CVE came without metrics; other CVEs' rows are untouched |
| CveManager.Log | greenbone/scap/cve/manager.py:108-130 | one transaction per batch written, in order |
| CveManager.LogSnoc | greenbone/scap/cve/manager.py:108-130 | the log of one more batch is the old log followed by that batch's transaction, which starts with its CVE rows |
| CveManager.WrittenCvesOfLog | greenbone/scap/cve/manager.py:108-130 | the CVE rows in the database are those of the batches written, in order |
| CveManager.CleanExitWritesAll | greenbone/scap/cve/manager.py:64-79 | CVEs added one by one and a clean exit: every CVE's row has been written once and in order, and the buffer is empty |
| CveManager.CveDatabaseManager.constructor | greenbone/scap/cve/manager.py:46-58 | a new manager has an empty buffer and has written nothing |
| CveManager.CveDatabaseManager.AddCves | greenbone/scap/cve/manager.py:81-132 | the buffer follows `AddMany`, and a non-empty call executes exactly one more transaction, that of the given batch |
| CveManager.CveDatabaseManager.Add | greenbone/scap/cve/manager.py:75-79 | the buffer follows `Add` |
| CveManager.CveDatabaseManager.Exit | greenbone/scap/cve/manager.py:64-73 | the buffer follows `Exit`: written on a clean exit, kept when an exception is leaving |
| CveManager.Strs.AsList | greenbone/scap/cve/manager.py:527-530 | a single string becomes a one-element list, a list stays as it is |
| CveManager.KeywordPatterns | greenbone/scap/cve/manager.py:545-556 | one `KeywordPattern` per keyword, in order |
| CveManager.V2SeverityClause | greenbone/scap/cve/manager.py:577-582 | the v2 severity filter compares the upper-cased severity with the severity of the v2 metrics themselves |
| CveManager.V2SeverityAsWrittenIncoherent | greenbone/scap/cve/manager.py:577-582 | the clause as written reads the severity column of the v3 table inside the v2 relation, for every severity |
| CveManager.RecordClauses | greenbone/scap/cve/manager.py:527-540 | one clause per set id and date filter, and none of them compares a severity |
| CveManager.TextClauses | greenbone/scap/cve/manager.py:541-564 | one clause per set source, rejected, keyword and CWE filter, and none of them compares a severity |
| CveManager.MetricClauses | greenbone/scap/cve/manager.py:565-588 | one clause per set vector and severity filter, each comparing within the metrics it ranges over |
| CveManager.ClausesPerFilter | greenbone/scap/cve/manager.py:509-589 | one clause per set filter and nothing else; no filter gives no clause; every clause is coherent |
| CveManager.SingleIdClause | greenbone/scap/cve/manager.py:527-530 | a single CVE id becomes a one-element id list, as the first clause |
| CveManager.NoRejectedClause | greenbone/scap/cve/manager.py:543-544 | leaving out rejected CVEs compares the status with "Rejected" |
| CveManager.Find | greenbone/scap/cve/manager.py:591-654 | `find` selects with the clauses of its filters and keeps the given limit and offset |
| CveManager.All | greenbone/scap/cve/manager.py:656-657 | `all` is `find` without filters, limit or offset |
| CveManager.CountClauses | greenbone/scap/cve/manager.py:659-695 | `count` filters with exactly the clauses `find` uses |
| CpeManager.AttributeComparisons | greenbone/scap/cpe/manager.py:62-80 | at most one equality per attribute it is given |
| CpeManager.CpeCondition | greenbone/scap/cpe/manager.py:59-81 | the condition always starts by comparing the part |
| CpeManager.AttributeComparisonsMembers | greenbone/scap/cpe/manager.py:62-80 | an attribute is compared, to its own value, exactly when `exact` is set or its value is not ANY |
| CpeManager.CpeConditionMembers | greenbone/scap/cpe/manager.py:59-81 | the part is always compared; each of the ten other attributes is compared to its own value exactly when `exact` is set or it is not ANY; nothing else is compared |
| CpeManager.ExactComparesAll | greenbone/scap/cpe/manager.py:62-80 | an exact condition compares every attribute |
| CpeManager.ExactConditionSelectsItself | greenbone/scap/cpe/manager.py:59-81 | an exact condition selects exactly the name it was built from |
| CpeManager.WildcardConditionSelects | greenbone/scap/cpe/manager.py:59-81 | a non-exact condition selects the names with the same part that agree on every attribute that is not ANY |
| CpeManager.SameAttributesSameName | greenbone/scap/cpe/manager.py:59-81 | names that agree on all eleven attributes are the same name |
| CpeManager.NewVersionRange | greenbone/scap/cpe/manager.py:85-102 | a range is built exactly when it has not two start bounds and not two end bounds; otherwise VersionRangeError, a ScapError, with the start message taking precedence |
| CpeManager.LowerBound | greenbone/scap/cpe/manager.py:120-130 | one lower bound exactly when a start bound is given, the exclusive one taking precedence, and no upper bound |
| CpeManager.UpperBound | greenbone/scap/cpe/manager.py:132-141 | one upper bound exactly when an end bound is given, the exclusive one taking precedence, and no lower bound |
| CpeManager.CpeConditionOf | greenbone/scap/cpe/manager.py:114-117 | the range's CPE part holds no version bound |
| CpeManager.AsConditionBounds | greenbone/scap/cpe/manager.py:113-141 | `AsCondition`: a range's condition holds one lower bound exactly when a start bound is given and one upper bound exactly when an end bound is given, and no more |
| CpeManager.AsConditionStartsWithCpe | greenbone/scap/cpe/manager.py:104-117 | a range with a CPE starts with the CPE's non-exact condition; a falsy range is `true` |
| CpeManager.CountAppend | greenbone/scap/cpe/manager.py:113-141 | the bounds of a conjunction add up over its parts |
| CpeManager.AttributeComparisonsHaveNoBounds | greenbone/scap/cpe/manager.py:59-81 | a CPE's condition holds no version bound |
| CpeManager.RangeConditionsOfTruthy | greenbone/scap/cpe/manager.py:378-385 | one condition per truthy range, each the condition of such a range; falsy ranges are skipped |
| CpeManager.ParseArgument | greenbone/scap/cpe/manager.py:358-367 | no CPE gives none and a parsed CPE is itself; a string or an object with a cpe_name is parsed, and a name the parser rejects raises its parse error (CpeParseError naming it); any other value raises TypeError "Invalid type for cpe argument"; the result is a CPE or none exactly when the argument is of a supported kind and parses |
| CpeManager.CpeClauses | greenbone/scap/cpe/manager.py:356-369 | the CPE's condition when a CPE is given, nothing otherwise |
| CpeManager.DeprecationClauses | greenbone/scap/cpe/manager.py:371-372 | a deprecation test exactly when asked for, keeping CPEs whose flag equals the requested one |
| CpeManager.VersionClauses | greenbone/scap/cpe/manager.py:374-376 | the not-null and not-NA version tests, both exactly when a version is required |
| CpeManager.RangeClauses | greenbone/scap/cpe/manager.py:378-385 | the disjunction of the truthy ranges' conditions when ranges are given, even an empty list of them |
| CpeManager.FindFailures | greenbone/scap/cpe/manager.py:348-401 | `Find` fails exactly when the CPE argument is of an unsupported kind, with a TypeError, or is a name the parser rejects, with its parse error; otherwise it keeps limit and ordering and joins inner |
| CpeManager.FindClauses | greenbone/scap/cpe/manager.py:356-385 | for a `Find` whose CPE argument parses, the clauses in order: CPE condition, deprecation test, two version tests when a version is required or a non-empty range list is given, range disjunction |
| CpeManager.FindTests | greenbone/scap/cpe/manager.py:371-376 | the deprecation test is there exactly when asked for, with the matching polarity; the version tests exactly when a version is required |
| CpeManager.FindRangeDisjunction | greenbone/scap/cpe/manager.py:378-385 | the last clause is the disjunction of one condition per truthy range |
| CpeManager.FindWithoutArguments | greenbone/scap/cpe/manager.py:348-401 | a `find` with no arguments has no clauses |
| CpeManager.All | greenbone/scap/cpe/manager.py:403-421 | `all` selects without any clause, ordered by CPE name, with the limit given; how it relates to `find` is `AllIsOrderedUnfilteredFind` |
| CpeManager.AllIsOrderedUnfilteredFind | greenbone/scap/cpe/manager.py:348-421 | `all` is the `find` without filters ordered by CPE name, except that it joins outer (`.outerjoin` against `find`'s `.join`), so it also returns the CPEs without a `cpe_names` row |
| CpeManager.CpeRows | greenbone/scap/cpe/manager.py:196-213 | one CPE row per CPE, in batch order |
| CpeManager.CpeRowsAppend | greenbone/scap/cpe/manager.py:196-213 | the rows of two batches together are the rows of each, in order |
| CpeManager.NamesRows | greenbone/scap/cpe/manager.py:220-264 | one `cpe_names` row per CPE, in order, for a batch whose names all parse |
| CpeManager.CollectNamesRows | greenbone/scap/cpe/manager.py:220-264 | the loop over the batch collects exactly one parsed row per CPE, in order, when every name parses; otherwise it stops at the first name the parser rejects, with a CpeParseError naming it |
| CpeManager.NamesRowsFindable | greenbone/scap/cpe/manager.py:220-264 | every CPE's `cpe_names` row is under its own name and is selected by the exact condition on its parsed name |
| CpeManager.TitleRowsOf | greenbone/scap/cpe/manager.py:266-275 | one title row per title of the CPE, in order, under the CPE's name |
| CpeManager.ReferenceRowsOf | greenbone/scap/cpe/manager.py:294-303 | one reference row per reference of the CPE, in order, under the CPE's name |
| CpeManager.DeprecatedByRowsOf | greenbone/scap/cpe/manager.py:321-330 | one row per replacing CPE, in order, under the CPE's name |
| CpeManager.InsertIfAny | greenbone/scap/cpe/manager.py:277-292 | an insert into a child table runs exactly when it has rows, and then inserts exactly those rows |
| CpeManager.ChildStatements | greenbone/scap/cpe/manager.py:266-346 | one insert per child table that has rows, none of them into the CPE table, each upserting exactly when `update` is set |
| CpeManager.ForeignStatements | greenbone/scap/cpe/manager.py:217-346 | the parsed names first, then the child inserts; nothing is written to the CPE table |
| CpeManager.BatchTransaction | greenbone/scap/cpe/manager.py:180-215 | the transaction's first statement inserts one row per CPE, upserting on cpe_name with `update` and skipping conflicts without it |
| CpeManager.BatchTransactionShape | greenbone/scap/cpe/manager.py:180-346 | a non-empty batch is the CPE rows, then the parsed rows, then one insert per child table with rows, and no more; only the first writes CPE rows |
| CpeManager.TitlesInsertedIffAny | greenbone/scap/cpe/manager.py:266-292 | a batch has title rows exactly when one of its CPEs has a title |
| CpeManager.TitleRowsOfBatch | greenbone/scap/cpe/manager.py:266-275 | every title row belongs to a CPE of the batch and holds one of its titles |
| CpeManager.Log | greenbone/scap/cpe/manager.py:201-213 | one committed transaction per batch written, in order |
| CpeManager.LogSnoc | greenbone/scap/cpe/manager.py:201-213 | the log of one more batch is the old log followed by that batch's transaction, which starts with its CPE rows |
| CpeManager.WrittenCpesOfLog | greenbone/scap/cpe/manager.py:201-213 | the CPE rows in the database are those of the batches written, in order |
| CpeManager.CleanExitWritesAll | greenbone/scap/cpe/manager.py:163-178 | CPEs whose names all parse, added one by one, and a clean exit: every CPE's row has been written once and in order, and the buffer is empty |
| CpeManager.CpeDatabaseManager.constructor | greenbone/scap/cpe/manager.py:145-157 | a new manager has an empty buffer and has written nothing |
| CpeManager.CpeDatabaseManager.AddCpes | greenbone/scap/cpe/manager.py:180-215 | when every name of the batch parses, the buffer follows `AddMany`, and a non-empty call commits exactly one more transaction, that of the given batch; otherwise the CpeParseError of a rejected name is raised, the transaction is rolled back and the buffer is not reset |
| CpeManager.CpeDatabaseManager.Add | greenbone/scap/cpe/manager.py:174-178 | the buffer follows `Add`; a flush that raises a parse error keeps the buffer, with the new CPE, and commits nothing |
| CpeManager.CpeDatabaseManager.Exit | greenbone/scap/cpe/manager.py:163-172 | the buffer follows `Exit`: written on a clean exit, kept when an exception is leaving; a flush that raises a parse error changes nothing |
| DownloadCli.Resolve | greenbone/scap/cve/cli/download.py:61-80 | an SSL setting is its argument when that is non-empty, else its environment variable when that is non-empty, else its default |
| DownloadCli.SslValues | greenbone/scap/cve/cli/download.py:56-81 | the five libpq keys in order, channel binding from its argument or variable and the four others resolved with their defaults |
| DownloadCli.Present | greenbone/scap/cve/cli/download.py:86-87 | no more settings are kept than are given |
| DownloadCli.PresentKeepsOrder | greenbone/scap/cve/cli/download.py:86-87 | the settings that have a value keep the order they are given in: the kept settings of two consecutive runs of settings are those of the first followed by those of the second |
| DownloadCli.PresentKeepsExactlyTheValues | greenbone/scap/cve/cli/download.py:86-87 | a setting is kept, with its value, exactly when it has one; nothing is kept only when no setting has a value |
| DownloadCli.GetSslParams | greenbone/scap/cve/cli/download.py:50-87 | None exactly when no setting has a value; otherwise the non-empty list of settings that have one |
| DownloadCli.SslParamsHoldTheValues | greenbone/scap/cve/cli/download.py:50-87 | the parameters hold each setting that has a value, under its key with that value, and nothing else |
| DownloadCli.RootcertDefaultGivesParams | greenbone/scap/cve/cli/download.py:61-65 | a root certificate default alone is enough for the parameters to be passed, carrying it |
| DownloadCli.SslParamsFor | greenbone/scap/cve/cli/download.py:459-464 | sslmode "disable" passes no SSL parameters; any other mode passes those of `get_ssl_params` |
| DownloadCli.BudgetWithinAttempts | greenbone/scap/cve/cli/download.py:329-354 | the download budget left after the initial request never allows more attempts than the retry setting |
| DownloadCli.DownloadPhase | greenbone/scap/cve/cli/download.py:319-383 | when both tasks run, the producer's budget is the retry setting less the attempts the initial request used beyond the first, and it allows no more attempts than the setting |
| DownloadCli.RequestWithRetries | greenbone/scap/cve/cli/download.py:329-354 | the attempt loop ends where the retry rule says: on the first success, or on an error that is not retried or comes with the last attempt |
| DownloadCli.RunDownload | greenbone/scap/cve/cli/download.py:319-383 | the steps of `download` produce the outcome `DownloadPhase` describes |
| DownloadCli.DownloadReturnsEarly | greenbone/scap/cve/cli/download.py:356-362 | an error of the initial request propagates unchanged and only then; `download` returns early, starting neither task, exactly when the request succeeded and either 0 results were requested or none are available |
| DownloadCli.DownloadTotalAndBudget | greenbone/scap/cve/cli/download.py:364-383 | when both tasks run, the total is at most the available count, all of it without a cap, positive and within a positive cap; the budget is between 1 and the retry setting |
| DownloadCli.DownloadRunInvariant | greenbone/scap/cve/cli/download.py:247-314 | whatever the interleaving: the finished event is set once the producer has returned or raised; the worker has stored a prefix of what the download yielded, in order; its counter covers the chunks it took (CPEs) or those it stored (CVEs) |
| DownloadCli.CompletedDownloadStoresAll | greenbone/scap/cve/cli/download.py:247-314 | a download that completes stored every chunk of every attempt made, in order, and counted every item |
| DownloadCli.IdSet | greenbone/scap/cve/cli/download.py:260 | the ids of the given CVEs, and no other |
| DownloadCli.CveCli.constructor | greenbone/scap/cve/cli/download.py:231-245 | a new command keeps its settings and has no CVE to update |
| DownloadCli.CveCli.Download | greenbone/scap/cve/cli/download.py:247-383 | the outcome is `DownloadPhase` with counting after storing, and `cves_to_update` gains exactly the ids of the CVEs stored |
| DownloadCli.CompletedDownloadUpdatesEveryCve | greenbone/scap/cve/cli/download.py:254-265 | after a completed download `cves_to_update` holds the id of every CVE downloaded |
| DownloadCli.CpeCli.constructor | greenbone/scap/cpe/cli/download.py:150-163 | a new command keeps its settings |
| DownloadCli.CpeCli.Download | greenbone/scap/cpe/cli/download.py:165-306 | the outcome is `DownloadPhase` with counting before storing |
| DownloadCli.DatabasePassword | greenbone/scap/cve/cli/download.py:452-457 | a password is found exactly when the argument, the item's variable or DATABASE_PASSWORD is non-empty |
| DownloadCli.LastModifiedEnd | greenbone/scap/cve/cli/download.py:516 | the end of the modification window is passed only when a start is given |
| DownloadCli.NumberZeroDownloadsNothing | greenbone/scap/cve/cli/download.py:456-516 | `TopLevelDownload` with `--number 0` and a password: the CVE command makes no request and the CPE command (greenbone/scap/cpe/cli/download.py:283-285) returns early after the initial request; without a password each raises CLIError "Missing password for … database" |
| Timing.StartAt | greenbone/scap/timer.py:19-26 | starting is refused, with "Timer is already running.", exactly when the timer is running; otherwise it runs and keeps the elapsed time |
| Timing.StopAt | greenbone/scap/timer.py:28-37 | stopping is refused, with "Timer is not running.", exactly when the timer is not running; otherwise it stops and records the time it measured |
| Timing.StartStopMeasures | greenbone/scap/timer.py:19-37 | a timer started at t0 and stopped at t1 measures t1 - t0 and can be started again |
| Timing.WithBlocksRepeat | greenbone/scap/timer.py:39-50 | a stopped timer can time any number of `with` blocks in a row, and then holds the last block's duration |
| Timing.ElapsedOnlyFromStops | greenbone/scap/timer.py:15-26 | starts alone never change the elapsed time, so a new timer reports None until its first stop |
| Timing.RefusedCallsChangeNothing | greenbone/scap/timer.py:19-37 | a call is refused exactly when the state is wrong for it, and then changes nothing and names its own message |
| Timing.Timer.constructor | greenbone/scap/timer.py:15-17 | a new timer is not running and has measured nothing |
| Timing.Timer.Start | greenbone/scap/timer.py:19-26 | raises exactly when running and then changes nothing; otherwise the state `StartAt` gives |
| Timing.Timer.Stop | greenbone/scap/timer.py:28-37 | raises exactly when not running and then changes nothing; otherwise returns the elapsed time and the state `StopAt` gives |
| Timing.Timer.Enter | greenbone/scap/timer.py:39-41 | entering starts the timer |
| Timing.Timer.Exit | greenbone/scap/timer.py:43-50 | leaving stops the timer, whatever the block raised |
| CliRunner.Ran | greenbone/scap/cli.py:49-53 | a function's outcome is its call's; a class's is its construction's failure, else its run's |
| CliRunner.ExitCodes | greenbone/scap/cli.py:55-78 | `ExitOf`: exit 0 exactly on a normal end, 1 exactly on a keyboard interrupt, 2 exactly on a ScapError of any kind, 3 exactly on an HTTP status error; any other error escapes |
| CliRunner.ExitCodeExamples | greenbone/scap/cli.py:55-78 | CLIError exits with 2 and an HTTP status error with 3; a timer error and an exception group escape |
| CliRunner.Run | greenbone/scap/cli.py:42-78 | the exit is that of the command's outcome, and the timer measures stop - start whatever the command raised |

## Left out

- Real concurrency is not modelled. asyncio task groups, the sibling cancellation they do, event wake-ups and suspension are replaced by scheduler-chosen atomic steps. A put is enabled only while the queue has room, and a get only while it holds a chunk. Properties are about the chunks delivered and the counters, never about timing.
- SQL semantics are not modelled: statement execution, ON CONFLICT, regexp and ilike matching, and the compiled version comparison. A database is the log of transactions written to it, and a query is its list of clauses.
- The engine and pool setup (`greenbone/scap/db.py`) and the ORM table declarations are not part of this model.
- Outside libraries enter as parameters or are left out. CPE name parsing (`CPE.from_string`) and `canonical_version` are function parameters of the CPE manager; the parser gives None for a name it rejects, and which names those are, and the text of its error, are not modelled. The NVD API clients (pontos), stamina's retry machinery and httpx are left out. The retry loop is a bounded loop over the answers of each attempt.
- Serialisation is left out: JSON text, gzip, file writes, schema compilation, and datetime formatting in the encoder. A written file is its path and the document written there. The schema's verdict on a document is a parameter.
- `MatchStringJsonManager.write` calls a module-level `convert_keys_to_camel` that `greenbone/scap/data_utils/json.py` does not define. The model writes the response document itself, keys unconverted.
- The document is written through `JsonEncoder.iterencode` (`cpe_match/json.py:106-109`), which does not call the encoder's overridden `encode`. On that path no key is converted to camelCase and no None value is dropped; only `default` applies (UUIDs upper-cased, as `JsonUtils.EncodeUuid`, and dates formatted). `JsonUtils.ConvertKeys` models the conversion `encode` does when it is called directly (`data_utils/json.py:107-119`).
- Command-line parsing, shell completion, console logging and progress bars are left out. The command-line values enter as parameters.
- The commands `cpe/cli/find.py`, `cpe_match/cli/db_to_json.py` and `cpe_match/cli/db_download.py` are not part of this model. Neither are the NVD clients under `cpe_match/producer/nvd_api.py`, nor `generic_cli/worker/json.py`, which only stores settings.
- Pieces of the source that fail before they run are modelled as evidently intended:
  - the worker's message uses `item_type_plural`, an attribute the worker does not have (`generic_cli/worker/db.py:30`);
  - the processor stores `verbose` as a one-element tuple (`generic_cli/processor.py:81`);
  - the abstract `add_chunk` of the database worker has no implementation;
  - the worker calls `chunk_processed`, which the queue lacks; it is modelled as `task_done`;
  - the producer base stores `self.queue`, its subclasses `self._queue`; this is one field in the model.
- The SSL default constants the CVE command imports from `greenbone/scap/cli.py` are not defined there. They are parameters (`SslSource.default`).
- The clock is an integer reading passed to each timer operation, not a float counter.
- Python's `repr` of a database object (`cpe_match/producer/db.py:140-154`) is carried as a `repr` string field of the model's database objects, not derived from their other fields.
- `CPEManager.count` (`cpe/manager.py:423-427`) counts every CPE row with no filter. With no row contents in the model, there is nothing to state about it.
- CliRunner.Run: what the command returns is not looked at, because the runner ignores it. A run that ends normally always exits with 0.
- CpeMatchJson.MatchStringJsonManager.constructor, CpeMatchJson.CpeMatchJsonWriteWorker.constructor: reading and compiling the schema file is not modelled. A given path that is not a readable schema file (an empty path names the current directory, whose `read_text` raises IsADirectoryError) makes the source raise, while the model builds a manager with a validator.
- CveManager.MetricClauses, CveManager.ClausesPerFilter, CveManager.Find, CveManager.CountClauses: the clauses use the corrected v2 severity clause of the second Findings row (`CveManager.V2SeverityClause`), not `cve/manager.py:577-582` as written (`CveManager.V2SeverityClauseAsWritten`).
- Strings.Upper, Strings.Title: they fold ASCII letters only. Python's `str.upper()` (`cve/manager.py:580,585`) and `str.title()` fold non-ASCII letters too.
- CpeMatchJson.MatchStringJsonManager.Write: the validation buffer is never empty for a written document, so validation runs exactly when a validator is configured.

## Findings

| source | as written | input that shows it | evidently intended | confidence | as-written member | corrected member |
|---|---|---|---|---|---|---|
| greenbone/scap/generic_cli/processor.py:40-48 | the `--queue-size` option takes its default from the chunk-size default, 100 | a run without `--queue-size`: the queue holds up to 100 chunks | the queue-size default, 3, as the constructor uses it | not executed | Processor.QueueSizeOptionDefaultDiffers | Processor.QueueSizeOptionAgrees |
| greenbone/scap/cve/manager.py:577-582 | the v2 severity filter compares the severity column of the CVSS v3 table inside the v2 relation | `cvss_v2_severity="HIGH"`: the clause reads a v3 column while ranging over v2 metrics | compare the severity of the v2 metrics themselves | not executed | CveManager.V2SeverityAsWrittenIncoherent | CveManager.V2SeverityClause |

=== FILE: cli.dfy ===
/**
 * How a command is run: inside a timer, with whatever the run raises turned
 * into the process's exit status.
 */
module CliRunner {
  import opened Errors
  import opened Timing

  /** What `sys.exit` is called with, or the error that escapes the runner. */
  datatype Exit = ExitCode(code: nat) | Uncaught(error: Error)

  /**
   * The command given to the runner: a CLI class, whose construction and
   * `run` each may raise, or a coroutine function called with the two
   * consoles.  What the run returns is not looked at.
   */
  datatype Command =
    | CliClass(init: Outcome, run: Outcome)
    | RunnerFunction(call: Outcome)

  /** How the command ended: a class's `run` only runs once the class was built. */
  function Ran(c: Command): (o: Outcome)
    ensures c.RunnerFunction? ==> o == c.call
    ensures c.CliClass? && c.init.Fail? ==> o == c.init
    ensures c.CliClass? && c.init.Pass? ==> o == c.run
  {
    match c
    case CliClass(init, run) => if init.Fail? then init else run
    case RunnerFunction(call) => call
  }

  /**
   * The exit status of a run: 0 when it ends normally, 1 on an interrupt
   * from the keyboard, 2 on a ScapError of any kind, 3 on an HTTP status
   * error; any other error escapes the runner.
   */
  function ExitOf(o: Outcome): Exit
  {
    match o
    case Pass => ExitCode(0)
    case Fail(e) =>
      if e.KeyboardInterrupt? then ExitCode(1)
      else if IsScapError(e) then ExitCode(2)
      else if e.HttpStatusError? then ExitCode(3)
      else Uncaught(e)
  }

  /**
   * Each exit status belongs to exactly one kind of ending: 0 to a normal
   * end, 1 to an interrupt, 2 to the package's own errors (CLIError among
   * them), 3 to an HTTP status error whatever its status; an error of any
   * other kind, an error group from a task group included, is not caught.
   */
  lemma ExitCodes(o: Outcome)
    ensures ExitOf(o) == ExitCode(0) <==> o.Pass?
    ensures ExitOf(o) == ExitCode(1) <==> o == Fail(KeyboardInterrupt)
    ensures ExitOf(o) == ExitCode(2) <==> o.Fail? && IsScapError(o.error)
    ensures ExitOf(o) == ExitCode(3) <==> o.Fail? && o.error.HttpStatusError?
    ensures ExitOf(o).Uncaught? <==>
      o.Fail? && !o.error.KeyboardInterrupt? && !IsScapError(o.error) && !o.error.HttpStatusError?
    ensures ExitOf(o).Uncaught? ==> o == Fail(ExitOf(o).error)
    ensures ExitOf(o).ExitCode? ==> ExitOf(o).code <= 3
  {
  }

  /** A CLIError and a client or server HTTP status error each have their own status. */
  lemma ExitCodeExamples(msg: string, status: int)
    ensures ExitOf(Fail(CliError(msg))) == ExitCode(2)
    ensures ExitOf(Fail(HttpStatusError(status))) == ExitCode(3)
    ensures ExitOf(Fail(TimerError(msg))).Uncaught?
    ensures ExitOf(Fail(ExceptionGroup([CliError(msg)]))).Uncaught?
  {
  }

  /**
   * `CLIRunner.run`: the command runs inside a fresh timer entered at
   * `start` and left at `stop`, which is stopped whatever the command
   * raised.  The result is the exit and the time the timer measured.
   */
  method Run(c: Command, start: int, stop: int) returns (exit: Exit, elapsed: Option<int>)
    ensures exit == ExitOf(Ran(c))
    ensures elapsed == Some(stop - start)
  {
    var timer := new Timer();
    var entered := timer.Enter(start);
    assert entered.Pass?;
    var outcome := Ran(c);
    var left := timer.Exit(stop);
    assert left.Pass?;
    exit := ExitOf(outcome);
    elapsed := timer.elapsedTime;
  }
}

=== FILE: cli_download.dfy ===
/**
 * The two download commands that predate the generic processor, one for
 * CVEs and one for CPEs.  Each requests the results from the NVD API with
 * retries, returns early when nothing is wanted or available, and
 * otherwise runs a producer task and a worker task over a plain bounded
 * queue and a "finished" event, which behave as the chunk queue and its
 * finished flag do (see the Pipeline module).  The CVE command also
 * remembers the id of every CVE it stored.
 *
 * The CVE command passes its PostgreSQL connection the SSL parameters
 * resolved "argument, else environment variable, else default"; the
 * defaults are parameters here.
 */
module DownloadCli {
  import opened Errors
  import opened Settings
  import opened ChunkQueue
  import opened Pipeline
  import opened NvdApiProducer
  import CveManager
  import CpeManager

  const CVE_DEFAULT_QUEUE_SIZE := 10
  const CPE_DEFAULT_QUEUE_SIZE := 3

  // ---------------------------------------------------------------- SSL parameters

  /** One SSL setting: its argument, its environment variable and its default. */
  datatype SslSource = SslSource(arg: Option<string>, env: Option<string>, default: Option<string>)

  /** `arg or env or default`. */
  function Resolve(s: SslSource): (v: Option<string>)
    ensures Truthy(s.arg) ==> v == s.arg
    ensures !Truthy(s.arg) && Truthy(s.env) ==> v == s.env
    ensures !Truthy(s.arg) && !Truthy(s.env) ==> v == s.default
  {
    OrElse(OrElse(s.arg, s.env), s.default)
  }

  /** The SSL settings; channel binding has an argument and an environment variable but no default. */
  datatype SslArgs = SslArgs(
    channelBinding: Option<string>,
    channelBindingEnv: Option<string>,
    rootcert: SslSource,
    cert: SslSource,
    key: SslSource,
    passphrase: SslSource)

  const SSL_KEYS: seq<string> := ["channel_binding", "sslrootcert", "sslcert", "sslkey", "sslpassword"]

  /** The five resolved values, under their libpq keys, in the order the parameters list them. */
  function SslValues(a: SslArgs): (entries: seq<(string, Option<string>)>)
    ensures |entries| == |SSL_KEYS|
    ensures forall i :: 0 <= i < |entries| ==> entries[i].0 == SSL_KEYS[i]
    ensures entries[0].1 == OrElse(a.channelBinding, a.channelBindingEnv)
    ensures entries[1].1 == Resolve(a.rootcert) && entries[2].1 == Resolve(a.cert)
    ensures entries[3].1 == Resolve(a.key) && entries[4].1 == Resolve(a.passphrase)
  {
    [("channel_binding", OrElse(a.channelBinding, a.channelBindingEnv)),
     ("sslrootcert", Resolve(a.rootcert)),
     ("sslcert", Resolve(a.cert)),
     ("sslkey", Resolve(a.key)),
     ("sslpassword", Resolve(a.passphrase))]
  }

  /** The entries that have a value, in order. */
  function Present(entries: seq<(string, Option<string>)>): (kept: seq<(string, string)>)
    ensures |kept| <= |entries|
  {
    if entries == [] then []
    else (if entries[0].1.Some? then [(entries[0].0, entries[0].1.value)] else []) + Present(entries[1..])
  }

  /**
   * Keeping the present entries preserves their order: the kept entries of a
   * concatenation are those of the first part followed by those of the second.
   */
  lemma {:induction false} PresentKeepsOrder(a: seq<(string, Option<string>)>, b: seq<(string, Option<string>)>)
    ensures Present(a + b) == Present(a) + Present(b)
    decreases |a|
  {
    if a == [] {
      assert a + b == b;
    } else {
      var head := if a[0].1.Some? then [(a[0].0, a[0].1.value)] else [];
      assert (a + b)[0] == a[0] && (a + b)[1..] == a[1..] + b;
      assert Present(a + b) == head + Present(a[1..] + b);
      PresentKeepsOrder(a[1..], b);
    }
  }

  /** An entry is kept, with its value, exactly when it has one; nothing else is kept. */
  lemma {:induction false} PresentKeepsExactlyTheValues(entries: seq<(string, Option<string>)>, k: string, v: string)
    ensures (k, v) in Present(entries) <==> (k, Some(v)) in entries
    ensures Present(entries) == [] <==> forall i :: 0 <= i < |entries| ==> entries[i].1.None?
    decreases |entries|
  {
    if entries != [] {
      PresentKeepsExactlyTheValues(entries[1..], k, v);
      assert entries == [entries[0]] + entries[1..];
      if entries[0].1.None? {
        assert forall i :: 1 <= i < |entries| ==> entries[i] == entries[1..][i - 1];
      }
    }
  }

  /** `get_ssl_params`: None when no value resolved; otherwise the settings that have a value. */
  function GetSslParams(a: SslArgs): (r: Option<seq<(string, string)>>)
    ensures r.None? <==> forall i :: 0 <= i < |SSL_KEYS| ==> SslValues(a)[i].1.None?
    ensures r.Some? ==> r.value == Present(SslValues(a)) && r.value != []
  {
    var values := SslValues(a);
    PresentKeepsExactlyTheValues(values, "", "");
    if forall i :: 0 <= i < |values| ==> values[i].1.None? then None else Some(Present(values))
  }

  /**
   * The parameters hold each setting that resolved to a value, under its own
   * key and with that value, and nothing else.
   */
  lemma SslParamsHoldTheValues(a: SslArgs, k: string, v: string)
    requires GetSslParams(a).Some?
    ensures (k, v) in GetSslParams(a).value <==> (k, Some(v)) in SslValues(a)
  {
    PresentKeepsExactlyTheValues(SslValues(a), k, v);
  }

  /** A given root certificate default alone is enough to pass SSL parameters. */
  lemma RootcertDefaultGivesParams(a: SslArgs, rootcert: string)
    requires a.rootcert.default == Some(rootcert) && !Truthy(a.rootcert.arg) && !Truthy(a.rootcert.env)
    ensures GetSslParams(a).Some? && ("sslrootcert", rootcert) in GetSslParams(a).value
  {
    SslParamsHoldTheValues(a, "sslrootcert", rootcert);
    assert SslValues(a)[1] == ("sslrootcert", Some(rootcert));
  }

  /** `sslmode` "disable" passes no SSL parameters; any other mode passes `get_ssl_params`. */
  function SslParamsFor(sslMode: Option<string>, a: SslArgs): (r: Option<seq<(string, string)>>)
    ensures sslMode == Some("disable") ==> r.None?
    ensures sslMode != Some("disable") ==> r == GetSslParams(a)
  {
    if sslMode == Some("disable") then None else GetSslParams(a)
  }

  // ---------------------------------------------------------------- the download phase

  /**
   * What the outside world does during a download: each attempt's answer to
   * the initial request, each download attempt, the scheduler's picks, and
   * which chunk's handling raises, if any.
   */
  datatype World<T> = World(
    tries: seq<Result<nat>>,
    runs: seq<DownloadAttempt<T>>,
    schedule: seq<Actor>,
    failure: Option<(nat, Error)>)

  /** The world answers every attempt the retry loops can make. */
  predicate Covers<T>(w: World<T>, retryAttempts: int)
  {
    Attempts(retryAttempts) <= |w.tries| && Attempts(retryAttempts) <= |w.runs|
  }

  /** How `download` ended: early, or after running both tasks with a total and a retry budget. */
  datatype Phase<T> =
    | NothingToDownload(resultCount: nat)
    | Downloaded(total: int, budget: int, run: System<T>)

  /** The download budget left after the initial request never allows more attempts than it had. */
  lemma BudgetWithinAttempts<R>(tries: seq<Result<R>>, n: int)
    requires Attempts(n) <= |tries|
    ensures Attempts(n - (Retry(tries, n).0 - 1)) <= Attempts(n)
  {
    RetryOutcome(tries, n);
  }

  /**
   * `download`: the initial request with retries (an error that ends them
   * propagates); no download when `request_results` is 0 or no results are
   * available; otherwise the producer, with the budget left, and the worker
   * run over a fresh queue until the schedule ends.  `countFirst` says
   * whether the worker counts a chunk before storing it (CPEs) or after
   * (CVEs).
   */
  function DownloadPhase<T>(requestResults: Option<int>, retryAttempts: int, w: World<T>, queueSize: int,
                            countFirst: bool): (r: Result<Phase<T>>)
    requires Covers(w, retryAttempts)
    ensures r.Ok? && r.value.Downloaded? ==>
      r.value.budget == retryAttempts - (Retry(w.tries, retryAttempts).0 - 1) &&
      Attempts(r.value.budget) <= Attempts(retryAttempts)
  {
    var (last, res) := Retry(w.tries, retryAttempts);
    var count :- res;
    var budget := retryAttempts - (last - 1);
    if requestResults == Some(0) || count == 0 then Ok(NothingToDownload(count))
    else
      BudgetWithinAttempts(w.tries, retryAttempts);
      var (plan, ending) := DownloadFrom(w.runs, budget, 1);
      Ok(Downloaded(ExpectedTotal(requestResults, count), budget,
                    Drive(Init(plan, ending, queueSize, 0, w.failure, countFirst), w.schedule)))
  }

  /** The initial request with retries, attempt by attempt. */
  method RequestWithRetries(tries: seq<Result<nat>>, n: int) returns (last: nat, res: Result<nat>)
    requires Attempts(n) <= |tries|
    ensures (last, res) == Retry(tries, n)
  {
    var k := 1;
    while true
      invariant 1 <= k <= Attempts(n)
      invariant RetryFrom(tries, n, k) == Retry(tries, n)
      decreases Attempts(n) - k
    {
      match tries[k - 1]
      case Ok(count) =>
        return k, Ok(count);
      case Err(e) =>
        if Continues(e, k, n) {
          k := k + 1;
        } else {
          return k, Err(e);
        }
    }
  }

  /** The steps of `download` both commands share. */
  method RunDownload<T>(requestResults: Option<int>, retryAttempts: int, w: World<T>, queueSize: int,
                        countFirst: bool) returns (r: Result<Phase<T>>)
    requires Covers(w, retryAttempts)
    ensures r == DownloadPhase(requestResults, retryAttempts, w, queueSize, countFirst)
  {
    var last, res := RequestWithRetries(w.tries, retryAttempts);
    if res.Err? {
      return Err(res.error);
    }
    var count := res.value;
    var budget: int := retryAttempts - (last as int - 1);
    if requestResults == Some(0) || count == 0 {
      return Ok(NothingToDownload(count));
    }
    var total := ExpectedTotal(requestResults, count);
    BudgetWithinAttempts(w.tries, retryAttempts);
    var (plan, ending) := DownloadFrom(w.runs, budget, 1);
    var run := Drive(Init(plan, ending, queueSize, 0, w.failure, countFirst), w.schedule);
    r := Ok(Downloaded(total, budget, run));
  }

  /**
   * `download` returns early, starting neither task, exactly when the
   * initial request succeeded and either no results were requested or none
   * are available; an error of the initial request is raised unchanged.
   */
  lemma DownloadReturnsEarly<T>(requestResults: Option<int>, retryAttempts: int, w: World<T>, queueSize: int,
                                countFirst: bool)
    requires Covers(w, retryAttempts)
    ensures var r := DownloadPhase(requestResults, retryAttempts, w, queueSize, countFirst);
      var res := Retry(w.tries, retryAttempts).1;
      (r.Err? <==> res.Err?) && (r.Err? ==> r.error == res.error) &&
      (r.Ok? && r.value.NothingToDownload? <==> res.Ok? && (requestResults == Some(0) || res.value == 0))
  {
  }

  /**
   * When both tasks run, the expected total is `min(request_results or
   * result_count, result_count)`: at most the available count, all of it
   * without a cap, and positive and at most a positive cap; and the producer's budget is n - (k - 1)
   * for the successful attempt k, between 1 and n.
   */
  lemma DownloadTotalAndBudget<T>(requestResults: Option<int>, retryAttempts: int, w: World<T>, queueSize: int,
                                  countFirst: bool)
    requires Covers(w, retryAttempts)
    requires DownloadPhase(requestResults, retryAttempts, w, queueSize, countFirst).Ok?
    requires DownloadPhase(requestResults, retryAttempts, w, queueSize, countFirst).value.Downloaded?
    ensures var p := DownloadPhase(requestResults, retryAttempts, w, queueSize, countFirst).value;
      var (last, res) := Retry(w.tries, retryAttempts);
      res.Ok? && res.value > 0 &&
      p.total == ExpectedTotal(requestResults, res.value) && p.total <= res.value &&
      (requestResults.None? ==> p.total == res.value) &&
      (requestResults.Some? && requestResults.value > 0 ==> 0 < p.total <= requestResults.value) &&
      p.budget == retryAttempts - (last - 1) &&
      (retryAttempts >= 1 ==> 1 <= p.budget <= retryAttempts)
  {
    ExpectedTotalBounds(requestResults, Retry(w.tries, retryAttempts).1.value);
    RetryOutcome(w.tries, retryAttempts);
  }

  /**
   * Whatever the schedule: the producer has set the finished event once it
   * has returned or raised; the worker has stored a prefix of what the
   * download yielded, in order; and its counter covers the chunks it took
   * (counting first) or only those it stored (counting after).
   */
  lemma DownloadRunInvariant<T>(requestResults: Option<int>, retryAttempts: int, w: World<T>, queueSize: int,
                                countFirst: bool)
    requires Covers(w, retryAttempts)
    requires DownloadPhase(requestResults, retryAttempts, w, queueSize, countFirst).Ok?
    requires DownloadPhase(requestResults, retryAttempts, w, queueSize, countFirst).value.Downloaded?
    ensures var p := DownloadPhase(requestResults, retryAttempts, w, queueSize, countFirst).value;
      var s := p.run;
      (s.producer.done.Some? ==> s.queue.producerFinished) &&
      s.producer.plan == DownloadFrom(w.runs, p.budget, 1).0 &&
      s.worker.handled <= s.producer.plan &&
      s.worker.processed == (if countFirst then TotalLen(s.worker.taken) else TotalLen(s.worker.handled))
  {
    var p := DownloadPhase(requestResults, retryAttempts, w, queueSize, countFirst).value;
    BudgetWithinAttempts(w.tries, retryAttempts);
    var (plan, ending) := DownloadFrom(w.runs, p.budget, 1);
    var s0 := Init(plan, ending, queueSize, 0, w.failure, countFirst);
    InitInv(plan, ending, queueSize, 0, w.failure, countFirst);
    DriveKeepsInv(s0, w.schedule);
    DriveKeepsSetup(s0, w.schedule);
    HandledIsPrefixOfPlan(p.run);
  }

  /**
   * A download that completes stored every chunk of every attempt made, in
   * order, and counted every item.
   */
  lemma CompletedDownloadStoresAll<T>(requestResults: Option<int>, retryAttempts: int, w: World<T>, queueSize: int,
                                      countFirst: bool)
    requires Covers(w, retryAttempts)
    requires DownloadPhase(requestResults, retryAttempts, w, queueSize, countFirst).Ok?
    requires DownloadPhase(requestResults, retryAttempts, w, queueSize, countFirst).value.Downloaded?
    requires DownloadPhase(requestResults, retryAttempts, w, queueSize, countFirst).value.run.Status() == Some(Pass)
    ensures var p := DownloadPhase(requestResults, retryAttempts, w, queueSize, countFirst).value;
      p.run.worker.handled == DownloadFrom(w.runs, p.budget, 1).0 &&
      p.run.worker.processed == TotalLen(DownloadFrom(w.runs, p.budget, 1).0)
  {
    var p := DownloadPhase(requestResults, retryAttempts, w, queueSize, countFirst).value;
    BudgetWithinAttempts(w.tries, retryAttempts);
    var (plan, ending) := DownloadFrom(w.runs, p.budget, 1);
    var s0 := Init(plan, ending, queueSize, 0, w.failure, countFirst);
    InitInv(plan, ending, queueSize, 0, w.failure, countFirst);
    DriveKeepsInv(s0, w.schedule);
    DriveKeepsSetup(s0, w.schedule);
    CompletedDeliversAll(p.run);
  }

  // ---------------------------------------------------------------- the two commands

  /** The ids of the given CVEs. */
  function IdSet(cves: seq<CveManager.Cve>): (ids: set<string>)
    ensures forall i :: 0 <= i < |cves| ==> cves[i].id in ids
    ensures forall id :: id in ids ==> exists i :: 0 <= i < |cves| && cves[i].id == id
  {
    set i | 0 <= i < |cves| :: cves[i].id
  }

  /** The CVEs the worker stored in a phase, none when it returned early. */
  function StoredCves(p: Phase<CveManager.Cve>): seq<CveManager.Cve>
  {
    if p.Downloaded? then Flatten(p.run.worker.handled) else []
  }

  class CveCli {
    const queueSize: int
    const chunkSize: Option<int>   // passed to the API as the page size
    const verbose: int
    var cvesToUpdate: set<string>

    constructor(verbose: int, chunkSize: Option<int>, queueSize: int)
      ensures this.verbose == verbose && this.chunkSize == chunkSize && this.queueSize == queueSize
      ensures cvesToUpdate == {}
    {
      this.verbose := verbose;
      this.chunkSize := chunkSize;
      this.queueSize := queueSize;
      cvesToUpdate := {};
    }

    /**
     * `CVECli.download`.  The worker stores each chunk, then adds its ids to
     * `cves_to_update`, marks it done, and only then counts its items.
     */
    method Download(requestResults: Option<int>, retryAttempts: int, w: World<CveManager.Cve>)
      returns (r: Result<Phase<CveManager.Cve>>)
      requires Covers(w, retryAttempts)
      modifies this
      ensures r == DownloadPhase(requestResults, retryAttempts, w, queueSize, false)
      ensures cvesToUpdate == old(cvesToUpdate) + (if r.Ok? then IdSet(StoredCves(r.value)) else {})
    {
      r := RunDownload(requestResults, retryAttempts, w, queueSize, false);
      if r.Ok? {
        cvesToUpdate := cvesToUpdate + IdSet(StoredCves(r.value));
      }
    }
  }

  /** After a completed download `cves_to_update` holds the id of every CVE downloaded. */
  lemma CompletedDownloadUpdatesEveryCve(requestResults: Option<int>, retryAttempts: int,
                                         w: World<CveManager.Cve>, queueSize: int)
    requires Covers(w, retryAttempts)
    requires DownloadPhase(requestResults, retryAttempts, w, queueSize, false).Ok?
    requires DownloadPhase(requestResults, retryAttempts, w, queueSize, false).value.Downloaded?
    requires DownloadPhase(requestResults, retryAttempts, w, queueSize, false).value.run.Status() == Some(Pass)
    ensures var p := DownloadPhase(requestResults, retryAttempts, w, queueSize, false).value;
      IdSet(StoredCves(p)) == IdSet(Flatten(DownloadFrom(w.runs, p.budget, 1).0))
  {
    CompletedDownloadStoresAll(requestResults, retryAttempts, w, queueSize, false);
  }

  class CpeCli {
    const queueSize: int
    const chunkSize: Option<int>   // passed to the API as the page size
    const verbose: int

    constructor(verbose: int, chunkSize: Option<int>, queueSize: int)
      ensures this.verbose == verbose && this.chunkSize == chunkSize && this.queueSize == queueSize
    {
      this.verbose := verbose;
      this.chunkSize := chunkSize;
      this.queueSize := queueSize;
    }

    /**
     * `CPECli.download`.  The worker counts a chunk's items as soon as it
     * takes the chunk, then stores it, and marks it done only after the
     * store returned.
     */
    method Download(requestResults: Option<int>, retryAttempts: int, w: World<CpeManager.Cpe>)
      returns (r: Result<Phase<CpeManager.Cpe>>)
      requires Covers(w, retryAttempts)
      ensures r == DownloadPhase(requestResults, retryAttempts, w, queueSize, true)
    {
      r := RunDownload(requestResults, retryAttempts, w, queueSize, true);
    }
  }

  // ---------------------------------------------------------------- the commands' entry points

  datatype Command = CveDownload | CpeDownload

  function ItemName(c: Command): string
  {
    match c
    case CveDownload => "CVE"
    case CpeDownload => "CPE"
  }

  /** The database password: the argument, else the item-specific variable, else DATABASE_PASSWORD. */
  function DatabasePassword(arg: Option<string>, itemEnv: Option<string>, env: Option<string>): (p: Option<string>)
    ensures Truthy(p) <==> Truthy(arg) || Truthy(itemEnv) || Truthy(env)
  {
    OrElse(OrElse(arg, itemEnv), env)
  }

  /** `since and until`: the end of the modification window is only set when a start is. */
  function LastModifiedEnd<D>(since: Option<D>, until: Option<D>): (end: Option<D>)
    ensures since.None? ==> end.None?
    ensures since.Some? ==> end == until
  {
    if since.Some? then until else None
  }

  /**
   * The top-level `download` of each command: a missing password raises
   * CLIError; the CVE command skips the API phase when `--number` is 0,
   * while the CPE command always runs it (which then returns early); the
   * number is the requested result count.  None stands for a skipped phase.
   */
  function TopLevelDownload<T>(c: Command, password: Option<string>, number: Option<int>, retryAttempts: int,
                   w: World<T>, queueSize: int): (r: Result<Option<Phase<T>>>)
    requires Covers(w, retryAttempts)
  {
    if !Truthy(password) then Err(CliError("Missing password for " + ItemName(c) + " database"))
    else if c == CveDownload && number == Some(0) then Ok(None)
    else
      var p :- DownloadPhase(number, retryAttempts, w, queueSize, c == CpeDownload);
      Ok(Some(p))
  }

  /**
   * With `--number 0` neither command downloads anything: the CVE command
   * makes no request at all, the CPE command makes the initial request and
   * returns early.  Without a password neither gets that far.
   */
  lemma NumberZeroDownloadsNothing<T>(c: Command, password: Option<string>, retryAttempts: int,
                                      w: World<T>, queueSize: int)
    requires Covers(w, retryAttempts)
    ensures var r := TopLevelDownload(c, password, Some(0), retryAttempts, w, queueSize);
      (!Truthy(password) ==> r == Err(CliError("Missing password for " + ItemName(c) + " database"))) &&
      (Truthy(password) && c == CveDownload ==> r == Ok(None)) &&
      (Truthy(password) && c == CpeDownload && Retry(w.tries, retryAttempts).1.Ok? ==>
        r == Ok(Some(NothingToDownload(Retry(w.tries, retryAttempts).1.value))))
  {
    if Truthy(password) && c == CpeDownload {
      DownloadReturnsEarly(Some(0), retryAttempts, w, queueSize, true);
    }
  }
}

=== FILE: cpe_manager.dfy ===
/**
 * The CPE database manager: CPEs are buffered and written in batches, each
 * batch as one transaction holding the CPE rows, their parsed `cpe_names`
 * rows and the rows of their titles, references and deprecations; and the
 * conditions `find` selects CPEs with, by CPE attributes, deprecation and
 * version ranges.  Parsing a CPE name and canonicalising a version are
 * functions of other libraries and enter the model as parameters; the
 * parser gives None for a name it rejects, which raises a parse error in
 * `find` and rolls back the batch transaction.
 */
module CpeManager {
  import opened Errors
  import opened Settings
  import opened ChunkQueue
  import opened WriteBuffer

  const DEFAULT_THRESHOLD := 100
  const DEFAULT_YIELD_PER := 100

  /** The logical values of CPE attributes: any value, and not applicable. */
  const ANY := "*"
  const NA := "-"

  /** A CPE name split into its eleven attributes. */
  datatype CpeName = CpeName(
    part: string, vendor: string, product: string, version: string, update: string,
    edition: string, language: string, swEdition: string, targetSw: string,
    targetHw: string, other: string)

  /** The columns of the `cpe_names` table a condition can compare. */
  datatype Column =
    | Part | Vendor | Product | Version | Update | Edition | Language
    | SwEdition | TargetSw | TargetHw | Other

  function Attribute(n: CpeName, c: Column): string
  {
    match c
    case Part => n.part
    case Vendor => n.vendor
    case Product => n.product
    case Version => n.version
    case Update => n.update
    case Edition => n.edition
    case Language => n.language
    case SwEdition => n.swEdition
    case TargetSw => n.targetSw
    case TargetHw => n.targetHw
    case Other => n.other
  }

  /** The ten attributes after the part, in the order `cpe_condition` tests them. */
  const ATTRIBUTE_COLUMNS: seq<Column> :=
    [Vendor, Product, Version, Update, Edition, Language, SwEdition, TargetSw, TargetHw, Other]

  /**
   * One comparison of a conjunction.  The version bounds compare the
   * canonical version column with the canonical form of the bound, both as
   * integer arrays.
   */
  datatype Comparison =
    | Equals(column: Column, value: string)
    | VersionAbove(bound: Option<string>)
    | VersionAtLeast(bound: Option<string>)
    | VersionBelow(bound: Option<string>)
    | VersionAtMost(bound: Option<string>)

  /** A conjunction of comparisons; the empty conjunction is `true`. */
  type Condition = seq<Comparison>

  function AttributeComparisons(n: CpeName, exact: bool, cols: seq<Column>): (cs: Condition)
    ensures |cs| <= |cols|
  {
    if cols == [] then []
    else
      (if exact || Attribute(n, cols[0]) != ANY then [Equals(cols[0], Attribute(n, cols[0]))] else []) +
      AttributeComparisons(n, exact, cols[1..])
  }

  /** `cpe_condition`: the part, then each other attribute that is exact-matched or not ANY. */
  function CpeCondition(n: CpeName, exact: bool): (cs: Condition)
    ensures |cs| >= 1 && cs[0] == Equals(Part, n.part)
  {
    [Equals(Part, n.part)] + AttributeComparisons(n, exact, ATTRIBUTE_COLUMNS)
  }

  lemma {:induction false} AttributeComparisonsMembers(n: CpeName, exact: bool, cols: seq<Column>, c: Comparison)
    ensures c in AttributeComparisons(n, exact, cols) <==>
      c.Equals? && c.column in cols && c.value == Attribute(n, c.column) && (exact || c.value != ANY)
    decreases |cols|
  {
    if cols != [] {
      AttributeComparisonsMembers(n, exact, cols[1..], c);
      assert cols == [cols[0]] + cols[1..];
    }
  }

  /**
   * The part is always constrained; each of the other ten attributes is
   * constrained, to its own value, exactly when `exact` is set or it is not
   * ANY; nothing else is compared.
   */
  lemma CpeConditionMembers(n: CpeName, exact: bool, c: Comparison)
    ensures Equals(Part, n.part) in CpeCondition(n, exact)
    ensures c in CpeCondition(n, exact) <==>
      c == Equals(Part, n.part) ||
      (c.Equals? && c.column != Part && c.value == Attribute(n, c.column) && (exact || c.value != ANY))
  {
    AttributeComparisonsMembers(n, exact, ATTRIBUTE_COLUMNS, c);
    assert c.Equals? && c.column != Part ==> c.column in ATTRIBUTE_COLUMNS;
  }

  /** An exact condition compares all eleven attributes. */
  lemma {:induction false} ExactComparesAll(n: CpeName, cols: seq<Column>)
    ensures |AttributeComparisons(n, true, cols)| == |cols|
    decreases |cols|
  {
    if cols != [] {
      ExactComparesAll(n, cols[1..]);
    }
  }

  // ---------------------------------------------------------------- version ranges

  /** A validated version range: an optional CPE and up to one bound at each end. */
  datatype VersionRange = VersionRange(
    cpe: Option<CpeName>,
    versionStartExcluding: Option<string>,
    versionStartIncluding: Option<string>,
    versionEndExcluding: Option<string>,
    versionEndIncluding: Option<string>)
  {
    /** `__bool__`: a range means something when it has a CPE or any non-empty bound. */
    predicate Truthy()
    {
      cpe.Some? || Settings.Truthy(versionEndExcluding) || Settings.Truthy(versionEndIncluding) ||
      Settings.Truthy(versionStartExcluding) || Settings.Truthy(versionStartIncluding)
    }

    /** The range's own validity: not two bounds at the same end. */
    predicate Valid()
    {
      !(Settings.Truthy(versionStartExcluding) && Settings.Truthy(versionStartIncluding)) &&
      !(Settings.Truthy(versionEndExcluding) && Settings.Truthy(versionEndIncluding))
    }
  }

  /** Constructing a range: two start bounds, or else two end bounds, raise VersionRangeError. */
  function NewVersionRange(cpe: Option<CpeName>, startExcluding: Option<string>, startIncluding: Option<string>,
                           endExcluding: Option<string>, endIncluding: Option<string>): (r: Result<VersionRange>)
    ensures r.Ok? <==> VersionRange(cpe, startExcluding, startIncluding, endExcluding, endIncluding).Valid()
    ensures r.Ok? ==> r.value == VersionRange(cpe, startExcluding, startIncluding, endExcluding, endIncluding)
    ensures r.Err? ==> r.error.VersionRangeError? && IsScapError(r.error)
    ensures Truthy(startExcluding) && Truthy(startIncluding) ==>
      r == Err(VersionRangeError("Both version_start_excluding and version_start_including are provided"))
  {
    if Truthy(startExcluding) && Truthy(startIncluding) then
      Err(VersionRangeError("Both version_start_excluding and version_start_including are provided"))
    else if Truthy(endExcluding) && Truthy(endIncluding) then
      Err(VersionRangeError("Both version_end_excluding and version_end_including are provided"))
    else
      Ok(VersionRange(cpe, startExcluding, startIncluding, endExcluding, endIncluding))
  }

  predicate IsLowerBound(c: Comparison) { c.VersionAbove? || c.VersionAtLeast? }
  predicate IsUpperBound(c: Comparison) { c.VersionBelow? || c.VersionAtMost? }

  /** The number of comparisons of a condition that satisfy a kind. */
  function CountLower(cs: Condition): nat
  {
    if cs == [] then 0 else (if IsLowerBound(cs[0]) then 1 else 0) + CountLower(cs[1..])
  }

  function CountUpper(cs: Condition): nat
  {
    if cs == [] then 0 else (if IsUpperBound(cs[0]) then 1 else 0) + CountUpper(cs[1..])
  }

  lemma {:induction false} CountAppend(a: Condition, b: Condition)
    ensures CountLower(a + b) == CountLower(a) + CountLower(b)
    ensures CountUpper(a + b) == CountUpper(a) + CountUpper(b)
    decreases |a|
  {
    if a != [] {
      assert (a + b)[1..] == a[1..] + b;
      CountAppend(a[1..], b);
    } else {
      assert a + b == b;
    }
  }

  lemma {:induction false} AttributeComparisonsHaveNoBounds(n: CpeName, exact: bool, cols: seq<Column>)
    ensures CountLower(AttributeComparisons(n, exact, cols)) == 0
    ensures CountUpper(AttributeComparisons(n, exact, cols)) == 0
    decreases |cols|
  {
    if cols != [] {
      var head := if exact || Attribute(n, cols[0]) != ANY then [Equals(cols[0], Attribute(n, cols[0]))] else [];
      AttributeComparisonsHaveNoBounds(n, exact, cols[1..]);
      CountAppend(head, AttributeComparisons(n, exact, cols[1..]));
    }
  }

  /** The lower bound of a range, exclusive before inclusive, compared in canonical form. */
  function LowerBound(r: VersionRange, canon: string -> Option<string>): (cs: Condition)
    ensures CountLower(cs) == (if Truthy(r.versionStartExcluding) || Truthy(r.versionStartIncluding) then 1 else 0)
    ensures CountUpper(cs) == 0
  {
    if Truthy(r.versionStartExcluding) then [VersionAbove(canon(r.versionStartExcluding.value))]
    else if Truthy(r.versionStartIncluding) then [VersionAtLeast(canon(r.versionStartIncluding.value))]
    else []
  }

  /** The upper bound of a range, exclusive before inclusive, compared in canonical form. */
  function UpperBound(r: VersionRange, canon: string -> Option<string>): (cs: Condition)
    ensures CountUpper(cs) == (if Truthy(r.versionEndExcluding) || Truthy(r.versionEndIncluding) then 1 else 0)
    ensures CountLower(cs) == 0
  {
    if Truthy(r.versionEndExcluding) then [VersionBelow(canon(r.versionEndExcluding.value))]
    else if Truthy(r.versionEndIncluding) then [VersionAtMost(canon(r.versionEndIncluding.value))]
    else []
  }

  function CpeConditionOf(r: VersionRange): (cs: Condition)
    ensures CountLower(cs) == 0 && CountUpper(cs) == 0
  {
    if r.cpe.Some? then
      AttributeComparisonsHaveNoBounds(r.cpe.value, false, ATTRIBUTE_COLUMNS);
      CountAppend([Equals(Part, r.cpe.value.part)], AttributeComparisons(r.cpe.value, false, ATTRIBUTE_COLUMNS));
      CpeCondition(r.cpe.value, false)
    else []
  }

  /** `as_condition`: the CPE's condition (or `true`), then the lower bound, then the upper bound. */
  function AsCondition(r: VersionRange, canon: string -> Option<string>): Condition
  {
    CpeConditionOf(r) + LowerBound(r, canon) + UpperBound(r, canon)
  }

  /**
   * A range's condition holds at most one lower and at most one upper
   * bound, one exactly when a bound is given at that end.
   */
  lemma AsConditionBounds(r: VersionRange, canon: string -> Option<string>)
    ensures CountLower(AsCondition(r, canon)) ==
      (if Truthy(r.versionStartExcluding) || Truthy(r.versionStartIncluding) then 1 else 0)
    ensures CountUpper(AsCondition(r, canon)) ==
      (if Truthy(r.versionEndExcluding) || Truthy(r.versionEndIncluding) then 1 else 0)
  {
    CountAppend(CpeConditionOf(r), LowerBound(r, canon));
    CountAppend(CpeConditionOf(r) + LowerBound(r, canon), UpperBound(r, canon));
  }

  /** A range with a CPE starts with the CPE's condition; one with nothing at all is `true`. */
  lemma AsConditionStartsWithCpe(r: VersionRange, canon: string -> Option<string>)
    ensures r.cpe.Some? ==>
      AsCondition(r, canon)[..|CpeCondition(r.cpe.value, false)|] == CpeCondition(r.cpe.value, false)
    ensures !r.Truthy() ==> AsCondition(r, canon) == []
  {
    var base := CpeConditionOf(r);
    assert AsCondition(r, canon) == base + (LowerBound(r, canon) + UpperBound(r, canon));
  }

  // ---------------------------------------------------------------- find

  /** The kinds of value `find` accepts for its `cpe` argument. */
  datatype CpeArgument =
    | NoCpe
    | CpeString(name: string)
    | WithCpeName(cpeName: string)   // an object with a `cpe_name` attribute
    | ParsedCpe(parsed: CpeName)
    | OtherValue                     // anything else

  datatype Clause =
    | Matches(condition: Condition)
    | DeprecatedIsNot(value: bool)
    | VersionNotNull
    | VersionNotNa
    | AnyOf(conditions: seq<Condition>)

  datatype FindArgs = FindArgs(
    cpe: CpeArgument, exact: bool, deprecated: Option<bool>, hasVersion: Option<bool>,
    limit: Option<int>, orderByCpeName: bool, versionRanges: Option<seq<VersionRange>>)

  /**
   * A select of CPEs.  `find` joins each CPE with its `cpe_names` row, so a
   * CPE without one is never found; `all` joins outer and finds every CPE.
   */
  datatype Query = Query(clauses: seq<Clause>, limit: Option<int>, orderByCpeName: bool, outerJoin: bool)

  /** The conditions of the truthy ranges, in order; falsy ranges are left out. */
  function RangeConditions(rs: seq<VersionRange>, canon: string -> Option<string>): seq<Condition>
  {
    if rs == [] then []
    else (if rs[0].Truthy() then [AsCondition(rs[0], canon)] else []) + RangeConditions(rs[1..], canon)
  }

  function TruthyCount(rs: seq<VersionRange>): nat
  {
    if rs == [] then 0 else (if rs[0].Truthy() then 1 else 0) + TruthyCount(rs[1..])
  }

  /** One condition per truthy range, and every condition is a truthy range's. */
  lemma {:induction false} RangeConditionsOfTruthy(rs: seq<VersionRange>, canon: string -> Option<string>)
    ensures |RangeConditions(rs, canon)| == TruthyCount(rs)
    ensures forall c :: c in RangeConditions(rs, canon) ==>
      exists i :: 0 <= i < |rs| && rs[i].Truthy() && c == AsCondition(rs[i], canon)
    decreases |rs|
  {
    if rs != [] {
      RangeConditionsOfTruthy(rs[1..], canon);
      forall c | c in RangeConditions(rs, canon)
        ensures exists i :: 0 <= i < |rs| && rs[i].Truthy() && c == AsCondition(rs[i], canon)
      {
        if !(rs[0].Truthy() && c == AsCondition(rs[0], canon)) {
          var i :| 0 <= i < |rs[1..]| && rs[1..][i].Truthy() && c == AsCondition(rs[1..][i], canon);
          assert rs[i + 1] == rs[1..][i];
        }
      }
    }
  }

  /** The CPE name a string argument, or an object's `cpe_name`, holds. */
  function NameOf(a: CpeArgument): string
    requires a.CpeString? || a.WithCpeName?
  {
    if a.CpeString? then a.name else a.cpeName
  }

  /** Whether a `cpe` argument is of a supported kind and, when it is a name, pontos accepts it. */
  predicate Parses(a: CpeArgument, parse: string -> Option<CpeName>)
  {
    match a
    case NoCpe => true
    case CpeString(s) => parse(s).Some?
    case WithCpeName(s) => parse(s).Some?
    case ParsedCpe(_) => true
    case OtherValue => false
  }

  /** `CPE.from_string`: the parsed name, or the parse error for a name pontos rejects. */
  function ParseName(s: string, parse: string -> Option<CpeName>): Result<CpeName>
  {
    if parse(s).Some? then Ok(parse(s).value) else Err(CpeParseError(s))
  }

  /**
   * The parsed CPE a `cpe` argument stands for: a name is parsed, and a name
   * pontos rejects raises its parse error; any other kind of value is a
   * TypeError.
   */
  function ParseArgument(a: CpeArgument, parse: string -> Option<CpeName>): (r: Result<Option<CpeName>>)
    ensures r.Ok? <==> Parses(a, parse)
    ensures a.OtherValue? ==> r == Err(TypeError("Invalid type for cpe argument"))
    ensures a.NoCpe? ==> r == Ok(None)
    ensures a.ParsedCpe? ==> r == Ok(Some(a.parsed))
    ensures (a.CpeString? || a.WithCpeName?) && parse(NameOf(a)).Some? ==> r == Ok(Some(parse(NameOf(a)).value))
    ensures (a.CpeString? || a.WithCpeName?) && parse(NameOf(a)).None? ==> r == Err(CpeParseError(NameOf(a)))
  {
    match a
    case NoCpe => Ok(None)
    case CpeString(s) =>
      var n :- ParseName(s, parse);
      Ok(Some(n))
    case WithCpeName(s) =>
      var n :- ParseName(s, parse);
      Ok(Some(n))
    case ParsedCpe(n) => Ok(Some(n))
    case OtherValue => Err(TypeError("Invalid type for cpe argument"))
  }

  /** The CPE's condition, when a CPE is given. */
  function CpeClauses(cpe: Option<CpeName>, exact: bool): (cs: seq<Clause>)
    ensures cpe.None? ==> cs == []
    ensures cpe.Some? ==> cs == [Matches(CpeCondition(cpe.value, exact))]
  {
    if cpe.Some? then [Matches(CpeCondition(cpe.value, exact))] else []
  }

  /** `deprecated != (not d)`: with d true only deprecated CPEs, with d false only current ones. */
  function DeprecationClauses(deprecated: Option<bool>): (cs: seq<Clause>)
    ensures |cs| == (if deprecated.Some? then 1 else 0)
    ensures forall c :: c in cs ==> c.DeprecatedIsNot? && deprecated == Some(!c.value)
  {
    if deprecated.Some? then [DeprecatedIsNot(!deprecated.value)] else []
  }

  /** The version must be neither null nor NA. */
  function VersionClauses(needsVersion: bool): (cs: seq<Clause>)
    ensures |cs| == (if needsVersion then 2 else 0)
    ensures VersionNotNull in cs <==> needsVersion
    ensures VersionNotNa in cs <==> needsVersion
  {
    if needsVersion then [VersionNotNull, VersionNotNa] else []
  }

  /** The disjunction of the truthy ranges' conditions, when ranges are given. */
  function RangeClauses(ranges: Option<seq<VersionRange>>, canon: string -> Option<string>): (cs: seq<Clause>)
    ensures ranges.None? ==> cs == []
    ensures ranges.Some? ==> cs == [AnyOf(RangeConditions(ranges.value, canon))]
  {
    if ranges.Some? then [AnyOf(RangeConditions(ranges.value, canon))] else []
  }

  /** Whether `has_version or version_ranges` holds. */
  predicate NeedsVersion(args: FindArgs)
  {
    args.hasVersion == Some(true) || (args.versionRanges.Some? && args.versionRanges.value != [])
  }

  /** `find`: the select it streams, or the TypeError or parse error it raises. */
  function Find(args: FindArgs, parse: string -> Option<CpeName>, canon: string -> Option<string>): Result<Query>
  {
    var cpe :- ParseArgument(args.cpe, parse);
    var clauses :=
      CpeClauses(cpe, args.exact) + DeprecationClauses(args.deprecated) +
      VersionClauses(NeedsVersion(args)) + RangeClauses(args.versionRanges, canon);
    Ok(Query(clauses, args.limit, args.orderByCpeName, false))
  }

  /**
   * `find` fails exactly for a value of an unsupported kind, with a
   * TypeError, and for a name pontos rejects, with its parse error.
   */
  lemma FindFailures(args: FindArgs, parse: string -> Option<CpeName>, canon: string -> Option<string>)
    ensures Find(args, parse, canon).Ok? <==> Parses(args.cpe, parse)
    ensures args.cpe.OtherValue? ==> Find(args, parse, canon) == Err(TypeError("Invalid type for cpe argument"))
    ensures (args.cpe.CpeString? || args.cpe.WithCpeName?) && parse(NameOf(args.cpe)).None? ==>
      Find(args, parse, canon) == Err(CpeParseError(NameOf(args.cpe)))
    ensures Find(args, parse, canon).Ok? ==>
      var q := Find(args, parse, canon).value;
      q.limit == args.limit && q.orderByCpeName == args.orderByCpeName && !q.outerJoin
  {
  }

  /**
   * The clauses of a `find`, in order: the CPE's condition when a CPE is
   * given, the deprecation test when asked for, the two version tests when a
   * version is required or a range is given, and the disjunction of the
   * truthy ranges' conditions when ranges are given.
   */
  lemma FindClauses(args: FindArgs, parse: string -> Option<CpeName>, canon: string -> Option<string>)
    requires Parses(args.cpe, parse)
    ensures var cs := Find(args, parse, canon).value.clauses;
      |cs| == (if args.cpe.NoCpe? then 0 else 1) + (if args.deprecated.Some? then 1 else 0) +
              (if NeedsVersion(args) then 2 else 0) + (if args.versionRanges.Some? then 1 else 0) &&
      (args.cpe.ParsedCpe? ==> cs[0] == Matches(CpeCondition(args.cpe.parsed, args.exact))) &&
      (args.cpe.CpeString? ==> cs[0] == Matches(CpeCondition(parse(args.cpe.name).value, args.exact))) &&
      (args.cpe.WithCpeName? ==> cs[0] == Matches(CpeCondition(parse(args.cpe.cpeName).value, args.exact))) &&
      (args.versionRanges.Some? ==> cs[|cs| - 1] == AnyOf(RangeConditions(args.versionRanges.value, canon)))
  {
    var cpe := ParseArgument(args.cpe, parse).value;
    var a := CpeClauses(cpe, args.exact);
    var d := DeprecationClauses(args.deprecated);
    var v := VersionClauses(NeedsVersion(args));
    var r := RangeClauses(args.versionRanges, canon);
    assert Find(args, parse, canon).value.clauses == a + d + v + r;
    FourPartEnds(a, d, v, r);
  }

  /** The first clause of four concatenated lists is the first list's, the last the last list's. */
  lemma FourPartEnds(a: seq<Clause>, d: seq<Clause>, v: seq<Clause>, r: seq<Clause>)
    ensures |a + d + v + r| == |a| + |d| + |v| + |r|
    ensures a != [] ==> (a + d + v + r)[0] == a[0]
    ensures r != [] ==> (a + d + v + r)[|a + d + v + r| - 1] == r[|r| - 1]
  {
  }

  /** Among the clauses built from the arguments, the deprecation test comes only from its own builder. */
  lemma DeprecationTestClauses(cpe: Option<CpeName>, exact: bool, deprecated: Option<bool>, needsVersion: bool,
                               ranges: Option<seq<VersionRange>>, canon: string -> Option<string>)
    ensures var cs := CpeClauses(cpe, exact) + DeprecationClauses(deprecated) +
                      VersionClauses(needsVersion) + RangeClauses(ranges, canon);
      (DeprecatedIsNot(true) in cs <==> deprecated == Some(false)) &&
      (DeprecatedIsNot(false) in cs <==> deprecated == Some(true))
  {
    var d := DeprecationClauses(deprecated);
    if deprecated.Some? {
      assert d == [DeprecatedIsNot(!deprecated.value)];
    }
  }

  /** Among the clauses built from the arguments, the version tests come only from their own builder. */
  lemma VersionTestClauses(cpe: Option<CpeName>, exact: bool, deprecated: Option<bool>, needsVersion: bool,
                           ranges: Option<seq<VersionRange>>, canon: string -> Option<string>)
    ensures var cs := CpeClauses(cpe, exact) + DeprecationClauses(deprecated) +
                      VersionClauses(needsVersion) + RangeClauses(ranges, canon);
      (VersionNotNull in cs <==> needsVersion) && (VersionNotNa in cs <==> needsVersion)
  {
  }

  /** The deprecation test and the version tests are there exactly when asked for. */
  lemma FindTests(args: FindArgs, parse: string -> Option<CpeName>, canon: string -> Option<string>)
    requires Parses(args.cpe, parse)
    ensures var cs := Find(args, parse, canon).value.clauses;
      (DeprecatedIsNot(true) in cs <==> args.deprecated == Some(false)) &&
      (DeprecatedIsNot(false) in cs <==> args.deprecated == Some(true)) &&
      (VersionNotNull in cs <==> NeedsVersion(args)) && (VersionNotNa in cs <==> NeedsVersion(args))
  {
    var cpe := ParseArgument(args.cpe, parse).value;
    DeprecationTestClauses(cpe, args.exact, args.deprecated, NeedsVersion(args), args.versionRanges, canon);
    VersionTestClauses(cpe, args.exact, args.deprecated, NeedsVersion(args), args.versionRanges, canon);
  }

  /** The range disjunction holds one condition per truthy range, each the condition of such a range. */
  lemma FindRangeDisjunction(args: FindArgs, parse: string -> Option<CpeName>, canon: string -> Option<string>)
    requires Parses(args.cpe, parse) && args.versionRanges.Some?
    ensures var cs := Find(args, parse, canon).value.clauses;
      var any := cs[|cs| - 1].conditions;
      cs[|cs| - 1].AnyOf? && |any| == TruthyCount(args.versionRanges.value) &&
      forall c :: c in any ==>
        (exists i :: 0 <= i < |args.versionRanges.value| &&
          args.versionRanges.value[i].Truthy() && c == AsCondition(args.versionRanges.value[i], canon))
  {
    FindClauses(args, parse, canon);
    RangeConditionsOfTruthy(args.versionRanges.value, canon);
  }

  /** A `find` without any argument selects every CPE that has a `cpe_names` row. */
  lemma FindWithoutArguments(limit: Option<int>, order: bool, parse: string -> Option<CpeName>, canon: string -> Option<string>)
    ensures Find(FindArgs(NoCpe, false, None, None, limit, order, None), parse, canon) == Ok(Query([], limit, order, false))
  {
    FindClauses(FindArgs(NoCpe, false, None, None, limit, order, None), parse, canon);
  }

  /** `all`: every CPE, with or without a `cpe_names` row, ordered by CPE name. */
  function All(limit: Option<int>): (q: Query)
    ensures q.clauses == [] && q.orderByCpeName && q.outerJoin && q.limit == limit
  {
    Query([], limit, true, true)
  }

  /**
   * `all` is the `find` without filters, ordered by CPE name, except that it
   * joins outer and so also returns the CPEs without a `cpe_names` row.
   */
  lemma AllIsOrderedUnfilteredFind(limit: Option<int>, parse: string -> Option<CpeName>, canon: string -> Option<string>)
    ensures Find(FindArgs(NoCpe, false, None, None, limit, true, None), parse, canon) == Ok(All(limit).(outerJoin := false))
    ensures All(limit).outerJoin
  {
    FindWithoutArguments(limit, true, parse, canon);
  }

  // ---------------------------------------------------------------- what a condition selects

  /** The attribute equalities of a condition that hold of a parsed name; the version bounds are not decided here. */
  predicate EqualitiesHold(m: CpeName, cs: Condition)
  {
    forall c :: c in cs && c.Equals? ==> Attribute(m, c.column) == c.value
  }

  lemma SameAttributesSameName(n: CpeName, m: CpeName)
    requires forall col: Column :: Attribute(m, col) == Attribute(n, col)
    ensures m == n
  {
    assert Attribute(m, Part) == Attribute(n, Part) && Attribute(m, Vendor) == Attribute(n, Vendor);
    assert Attribute(m, Product) == Attribute(n, Product) && Attribute(m, Version) == Attribute(n, Version);
    assert Attribute(m, Update) == Attribute(n, Update) && Attribute(m, Edition) == Attribute(n, Edition);
    assert Attribute(m, Language) == Attribute(n, Language) && Attribute(m, SwEdition) == Attribute(n, SwEdition);
    assert Attribute(m, TargetSw) == Attribute(n, TargetSw) && Attribute(m, TargetHw) == Attribute(n, TargetHw);
    assert Attribute(m, Other) == Attribute(n, Other);
  }

  /** An exact condition selects exactly the name it was built from. */
  lemma ExactConditionSelectsItself(n: CpeName, m: CpeName)
    ensures EqualitiesHold(m, CpeCondition(n, true)) <==> m == n
  {
    if EqualitiesHold(m, CpeCondition(n, true)) {
      forall col: Column
        ensures Attribute(m, col) == Attribute(n, col)
      {
        CpeConditionMembers(n, true, Equals(col, Attribute(n, col)));
      }
      SameAttributesSameName(n, m);
    }
    if m == n {
      forall c | c in CpeCondition(n, true) && c.Equals?
        ensures Attribute(m, c.column) == c.value
      {
        CpeConditionMembers(n, true, c);
      }
    }
  }

  /**
   * A non-exact condition selects the names with the same part that agree
   * on every attribute that is not ANY: ANY is a wildcard.
   */
  lemma WildcardConditionSelects(n: CpeName, m: CpeName)
    ensures EqualitiesHold(m, CpeCondition(n, false)) <==>
      m.part == n.part && forall col: Column :: Attribute(n, col) != ANY ==> Attribute(m, col) == Attribute(n, col)
  {
    if EqualitiesHold(m, CpeCondition(n, false)) {
      CpeConditionMembers(n, false, Equals(Part, n.part));
      forall col: Column | Attribute(n, col) != ANY
        ensures Attribute(m, col) == Attribute(n, col)
      {
        CpeConditionMembers(n, false, Equals(col, Attribute(n, col)));
      }
    }
    if m.part == n.part && forall col: Column :: Attribute(n, col) != ANY ==> Attribute(m, col) == Attribute(n, col) {
      forall c | c in CpeCondition(n, false) && c.Equals?
        ensures Attribute(m, c.column) == c.value
      {
        CpeConditionMembers(n, false, c);
      }
    }
  }

  // ---------------------------------------------------------------- CPE records and rows

  datatype Title = Title(title: string, lang: string)
  /** A reference; `kind` is the text of its type, when it has one. */
  datatype CpeReference = CpeReference(ref: string, kind: Option<string>)
  datatype DeprecatedBy = DeprecatedBy(cpeName: string, cpeNameId: Option<string>)

  /** A CPE as the NVD API delivers it. */
  datatype Cpe = Cpe(
    cpeName: string,
    cpeNameId: Option<string>,
    deprecated: bool,
    lastModified: string,
    created: string,
    titles: seq<Title>,
    refs: seq<CpeReference>,
    deprecatedBy: seq<DeprecatedBy>)

  /** A row of one of the CPE tables; `cpe` is the name of the CPE it belongs to. */
  datatype Row =
    | CpeRow(cpe: string, cpeNameId: Option<string>, deprecated: bool, lastModified: string, created: string)
    | CpeNamesRow(cpe: string, name: CpeName, versionCanonical: Option<string>)
    | TitleRow(cpe: string, title: string, lang: string)
    | ReferenceRow(cpe: string, ref: string, kind: Option<string>)
    | DeprecatedByRow(cpe: string, deprecatedName: string, deprecatedNameId: Option<string>)

  datatype Table = Cpes | CpeNames | Titles | References | DeprecatedBys

  /** What an insert does with a row whose key already exists. */
  datatype OnConflict = UpdateOn(keys: seq<string>) | DoNothing

  datatype Statement = Insert(table: Table, rows: seq<Row>, onConflict: OnConflict)

  datatype Transaction = Transaction(statements: seq<Statement>)

  function CpeRowOf(c: Cpe): Row
  {
    CpeRow(c.cpeName, c.cpeNameId, c.deprecated, c.lastModified, c.created)
  }

  /** One CPE row per CPE, in batch order. */
  function CpeRows(cpes: seq<Cpe>): (rows: seq<Row>)
    ensures |rows| == |cpes|
    ensures forall i :: 0 <= i < |cpes| ==> rows[i] == CpeRowOf(cpes[i])
  {
    seq(|cpes|, i requires 0 <= i < |cpes| => CpeRowOf(cpes[i]))
  }

  lemma CpeRowsAppend(a: seq<Cpe>, b: seq<Cpe>)
    ensures CpeRows(a + b) == CpeRows(a) + CpeRows(b)
  {
  }

  /** Whether pontos accepts the name of every CPE of a batch. */
  predicate NamesParse(cpes: seq<Cpe>, parse: string -> Option<CpeName>)
  {
    forall c :: c in cpes ==> parse(c.cpeName).Some?
  }

  /** The parsed row of a CPE: its name split into attributes and its version in canonical form. */
  function NamesRowOf(c: Cpe, parse: string -> Option<CpeName>, canon: string -> Option<string>): Row
    requires parse(c.cpeName).Some?
  {
    CpeNamesRow(c.cpeName, parse(c.cpeName).value, canon(parse(c.cpeName).value.version))
  }

  /** The `cpe_names` rows of a batch whose names all parse, one per CPE. */
  function NamesRows(cpes: seq<Cpe>, parse: string -> Option<CpeName>, canon: string -> Option<string>): (rows: seq<Row>)
    requires NamesParse(cpes, parse)
    ensures |rows| == |cpes|
    ensures forall i :: 0 <= i < |cpes| ==> rows[i] == NamesRowOf(cpes[i], parse, canon)
  {
    seq(|cpes|, i requires 0 <= i < |cpes| => NamesRowOf(cpes[i], parse, canon))
  }

  /**
   * The `cpe_names` rows `_insert_foreign_data` collects in its loop: one
   * per CPE, in order, each parsed from the CPE's own name; the first name
   * pontos rejects ends the loop with its parse error.
   */
  method CollectNamesRows(cpes: seq<Cpe>, parse: string -> Option<CpeName>, canon: string -> Option<string>)
    returns (r: Result<seq<Row>>)
    ensures r.Ok? <==> NamesParse(cpes, parse)
    ensures r.Ok? ==> r.value == NamesRows(cpes, parse, canon)
    ensures r.Err? ==>
      exists k :: 0 <= k < |cpes| && NamesParse(cpes[..k], parse) &&
        parse(cpes[k].cpeName).None? && r.error == CpeParseError(cpes[k].cpeName)
  {
    var rows := [];
    var i := 0;
    while i < |cpes|
      invariant 0 <= i <= |cpes|
      invariant NamesParse(cpes[..i], parse)
      invariant rows == NamesRows(cpes[..i], parse, canon)
    {
      var parsed := parse(cpes[i].cpeName);
      if parsed.None? {
        assert cpes[i] in cpes;
        return Err(CpeParseError(cpes[i].cpeName));
      }
      assert cpes[..i + 1] == cpes[..i] + [cpes[i]];
      rows := rows + [CpeNamesRow(cpes[i].cpeName, parsed.value, canon(parsed.value.version))];
      i := i + 1;
    }
    assert cpes[..i] == cpes;
    return Ok(rows);
  }

  /**
   * Every CPE of a batch gets a `cpe_names` row under its own name that an
   * exact condition on the CPE's parsed name selects.
   */
  lemma NamesRowsFindable(cpes: seq<Cpe>, parse: string -> Option<CpeName>, canon: string -> Option<string>, i: int)
    requires NamesParse(cpes, parse) && 0 <= i < |cpes|
    ensures parse(cpes[i].cpeName).Some?
    ensures var row := NamesRows(cpes, parse, canon)[i];
      row.cpe == cpes[i].cpeName && EqualitiesHold(row.name, CpeCondition(parse(cpes[i].cpeName).value, true))
  {
    assert cpes[i] in cpes;
    ExactConditionSelectsItself(parse(cpes[i].cpeName).value, parse(cpes[i].cpeName).value);
  }

  function TitleRowsOf(c: Cpe): (rows: seq<Row>)
    ensures |rows| == |c.titles|
    ensures forall j :: 0 <= j < |rows| ==> rows[j] == TitleRow(c.cpeName, c.titles[j].title, c.titles[j].lang)
  {
    seq(|c.titles|, j requires 0 <= j < |c.titles| => TitleRow(c.cpeName, c.titles[j].title, c.titles[j].lang))
  }

  function ReferenceRowsOf(c: Cpe): (rows: seq<Row>)
    ensures |rows| == |c.refs|
    ensures forall j :: 0 <= j < |rows| ==> rows[j] == ReferenceRow(c.cpeName, c.refs[j].ref, c.refs[j].kind)
  {
    seq(|c.refs|, j requires 0 <= j < |c.refs| => ReferenceRow(c.cpeName, c.refs[j].ref, c.refs[j].kind))
  }

  function DeprecatedByRowsOf(c: Cpe): (rows: seq<Row>)
    ensures |rows| == |c.deprecatedBy|
    ensures forall j :: 0 <= j < |rows| ==>
      rows[j] == DeprecatedByRow(c.cpeName, c.deprecatedBy[j].cpeName, c.deprecatedBy[j].cpeNameId)
  {
    seq(|c.deprecatedBy|, j requires 0 <= j < |c.deprecatedBy| =>
      DeprecatedByRow(c.cpeName, c.deprecatedBy[j].cpeName, c.deprecatedBy[j].cpeNameId))
  }

  // ---------------------------------------------------------------- the batch transaction

  function Conflict(update: bool, keys: seq<string>): OnConflict
  {
    if update then UpdateOn(keys) else DoNothing
  }

  /** An insert of the given rows, left out when there are none. */
  function InsertIfAny(table: Table, rows: seq<Row>, onConflict: OnConflict): (s: seq<Statement>)
    ensures rows == [] <==> s == []
    ensures rows != [] ==> s == [Insert(table, rows, onConflict)]
  {
    if rows == [] then [] else [Insert(table, rows, onConflict)]
  }

  /** The number of tables among the three child tables that get rows. */
  function ChildInserts(cpes: seq<Cpe>): nat
  {
    (if FlatMap(cpes, TitleRowsOf) == [] then 0 else 1) +
    (if FlatMap(cpes, ReferenceRowsOf) == [] then 0 else 1) +
    (if FlatMap(cpes, DeprecatedByRowsOf) == [] then 0 else 1)
  }

  /** The inserts into the titles, references and deprecations tables that have rows. */
  function ChildStatements(cpes: seq<Cpe>, update: bool): (s: seq<Statement>)
    ensures |s| == ChildInserts(cpes)
    ensures forall k :: 0 <= k < |s| ==> (s[k].onConflict.UpdateOn? <==> update) && s[k].table != Cpes
  {
    InsertIfAny(Titles, FlatMap(cpes, TitleRowsOf), Conflict(update, ["cpe", "title", "lang"])) +
    InsertIfAny(References, FlatMap(cpes, ReferenceRowsOf), Conflict(update, ["cpe", "ref"])) +
    InsertIfAny(DeprecatedBys, FlatMap(cpes, DeprecatedByRowsOf), Conflict(update, ["cpe", "cpe_name"]))
  }

  /** `_insert_foreign_data`: the parsed names, then the child tables that have rows. */
  function ForeignStatements(cpes: seq<Cpe>, update: bool, parse: string -> Option<CpeName>, canon: string -> Option<string>)
    : (s: seq<Statement>)
    requires NamesParse(cpes, parse)
    ensures cpes != [] ==>
      |s| == 1 + ChildInserts(cpes) &&
      s[0] == Insert(CpeNames, NamesRows(cpes, parse, canon), Conflict(update, ["cpe_name"]))
    ensures forall k :: 0 <= k < |s| ==> (s[k].onConflict.UpdateOn? <==> update) && s[k].table != Cpes
  {
    InsertIfAny(CpeNames, NamesRows(cpes, parse, canon), Conflict(update, ["cpe_name"])) +
    ChildStatements(cpes, update)
  }

  /** The statements of `add_cpes` for a non-empty batch, in the order they run. */
  function BatchTransaction(cpes: seq<Cpe>, update: bool, parse: string -> Option<CpeName>, canon: string -> Option<string>)
    : (t: Transaction)
    requires NamesParse(cpes, parse)
    ensures |t.statements| >= 1
    ensures t.statements[0] == Insert(Cpes, CpeRows(cpes), Conflict(update, ["cpe_name"]))
  {
    Transaction([Insert(Cpes, CpeRows(cpes), Conflict(update, ["cpe_name"]))] + ForeignStatements(cpes, update, parse, canon))
  }

  /**
   * A non-empty batch is written as the CPE rows, then one parsed row per
   * CPE, then one insert per child table that has rows, and no more; every
   * insert upserts on the table's key with `update` and skips conflicts
   * without it, and only the first writes CPE rows.
   */
  lemma BatchTransactionShape(cpes: seq<Cpe>, update: bool, parse: string -> Option<CpeName>, canon: string -> Option<string>)
    requires cpes != [] && NamesParse(cpes, parse)
    ensures var t := BatchTransaction(cpes, update, parse, canon).statements;
      |t| == 2 + ChildInserts(cpes) &&
      t[1] == Insert(CpeNames, NamesRows(cpes, parse, canon), if update then UpdateOn(["cpe_name"]) else DoNothing) &&
      (forall k :: 0 <= k < |t| ==> (t[k].onConflict.UpdateOn? <==> update)) &&
      (forall k :: 1 <= k < |t| ==> t[k].table != Cpes)
  {
    var f := ForeignStatements(cpes, update, parse, canon);
    var t := BatchTransaction(cpes, update, parse, canon).statements;
    assert t == [t[0]] + f;
    assert forall k :: 1 <= k < |t| ==> t[k] == f[k - 1];
  }

  /** A batch has title rows exactly when one of its CPEs has a title. */
  lemma TitlesInsertedIffAny(cpes: seq<Cpe>)
    ensures FlatMap(cpes, TitleRowsOf) == [] <==> forall i :: 0 <= i < |cpes| ==> cpes[i].titles == []
  {
    FlatMapEmpty(cpes, TitleRowsOf);
    forall i | 0 <= i < |cpes|
      ensures TitleRowsOf(cpes[i]) == [] <==> cpes[i].titles == []
    {
    }
  }

  /** Every title row of a batch belongs to a CPE of the batch and holds one of its titles. */
  lemma TitleRowsOfBatch(cpes: seq<Cpe>, row: Row)
    requires row in FlatMap(cpes, TitleRowsOf)
    ensures row.TitleRow?
    ensures exists i :: 0 <= i < |cpes| && row.cpe == cpes[i].cpeName && Title(row.title, row.lang) in cpes[i].titles
  {
    FlatMapOrigin(cpes, TitleRowsOf, row);
    var i :| 0 <= i < |cpes| && row in TitleRowsOf(cpes[i]);
    var j :| 0 <= j < |TitleRowsOf(cpes[i])| && TitleRowsOf(cpes[i])[j] == row;
    assert Title(row.title, row.lang) == cpes[i].titles[j];
  }

  // ---------------------------------------------------------------- buffering

  /** Whether pontos accepts the name of every CPE of every batch. */
  predicate BatchesParse(batches: seq<seq<Cpe>>, parse: string -> Option<CpeName>)
  {
    forall i :: 0 <= i < |batches| ==> NamesParse(batches[i], parse)
  }

  /** The transactions committed for the batches written, in order. */
  function Log(batches: seq<seq<Cpe>>, update: bool, parse: string -> Option<CpeName>, canon: string -> Option<string>)
    : (log: seq<Transaction>)
    requires BatchesParse(batches, parse)
    ensures |log| == |batches|
    ensures forall i :: 0 <= i < |batches| ==> log[i] == BatchTransaction(batches[i], update, parse, canon)
  {
    seq(|batches|, i requires 0 <= i < |batches| => BatchTransaction(batches[i], update, parse, canon))
  }

  /** The CPE rows a log of transactions inserts, in order. */
  function WrittenCpes(log: seq<Transaction>): seq<Row>
  {
    if log == [] then [] else WrittenCpes(log[..|log| - 1]) + CpeRowsIn(log[|log| - 1])
  }

  /** The CPE rows a transaction inserts first, if it starts with an insert into the CPE table. */
  function CpeRowsIn(t: Transaction): seq<Row>
  {
    if |t.statements| > 0 && t.statements[0].table == Cpes then t.statements[0].rows else []
  }

  lemma LogSnoc(batches: seq<seq<Cpe>>, update: bool, parse: string -> Option<CpeName>, canon: string -> Option<string>)
    requires batches != [] && BatchesParse(batches, parse)
    ensures BatchesParse(batches[..|batches| - 1], parse)
    ensures Log(batches, update, parse, canon)[..|batches| - 1] == Log(batches[..|batches| - 1], update, parse, canon)
    ensures CpeRowsIn(Log(batches, update, parse, canon)[|batches| - 1]) == CpeRows(batches[|batches| - 1])
  {
  }

  lemma {:induction false} WrittenCpesOfLog(batches: seq<seq<Cpe>>, update: bool,
                                            parse: string -> Option<CpeName>, canon: string -> Option<string>)
    requires BatchesParse(batches, parse)
    ensures WrittenCpes(Log(batches, update, parse, canon)) == CpeRows(Flatten(batches))
    decreases |batches|
  {
    if batches != [] {
      var k := |batches| - 1;
      var log := Log(batches, update, parse, canon);
      var prefix := batches[..k];
      LogSnoc(batches, update, parse, canon);
      WrittenCpesOfLog(prefix, update, parse, canon);
      CpeRowsAppend(Flatten(prefix), batches[k]);
      calc {
        WrittenCpes(log);
        WrittenCpes(log[..k]) + CpeRowsIn(log[k]);
        CpeRows(Flatten(prefix)) + CpeRows(batches[k]);
        CpeRows(Flatten(prefix) + batches[k]);
        CpeRows(Flatten(batches));
      }
    }
  }

  /**
   * CPEs added one at a time and then a clean exit: the row of every CPE has
   * been written, once and in order, and nothing is left in the buffer.
   */
  lemma CleanExitWritesAll(cpes: seq<Cpe>, insertThreshold: int, update: bool,
                           parse: string -> Option<CpeName>, canon: string -> Option<string>)
    requires NamesParse(cpes, parse)
    ensures var b := AddAll(NewBuffer(insertThreshold), cpes).Exit(false);
      b.pending == [] && BatchesParse(b.batches, parse) &&
      WrittenCpes(Log(b.batches, update, parse, canon)) == CpeRows(cpes)
  {
    var batches := AddAll(NewBuffer(insertThreshold), cpes).Exit(false).batches;
    WriteBuffer.CleanExitWritesAll(cpes, insertThreshold);
    FlattenNamesParse(batches, parse);
    WrittenCpesOfLog(batches, update, parse, canon);
  }

  /** The names of the batches parse when the names of all their CPEs do. */
  lemma {:induction false} FlattenNamesParse(batches: seq<seq<Cpe>>, parse: string -> Option<CpeName>)
    requires NamesParse(Flatten(batches), parse)
    ensures BatchesParse(batches, parse)
    decreases |batches|
  {
    if batches != [] {
      var k := |batches| - 1;
      assert batches[..k] + [batches[k]] == batches;
      FlattenAppend(batches[..k], batches[k]);
      FlattenNamesParse(batches[..k], parse);
      forall i | 0 <= i < |batches|
        ensures NamesParse(batches[i], parse)
      {
        if i < k {
          assert batches[i] == batches[..k][i];
        }
      }
    }
  }

  class CpeDatabaseManager {
    var pending: seq<Cpe>
    var batches: seq<seq<Cpe>>   // the batches committed, in order
    const insertThreshold: int
    const update: bool
    const yieldPer: int
    const parse: string -> Option<CpeName>   // the CPE name parser; None for a name it rejects
    const canon: string -> Option<string>    // the version canonicaliser

    /** Only batches whose names all parse are ever committed. */
    predicate Valid()
      reads this
    {
      BatchesParse(batches, parse)
    }

    function State(): Buffer<Cpe>
      reads this
    {
      Buffer(pending, batches, insertThreshold)
    }

    /** The transactions committed so far. */
    function Transactions(): seq<Transaction>
      requires Valid()
      reads this
    {
      Log(batches, update, parse, canon)
    }

    constructor(insertThreshold: int, yieldPer: int, update: bool,
                parse: string -> Option<CpeName>, canon: string -> Option<string>)
      ensures Valid()
      ensures State() == NewBuffer(insertThreshold) && this.yieldPer == yieldPer && this.update == update
      ensures this.parse == parse && this.canon == canon
    {
      pending := [];
      batches := [];
      this.insertThreshold := insertThreshold;
      this.yieldPer := yieldPer;
      this.update := update;
      this.parse := parse;
      this.canon := canon;
    }

    /**
     * `add_cpes`: nothing for an empty batch; otherwise one transaction, then
     * an empty buffer.  A name pontos rejects raises inside the transaction,
     * which is rolled back, and the buffer is not reset.
     */
    method AddCpes(cpes: seq<Cpe>) returns (r: Outcome)
      requires Valid()
      modifies this
      ensures Valid()
      ensures r.Pass? <==> NamesParse(cpes, parse)
      ensures r.Pass? ==> State() == old(State()).AddMany(cpes)
      ensures r.Pass? && cpes != [] ==> Transactions() == old(Transactions()) + [BatchTransaction(cpes, update, parse, canon)]
      ensures r.Fail? ==> State() == old(State())
      ensures r.Fail? ==> exists k :: 0 <= k < |cpes| && parse(cpes[k].cpeName).None? && r.error == CpeParseError(cpes[k].cpeName)
    {
      if cpes == [] {
        return Pass;
      }
      var names := CollectNamesRows(cpes, parse, canon);
      if names.Err? {
        return Fail(names.error);
      }
      assert (batches + [cpes])[..|batches|] == batches;
      batches := batches + [cpes];
      pending := [];
      LogSnoc(batches, update, parse, canon);
      r := Pass;
    }

    /** `add`: a flush that fails keeps the buffer, the new CPE included, and commits nothing. */
    method Add(c: Cpe) returns (r: Outcome)
      requires Valid()
      modifies this
      ensures Valid()
      ensures r.Pass? ==> State() == old(State()).Add(c)
      ensures r.Fail? ==> pending == old(pending) + [c] && batches == old(batches) && r.error.CpeParseError?
    {
      pending := pending + [c];
      r := Pass;
      if |pending| > insertThreshold {
        r := AddCpes(pending);
      }
    }

    /** `__aexit__`, told whether an exception is leaving the context. */
    method Exit(raised: bool) returns (r: Outcome)
      requires Valid()
      modifies this
      ensures Valid()
      ensures r.Pass? ==> State() == old(State()).Exit(raised)
      ensures r.Fail? ==> !raised && State() == old(State()) && r.error.CpeParseError?
    {
      r := Pass;
      if !raised {
        r := AddCpes(pending);
      }
    }
  }
}

=== FILE: cpe_match_json.dfy ===
/**
 * The CPE match string JSON document: an NVD-style response envelope that
 * accumulates match strings and is written to one file, and the worker that
 * fills it chunk by chunk and writes it when its loop ends.  The encoded
 * text and the file system are not part of this model: a write is recorded
 * as the file path and the document written there.
 */
module CpeMatchJson {
  import opened Errors
  import opened Settings
  import opened ChunkQueue
  import opened CpeMatchModel
  import opened JsonUtils

  const DEFAULT_FILE_NAME := "nvd-cpe-matches"

  datatype MatchStringItem = MatchStringItem(matchString: MatchString)

  /** The response envelope the document is written as. */
  datatype MatchStringResponse = MatchStringResponse(
    resultsPerPage: int,
    startIndex: int,
    totalResults: int,
    timestamp: string,
    format: string,
    version: string,
    matchStrings: seq<MatchStringItem>)

  function NewResponse(timestamp: string): (r: MatchStringResponse)
    ensures r.matchStrings == [] && r.resultsPerPage == 1 && r.startIndex == 0 && r.totalResults == 1
    ensures r.format == "NVD_CPEMatchString" && r.version == "2.0"
  {
    MatchStringResponse(1, 0, 1, timestamp, "NVD_CPEMatchString", "2.0", [])
  }

  /** Each match string wrapped as an item, in order. */
  function Items(ss: seq<MatchString>): (items: seq<MatchStringItem>)
    ensures |items| == |ss|
    ensures forall i :: 0 <= i < |ss| ==> items[i] == MatchStringItem(ss[i])
  {
    seq(|ss|, i requires 0 <= i < |ss| => MatchStringItem(ss[i]))
  }

  lemma ItemsAppend(a: seq<MatchString>, b: seq<MatchString>)
    ensures Items(a + b) == Items(a) + Items(b)
  {
  }

  /** A written file: where it went and the document it holds. */
  datatype OutputFile = OutputFile(directory: string, name: string, document: MatchStringResponse)

  /** The output name: `<name>.json.gz` when compressing, `<name>.json` otherwise. */
  function OutputName(fileName: string, compress: bool): (n: string)
    ensures compress ==> n == fileName + ".json.gz"
    ensures !compress ==> n == fileName + ".json"
  {
    fileName + (if compress then ".json.gz" else ".json")
  }

  /** What `write` puts into the document: both counts become the number of items, the items stay. */
  function Finalized(r: MatchStringResponse): (w: MatchStringResponse)
    ensures w.resultsPerPage == |r.matchStrings| && w.totalResults == |r.matchStrings|
    ensures w.matchStrings == r.matchStrings && w.startIndex == r.startIndex
    ensures w.timestamp == r.timestamp && w.format == r.format && w.version == r.version
  {
    r.(resultsPerPage := |r.matchStrings|, totalResults := |r.matchStrings|)
  }

  /** Writing twice in a row produces the same document. */
  lemma FinalizedIdempotent(r: MatchStringResponse)
    ensures Finalized(Finalized(r)) == Finalized(r)
  {
  }

  class MatchStringJsonManager {
    var response: MatchStringResponse
    const compress: bool
    const storagePath: string
    const hasValidator: bool            // a schema path was given (any path, even an empty one)
    const raiseErrorOnValidation: bool
    var files: seq<OutputFile>          // the files written, in order
    var reports: seq<string>            // the validation errors reported

    /** A new manager: an empty document with the default envelope; `now` is the creation time. */
    constructor(storagePath: string, compress: bool, schemaPath: Option<string>,
                raiseErrorOnValidation: bool, now: string)
      ensures response == NewResponse(now)
      ensures this.storagePath == storagePath && this.compress == compress
      ensures hasValidator == schemaPath.Some? && this.raiseErrorOnValidation == raiseErrorOnValidation
      ensures files == [] && reports == []
    {
      response := NewResponse(now);
      this.compress := compress;
      this.storagePath := storagePath;
      hasValidator := schemaPath.Some?;
      this.raiseErrorOnValidation := raiseErrorOnValidation;
      files := [];
      reports := [];
    }

    /** `add_match_string`: one item more, at the end; nothing else changes. */
    method AddMatchString(s: MatchString)
      modifies this
      ensures response == old(response).(matchStrings := old(response).matchStrings + [MatchStringItem(s)])
      ensures files == old(files) && reports == old(reports)
    {
      response := response.(matchStrings := response.matchStrings + [MatchStringItem(s)]);
    }

    /** `add_match_strings`: every given match string, in order. */
    method AddMatchStrings(ss: seq<MatchString>)
      modifies this
      ensures response == old(response).(matchStrings := old(response).matchStrings + Items(ss))
      ensures files == old(files) && reports == old(reports)
    {
      var i := 0;
      while i < |ss|
        invariant 0 <= i <= |ss|
        invariant response == old(response).(matchStrings := old(response).matchStrings + Items(ss[..i]))
        invariant files == old(files) && reports == old(reports)
      {
        AddMatchString(ss[i]);
        ItemsAppend(ss[..i], [ss[i]]);
        assert ss[..i + 1] == ss[..i] + [ss[i]];
        i := i + 1;
      }
      assert ss[..i] == ss;
    }

    /**
     * `write`: sets both counts to the number of items, writes the document
     * to `<name>.json.gz` or `<name>.json` in the storage directory, and
     * validates it when a validator is configured (the encoded document is
     * never empty), given the schema's verdict on it.
     */
    method Write(fileName: string, verdict: Outcome) returns (r: Outcome)
      modifies this
      ensures response == Finalized(old(response))
      ensures files == old(files) + [OutputFile(storagePath, OutputName(fileName, compress), response)]
      ensures var (report, outcome) := ValidateJson(hasValidator, raiseErrorOnValidation, fileName, verdict);
        r == outcome &&
        reports == old(reports) + (if report.Some? then [report.value] else [])
    {
      response := Finalized(response);
      files := files + [OutputFile(storagePath, OutputName(fileName, compress), response)];
      var (report, outcome) := ValidateJson(hasValidator, raiseErrorOnValidation, fileName, verdict);
      if report.Some? {
        reports := reports + [report.value];
      }
      r := outcome;
    }
  }

  // ---------------------------------------------------------------- worker

  /** The worker settings `from_args` derives from the command line. */
  datatype JsonWorkerArgs = JsonWorkerArgs(
    storagePath: string, schemaPath: Option<string>, compress: bool, verbose: int)

  /**
   * `from_args`: storage path ".", no schema and verbosity 0 when not given;
   * `compress` is taken as given.  Both paths are `pathlib.Path` values,
   * which are always true, so `or` replaces only a missing path: an empty
   * path is kept (it names the current directory).
   */
  function FromArgs(storagePath: Option<string>, schemaPath: Option<string>, compress: bool, verbose: Option<int>)
    : (a: JsonWorkerArgs)
    ensures storagePath.Some? ==> a.storagePath == storagePath.value
    ensures storagePath.None? ==> a.storagePath == "."
    ensures a.schemaPath == schemaPath
    ensures a.compress == compress
    ensures a.verbose == (if TruthyInt(verbose) then verbose.value else 0)
  {
    JsonWorkerArgs(
      if storagePath.Some? then storagePath.value else ".",
      if schemaPath.Some? then schemaPath else None,
      compress,
      OrElseInt(verbose, Some(0)).value)
  }

  class CpeMatchJsonWriteWorker {
    const manager: MatchStringJsonManager

    /** The worker's manager reports schema violations instead of raising them. */
    predicate Valid()
      reads this, manager
    {
      !manager.raiseErrorOnValidation
    }

    /** The worker's manager never raises on a schema violation. */
    constructor(args: JsonWorkerArgs, now: string)
      ensures fresh(manager) && Valid()
      ensures manager.response == NewResponse(now) && manager.files == [] && manager.reports == []
      ensures manager.storagePath == args.storagePath && manager.compress == args.compress
      ensures manager.hasValidator == args.schemaPath.Some? && !manager.raiseErrorOnValidation
    {
      manager := new MatchStringJsonManager(args.storagePath, args.compress, args.schemaPath, false, now);
    }

    /** `_handle_chunk`: the chunk's match strings are appended to the document, in order. */
    method HandleChunk(chunk: seq<MatchString>)
      requires Valid()
      modifies manager
      ensures manager.response.matchStrings == old(manager.response.matchStrings) + Items(chunk)
      ensures manager.response == old(manager.response).(matchStrings := manager.response.matchStrings)
      ensures manager.files == old(manager.files) && manager.reports == old(manager.reports)
      ensures Valid()
    {
      manager.AddMatchStrings(chunk);
    }

    /**
     * `_loop_end`: writes the document under the default name; because the
     * manager does not raise on validation, the write always passes.
     */
    method LoopEnd(verdict: Outcome) returns (r: Outcome)
      requires Valid()
      modifies manager
      ensures r == Pass
      ensures manager.response == Finalized(old(manager.response))
      ensures manager.files == old(manager.files) +
        [OutputFile(manager.storagePath, OutputName(DEFAULT_FILE_NAME, manager.compress), manager.response)]
    {
      r := manager.Write(DEFAULT_FILE_NAME, verdict);
    }

    /**
     * The worker's part of a run: each chunk taken from the queue handled in
     * turn, then the loop end.  The file written holds every item of every
     * chunk, in order, and counts them.
     */
    method HandleAll(chunks: seq<seq<MatchString>>, verdict: Outcome) returns (r: Outcome)
      requires Valid() && manager.files == []
      modifies manager
      ensures r == Pass && |manager.files| == 1
      ensures manager.files[0].document.matchStrings == old(manager.response.matchStrings) + Items(Flatten(chunks))
      ensures manager.files[0].document.totalResults == |old(manager.response.matchStrings)| + TotalLen(chunks)
    {
      var i := 0;
      while i < |chunks|
        invariant 0 <= i <= |chunks|
        invariant manager.response.matchStrings == old(manager.response.matchStrings) + Items(Flatten(chunks[..i]))
        invariant manager.files == [] && Valid()
      {
        HandleChunk(chunks[i]);
        assert chunks[..i + 1] == chunks[..i] + [chunks[i]];
        FlattenAppend(chunks[..i], chunks[i]);
        ItemsAppend(Flatten(chunks[..i]), chunks[i]);
        i := i + 1;
      }
      assert chunks[..i] == chunks;
      r := LoopEnd(verdict);
    }
  }
}

=== FILE: cpe_match_manager.dfy ===
/**
 * The CPE match string database manager: match strings are buffered and
 * written in batches, each batch as one transaction holding the match
 * string rows and, when there are any, the rows of their matches.  The
 * database is modelled as the log of transactions written to it; queries
 * are described by their filter clauses.
 */
module CpeMatchManager {
  import opened Errors
  import opened CpeMatchModel
  import opened ChunkQueue
  import opened WriteBuffer

  const DEFAULT_THRESHOLD := 100
  const DEFAULT_YIELD_PER := 100

  /** A row of the `cpe_match_strings` table. */
  datatype MatchStringRow = MatchStringRow(
    matchCriteriaId: string,
    criteria: string,
    status: string,
    cpeLastModified: Option<string>,
    created: string,
    lastModified: string,
    versionStartIncluding: Option<string>,
    versionStartExcluding: Option<string>,
    versionEndIncluding: Option<string>,
    versionEndExcluding: Option<string>)

  /** A row of the `cpe_match` table: one match of one match string. */
  datatype MatchRow = MatchRow(matchCriteriaId: string, cpeName: string, cpeNameId: string)

  /** What an insert does with a row whose key already exists. */
  datatype OnConflict = UpdateOn(keys: seq<string>) | DoNothing

  datatype Statement =
    | InsertMatchStrings(rows: seq<MatchStringRow>, onConflict: OnConflict)
    | InsertMatches(matchRows: seq<MatchRow>, conflict: OnConflict)

  /** The statements executed in one transaction. */
  datatype Transaction = Transaction(statements: seq<Statement>)

  function ParentRow(s: MatchString): (r: MatchStringRow)
    ensures r.matchCriteriaId == s.matchCriteriaId && r.criteria == s.criteria && r.status == s.status
    ensures r.cpeLastModified == s.cpeLastModified && r.created == s.created && r.lastModified == s.lastModified
    ensures r.versionStartIncluding == s.versionStartIncluding && r.versionStartExcluding == s.versionStartExcluding
    ensures r.versionEndIncluding == s.versionEndIncluding && r.versionEndExcluding == s.versionEndExcluding
  {
    MatchStringRow(s.matchCriteriaId, s.criteria, s.status, s.cpeLastModified, s.created,
                   s.lastModified, s.versionStartIncluding, s.versionStartExcluding,
                   s.versionEndIncluding, s.versionEndExcluding)
  }

  /** One match string row per match string, in order. */
  function ParentRows(ss: seq<MatchString>): (rows: seq<MatchStringRow>)
    ensures |rows| == |ss|
    ensures forall i :: 0 <= i < |ss| ==> rows[i] == ParentRow(ss[i])
  {
    seq(|ss|, i requires 0 <= i < |ss| => ParentRow(ss[i]))
  }

  /** The rows of one match string's matches, in order. */
  function MatchRowsOf(s: MatchString): (rows: seq<MatchRow>)
    ensures |rows| == |s.matches|
    ensures forall j :: 0 <= j < |s.matches| ==>
      rows[j] == MatchRow(s.matchCriteriaId, s.matches[j].cpeName, s.matches[j].cpeNameId)
  {
    seq(|s.matches|, j requires 0 <= j < |s.matches| =>
      MatchRow(s.matchCriteriaId, s.matches[j].cpeName, s.matches[j].cpeNameId))
  }

  /** The child rows of a batch: one per (match string, match) pair, in input order. */
  function ChildRows(ss: seq<MatchString>): seq<MatchRow>
  {
    if ss == [] then [] else ChildRows(ss[..|ss| - 1]) + MatchRowsOf(ss[|ss| - 1])
  }

  /** The child rows of two batches in a row are those of the first followed by those of the second. */
  lemma {:induction false} ChildRowsAppend(a: seq<MatchString>, b: seq<MatchString>)
    ensures ChildRows(a + b) == ChildRows(a) + ChildRows(b)
    decreases |b|
  {
    if b == [] {
      assert a + b == a;
    } else {
      var k := |b| - 1;
      var ab := a + b;
      assert ab[..|ab| - 1] == a + b[..k];
      assert ab[|ab| - 1] == b[k];
      assert ChildRows(ab) == ChildRows(a + b[..k]) + MatchRowsOf(b[k]);
      ChildRowsAppend(a, b[..k]);
      assert ChildRows(b) == ChildRows(b[..k]) + MatchRowsOf(b[k]);
    }
  }

  /** There are no child rows exactly when no match string has matches. */
  lemma {:induction false} ChildRowsEmpty(ss: seq<MatchString>)
    ensures ChildRows(ss) == [] <==> forall i :: 0 <= i < |ss| ==> ss[i].matches == []
    decreases |ss|
  {
    if ss != [] {
      var k := |ss| - 1;
      ChildRowsEmpty(ss[..k]);
      assert forall i :: 0 <= i < k ==> ss[..k][i] == ss[i];
    }
  }

  /** The number of child rows is the total number of matches. */
  function MatchCount(ss: seq<MatchString>): nat
  {
    if ss == [] then 0 else MatchCount(ss[..|ss| - 1]) + |ss[|ss| - 1].matches|
  }

  lemma {:induction false} ChildRowsCount(ss: seq<MatchString>)
    ensures |ChildRows(ss)| == MatchCount(ss)
    decreases |ss|
  {
    if ss != [] {
      ChildRowsCount(ss[..|ss| - 1]);
    }
  }

  /**
   * The transaction for a non-empty batch: the match string rows, then the
   * match rows if there are any.  With `update` a conflicting row is
   * overwritten (keyed on match_criteria_id, and on it with cpe_name_id
   * for matches); without it, it is skipped.
   */
  function BatchTransaction(ss: seq<MatchString>, update: bool): (t: Transaction)
    ensures |t.statements| == (if ChildRows(ss) == [] then 1 else 2)
    ensures t.statements[0] == InsertMatchStrings(ParentRows(ss),
      if update then UpdateOn(["match_criteria_id"]) else DoNothing)
    ensures ChildRows(ss) != [] ==> t.statements[1] == InsertMatches(ChildRows(ss),
      if update then UpdateOn(["match_criteria_id", "cpe_name_id"]) else DoNothing)
  {
    var parents := InsertMatchStrings(ParentRows(ss),
      if update then UpdateOn(["match_criteria_id"]) else DoNothing);
    var children := ChildRows(ss);
    if children == [] then Transaction([parents])
    else Transaction([parents, InsertMatches(children,
      if update then UpdateOn(["match_criteria_id", "cpe_name_id"]) else DoNothing)])
  }

  /** The match string rows written by a log of transactions, in order. */
  function WrittenRows(log: seq<Transaction>): seq<MatchStringRow>
  {
    if log == [] then []
    else
      var t := log[|log| - 1];
      WrittenRows(log[..|log| - 1]) +
      (if |t.statements| > 0 && t.statements[0].InsertMatchStrings? then t.statements[0].rows else [])
  }

  /** The transactions executed for the batches written, in order. */
  function Log(batches: seq<seq<MatchString>>, update: bool): (log: seq<Transaction>)
    ensures |log| == |batches|
    ensures forall i :: 0 <= i < |batches| ==> log[i] == BatchTransaction(batches[i], update)
  {
    seq(|batches|, i requires 0 <= i < |batches| => BatchTransaction(batches[i], update))
  }

  lemma ParentRowsAppend(a: seq<MatchString>, b: seq<MatchString>)
    ensures ParentRows(a + b) == ParentRows(a) + ParentRows(b)
  {
  }

  /** The match string rows in the database are those of the batches written, in order. */
  lemma {:induction false} WrittenRowsOfLog(batches: seq<seq<MatchString>>, update: bool)
    ensures WrittenRows(Log(batches, update)) == ParentRows(Flatten(batches))
    decreases |batches|
  {
    if batches != [] {
      var k := |batches| - 1;
      var log := Log(batches, update);
      assert log[..k] == Log(batches[..k], update);
      assert log[k].statements[0].rows == ParentRows(batches[k]);
      assert WrittenRows(log) == WrittenRows(log[..k]) + ParentRows(batches[k]);
      WrittenRowsOfLog(batches[..k], update);
      assert batches == batches[..k] + [batches[k]];
      FlattenAppend(batches[..k], batches[k]);
      ParentRowsAppend(Flatten(batches[..k]), batches[k]);
    } else {
      assert ParentRows([]) == [];
    }
  }

  /**
   * Match strings added one at a time and then a clean exit: every match
   * string's row has been written, once and in order, and nothing is left
   * in the buffer.
   */
  lemma CleanExitWritesAll(ss: seq<MatchString>, insertThreshold: int, update: bool)
    ensures var b := AddAll(NewBuffer(insertThreshold), ss).Exit(false);
      b.pending == [] && WrittenRows(Log(b.batches, update)) == ParentRows(ss)
  {
    WriteBuffer.CleanExitWritesAll(ss, insertThreshold);
    WrittenRowsOfLog(AddAll(NewBuffer(insertThreshold), ss).Exit(false).batches, update);
  }

  class CpeMatchStringDatabaseManager {
    var pending: seq<MatchString>
    var batches: seq<seq<MatchString>>   // the batches written, in order
    const insertThreshold: int
    const update: bool
    const yieldPer: int

    function State(): Buffer<MatchString>
      reads this
    {
      Buffer(pending, batches, insertThreshold)
    }

    /** The transactions executed so far. */
    function Transactions(): seq<Transaction>
      reads this
    {
      Log(batches, update)
    }

    constructor(insertThreshold: int, yieldPer: int, update: bool)
      ensures State() == NewBuffer(insertThreshold) && this.yieldPer == yieldPer && this.update == update
    {
      pending := [];
      batches := [];
      this.insertThreshold := insertThreshold;
      this.yieldPer := yieldPer;
      this.update := update;
    }

    /** `add_cpe_match_strings`: nothing for an empty batch; otherwise one transaction, then an empty buffer. */
    method AddCpeMatchStrings(ss: seq<MatchString>)
      modifies this
      ensures State() == old(State()).AddMany(ss)
      ensures ss != [] ==> Transactions() == old(Transactions()) + [BatchTransaction(ss, update)]
    {
      if ss == [] {
        return;
      }
      batches := batches + [ss];
      pending := [];
    }

    method Add(s: MatchString)
      modifies this
      ensures State() == old(State()).Add(s)
    {
      pending := pending + [s];
      if |pending| > insertThreshold {
        AddCpeMatchStrings(pending);
      }
    }

    /** `__aexit__`, told whether an exception is leaving the context. */
    method Exit(raised: bool)
      modifies this
      ensures State() == old(State()).Exit(raised)
    {
      if !raised {
        AddCpeMatchStrings(pending);
      }
    }
  }

  // ---------------------------------------------------------------- queries

  /** The optional filters of `find` and `count`; dates are datetime objects and so always truthy. */
  datatype FilterArgs = FilterArgs(
    matchCriteriaId: Option<string>,
    lastModificationStartDate: Option<string>,
    lastModificationEndDate: Option<string>,
    createdStartDate: Option<string>,
    createdEndDate: Option<string>)

  const NoFilter := FilterArgs(None, None, None, None, None)

  datatype Clause =
    | CriteriaIdIs(id: string)
    | LastModifiedAtLeast(date: string)
    | LastModifiedAtMost(date: string)
    | CreatedAtLeast(date: string)
    | CreatedAtMost(date: string)

  /** A select of match strings with their matches. */
  datatype Query = Query(clauses: seq<Clause>, limit: Option<int>, offset: Option<int>)

  /** The select `find` streams. */
  function Find(args: FilterArgs, limit: Option<int>, index: Option<int>): (q: Query)
    ensures q.limit == limit && q.offset == index
  {
    var clauses :=
      (if args.matchCriteriaId.Some? then [CriteriaIdIs(args.matchCriteriaId.value)] else []) +
      (if args.lastModificationStartDate.Some? then [LastModifiedAtLeast(args.lastModificationStartDate.value)] else []) +
      (if args.lastModificationEndDate.Some? then [LastModifiedAtMost(args.lastModificationEndDate.value)] else []) +
      (if args.createdStartDate.Some? then [CreatedAtLeast(args.createdStartDate.value)] else []) +
      (if args.createdEndDate.Some? then [CreatedAtMost(args.createdEndDate.value)] else []);
    Query(clauses, limit, index)
  }

  /**
   * The select `all` streams: the unfiltered `find` without an offset, so
   * that it ranges over exactly the rows the unfiltered `count` counts.
   */
  function All(limit: Option<int>): (q: Query)
    ensures q.clauses == [] && q.offset.None?
    ensures q == Find(NoFilter, limit, None)
    ensures q.clauses == Count(NoFilter)
  {
    Query([], limit, None)
  }

  /** The clauses of the count `count` runs. */
  function Count(args: FilterArgs): seq<Clause>
  {
    (if args.matchCriteriaId.Some? then [CriteriaIdIs(args.matchCriteriaId.value)] else []) +
    (if args.lastModificationStartDate.Some? then [LastModifiedAtLeast(args.lastModificationStartDate.value)] else []) +
    (if args.lastModificationEndDate.Some? then [LastModifiedAtMost(args.lastModificationEndDate.value)] else []) +
    (if args.createdStartDate.Some? then [CreatedAtLeast(args.createdStartDate.value)] else []) +
    (if args.createdEndDate.Some? then [CreatedAtMost(args.createdEndDate.value)] else [])
  }

  /**
   * `find` and `count` filter alike: one clause per given filter, in a fixed
   * order; the id filters even when empty; no filters give no clause.
   */
  lemma FindAndCountAgree(args: FilterArgs, limit: Option<int>, index: Option<int>)
    ensures Find(args, limit, index).clauses == Count(args)
    ensures |Count(args)| == (if args.matchCriteriaId.Some? then 1 else 0) +
      (if args.lastModificationStartDate.Some? then 1 else 0) +
      (if args.lastModificationEndDate.Some? then 1 else 0) +
      (if args.createdStartDate.Some? then 1 else 0) +
      (if args.createdEndDate.Some? then 1 else 0)
    ensures args.matchCriteriaId.Some? ==> Count(args)[0] == CriteriaIdIs(args.matchCriteriaId.value)
    ensures Count(NoFilter) == []
  {
  }
}

=== FILE: cpe_match_model.dfy ===
/**
 * CPE match strings as the NVD API delivers them and as the database
 * stores them.  Identifiers and timestamps are kept as their text.
 */
module CpeMatchModel {
  import opened Errors

  /** One CPE name a match string matches. */
  datatype CpeMatch = CpeMatch(cpeNameId: string, cpeName: string)

  /** A CPE match string: its criteria, status, timestamps, version bounds and matches. */
  datatype MatchString = MatchString(
    matchCriteriaId: string,
    criteria: string,
    status: string,
    cpeLastModified: Option<string>,
    created: string,
    lastModified: string,
    matches: seq<CpeMatch>,
    versionStartIncluding: Option<string>,
    versionStartExcluding: Option<string>,
    versionEndIncluding: Option<string>,
    versionEndExcluding: Option<string>)

  /**
   * A row of the `cpe_match` table as loaded from the database; `repr` is
   * the text Python's `repr` gives for the object.
   */
  datatype DbMatch = DbMatch(cpeNameId: Option<string>, cpeName: string, repr: string)

  /**
   * A database model: a row of the `cpe_match_strings` table with its
   * loaded `matches` relationship, or a model of any other table; each
   * carries the text of its `repr`.
   */
  datatype DbModel =
    | DbMatchString(
        matchCriteriaId: Option<string>,
        criteria: string,
        status: string,
        cpeLastModified: Option<string>,
        created: string,
        lastModified: string,
        versionStartIncluding: Option<string>,
        versionStartExcluding: Option<string>,
        versionEndIncluding: Option<string>,
        versionEndExcluding: Option<string>,
        dbMatches: Option<seq<DbMatch>>,
        repr: string)
    | OtherModel(repr: string)

  /** A database identifier that Python treats as present: not None and not empty. */
  predicate Present(id: Option<string>)
  {
    id.Some? && id.value != ""
  }
}

=== FILE: cpe_match_producer.dfy ===
/**
 * The CPE match string database producer: converts database rows back to
 * match strings, and takes its expected total and its item stream from the
 * database manager without filters.
 */
module CpeMatchProducer {
  import opened Errors
  import opened CpeMatchModel

  /** The position of the first database match without a cpe_name_id, if any. */
  function FirstMissingId(ms: seq<DbMatch>): (r: Option<nat>)
    ensures r.None? <==> forall j :: 0 <= j < |ms| ==> Present(ms[j].cpeNameId)
    ensures r.Some? ==>
      r.value < |ms| && !Present(ms[r.value].cpeNameId) &&
      forall j :: 0 <= j < r.value ==> Present(ms[j].cpeNameId)
  {
    if ms == [] then None
    else if !Present(ms[0].cpeNameId) then Some(0)
    else
      var r := FirstMissingId(ms[1..]);
      if r.None? then None else Some(r.value + 1)
  }

  /**
   * `_convert_db_model`: a model of another table, a missing or empty
   * match_criteria_id, a missing matches list, or a match without a
   * cpe_name_id (the first one, in order) raise ScapError, in that order of
   * checks, each message naming the offending object's repr.  Otherwise the
   * match string has one match per database match, in the same order, and
   * every other field copied.
   */
  method ConvertDbModel(m: DbModel) returns (r: Result<MatchString>)
    ensures r.Err? <==>
      m.OtherModel? || !Present(m.matchCriteriaId) || m.dbMatches.None? ||
      FirstMissingId(m.dbMatches.value).Some?
    ensures r.Err? ==> r.error.ScapError?
    ensures m.OtherModel? ==> r == Err(ScapError("DB model is not a CPEMatchDatabaseModel: " + m.repr))
    ensures m.DbMatchString? && !Present(m.matchCriteriaId) ==>
      r == Err(ScapError("Missing match_criteria_id in " + m.repr))
    ensures m.DbMatchString? && Present(m.matchCriteriaId) && m.dbMatches.None? ==>
      r == Err(ScapError("Missing matches in " + m.repr))
    ensures (m.DbMatchString? && Present(m.matchCriteriaId) && m.dbMatches.Some? &&
             FirstMissingId(m.dbMatches.value).Some?) ==>
      r == Err(ScapError("Missing cpe_name_id in " + m.dbMatches.value[FirstMissingId(m.dbMatches.value).value].repr))
    ensures r.Ok? ==>
      var s := r.value;
      var ms := m.dbMatches.value;
      s.matchCriteriaId == m.matchCriteriaId.value &&
      s.criteria == m.criteria && s.status == m.status &&
      s.cpeLastModified == m.cpeLastModified && s.created == m.created &&
      s.lastModified == m.lastModified &&
      s.versionStartIncluding == m.versionStartIncluding &&
      s.versionStartExcluding == m.versionStartExcluding &&
      s.versionEndIncluding == m.versionEndIncluding &&
      s.versionEndExcluding == m.versionEndExcluding &&
      |s.matches| == |ms| &&
      forall j :: 0 <= j < |ms| ==> s.matches[j] == CpeMatch(ms[j].cpeNameId.value, ms[j].cpeName)
  {
    if m.OtherModel? {
      return Err(ScapError("DB model is not a CPEMatchDatabaseModel: " + m.repr));
    }
    if !Present(m.matchCriteriaId) {
      return Err(ScapError("Missing match_criteria_id in " + m.repr));
    }
    if m.dbMatches.None? {
      return Err(ScapError("Missing matches in " + m.repr));
    }
    var ms := m.dbMatches.value;
    var matches: seq<CpeMatch> := [];
    var i := 0;
    while i < |ms|
      invariant 0 <= i <= |ms|
      invariant forall j :: 0 <= j < i ==> Present(ms[j].cpeNameId)
      invariant FirstMissingId(ms).None? || i <= FirstMissingId(ms).value
      invariant |matches| == i
      invariant forall j :: 0 <= j < i ==> matches[j] == CpeMatch(ms[j].cpeNameId.value, ms[j].cpeName)
    {
      if !Present(ms[i].cpeNameId) {
        return Err(ScapError("Missing cpe_name_id in " + ms[i].repr));
      }
      matches := matches + [CpeMatch(ms[i].cpeNameId.value, ms[i].cpeName)];
      i := i + 1;
    }
    r := Ok(MatchString(m.matchCriteriaId.value, m.criteria, m.status, m.cpeLastModified,
                        m.created, m.lastModified, matches,
                        m.versionStartIncluding, m.versionStartExcluding,
                        m.versionEndIncluding, m.versionEndExcluding));
  }
}

=== FILE: cve_manager.dfy ===
/**
 * The CVE database manager: CVEs are buffered and written in batches, each
 * batch as one transaction that inserts the CVE rows and the rows of every
 * child table, replaces the batch's configurations and CVSS metrics, and
 * upserts or skips conflicting rows.  The database is modelled as the log
 * of transactions written to it; queries are described by their filter
 * clauses.
 */
module CveManager {
  import opened Errors
  import opened Strings
  import opened Settings
  import opened ChunkQueue
  import opened WriteBuffer
  import opened CveModels

  const DEFAULT_THRESHOLD := 100
  const DEFAULT_YIELD_PER := 100

  // ---------------------------------------------------------------- the CVE record

  datatype Description = Description(lang: string, value: string)
  datatype Reference = Reference(url: string, source: Option<string>, tags: seq<string>)
  datatype Weakness = Weakness(source: string, kind: string, description: seq<Description>)
  datatype VendorComment = VendorComment(organization: string, comment: string, lastModified: string)

  /** A CPE match of a configuration node. */
  datatype CveCpeMatch = CveCpeMatch(
    matchCriteriaId: string, vulnerable: bool, criteria: string,
    versionStartExcluding: Option<string>, versionStartIncluding: Option<string>,
    versionEndExcluding: Option<string>, versionEndIncluding: Option<string>)

  datatype Node = Node(operator: string, negate: Option<bool>, cpeMatch: Option<seq<CveCpeMatch>>)
  datatype Configuration = Configuration(operator: Option<string>, negate: Option<bool>, nodes: seq<Node>)

  /** A CVSS metric, reduced to the columns the model needs; the scores are left out. */
  datatype CvssMetric = CvssMetric(source: string, kind: string, vectorString: string, version: string,
                                   baseSeverity: Option<string>)

  datatype Metrics = Metrics(v2: seq<CvssMetric>, v30: seq<CvssMetric>, v31: seq<CvssMetric>)

  /** The optional columns of a CVE row. */
  datatype CveDetails = CveDetails(
    evaluatorComment: Option<string>, evaluatorSolution: Option<string>, evaluatorImpact: Option<string>,
    cisaExploitAdd: Option<string>, cisaActionDue: Option<string>,
    cisaRequiredAction: Option<string>, cisaVulnerabilityName: Option<string>)

  datatype Cve = Cve(
    id: string,
    sourceIdentifier: string,
    published: string,
    lastModified: string,
    vulnStatus: string,
    details: CveDetails,
    metrics: Option<Metrics>,
    descriptions: seq<Description>,
    references: seq<Reference>,
    weaknesses: seq<Weakness>,
    vendorComments: seq<VendorComment>,
    configurations: seq<Configuration>)

  // ---------------------------------------------------------------- rows

  /** A row of one of the CVE tables; every row names the CVE it belongs to. */
  datatype Row =
    | CveRow(cveId: string, sourceIdentifier: string, published: string, lastModified: string,
             vulnStatus: string, details: CveDetails)
    | DescriptionRow(cveId: string, lang: string, value: string)
    | ReferenceRow(cveId: string, url: string, referenceSource: Option<string>, tags: string)
    | WeaknessRow(cveId: string, weaknessSource: string, kind: string)
    | WeaknessDescriptionRow(cveId: string, weaknessSource: string, kind: string, lang: string, value: string)
    | CommentRow(cveId: string, organization: string, comment: string, lastModified: string)
    | CvssRow(cveId: string, metric: CvssMetric)

  datatype Table =
    | Cves | Descriptions | References | Weaknesses | WeaknessDescriptions | VendorComments
    | CvssV2 | CvssV3 | Configurations

  /** What an insert does with a row whose key already exists; `Plain` adds no conflict clause. */
  datatype OnConflict = UpdateOn(keys: seq<string>) | DoNothing | Plain

  /** A node inserted under the configuration it follows, with its matches under it. */
  datatype NodeInsert = NodeInsert(operator: string, negate: Option<bool>, matches: seq<CveCpeMatch>)

  datatype Statement =
    | Insert(table: Table, rows: seq<Row>, onConflict: OnConflict)
    | DeleteFor(from: Table, cveIds: seq<string>)
    | InsertConfiguration(cveId: string, operator: Option<string>, negate: Option<bool>, nodes: seq<NodeInsert>)

  datatype Transaction = Transaction(statements: seq<Statement>)

  function CveRowOf(c: Cve): Row
  {
    CveRow(c.id, c.sourceIdentifier, c.published, c.lastModified, c.vulnStatus, c.details)
  }

  /** One CVE row per CVE, in batch order. */
  function CveRows(cves: seq<Cve>): (rows: seq<Row>)
    ensures |rows| == |cves|
    ensures forall i :: 0 <= i < |cves| ==> rows[i] == CveRowOf(cves[i]) && rows[i].cveId == cves[i].id
  {
    seq(|cves|, i requires 0 <= i < |cves| => CveRowOf(cves[i]))
  }

  lemma CveRowsAppend(a: seq<Cve>, b: seq<Cve>)
    ensures CveRows(a + b) == CveRows(a) + CveRows(b)
  {
  }

  /** The ids of a batch, in order. */
  function Ids(cves: seq<Cve>): (ids: seq<string>)
    ensures |ids| == |cves|
    ensures forall i :: 0 <= i < |cves| ==> ids[i] == cves[i].id
  {
    seq(|cves|, i requires 0 <= i < |cves| => cves[i].id)
  }

  function DescriptionRowsOf(c: Cve): seq<Row>
  {
    seq(|c.descriptions|, j requires 0 <= j < |c.descriptions| =>
      DescriptionRow(c.id, c.descriptions[j].lang, c.descriptions[j].value))
  }

  /** The tags column holds the tags bound as a comma-joined string. */
  function ReferenceRowsOf(c: Cve): seq<Row>
  {
    seq(|c.references|, j requires 0 <= j < |c.references| =>
      ReferenceRow(c.id, c.references[j].url, c.references[j].source, BindStrList(c.references[j].tags)))
  }

  function WeaknessRowsOf(c: Cve): seq<Row>
  {
    seq(|c.weaknesses|, j requires 0 <= j < |c.weaknesses| =>
      WeaknessRow(c.id, c.weaknesses[j].source, c.weaknesses[j].kind))
  }

  function DescriptionsOfWeakness(id: string, w: Weakness): seq<Row>
  {
    seq(|w.description|, k requires 0 <= k < |w.description| =>
      WeaknessDescriptionRow(id, w.source, w.kind, w.description[k].lang, w.description[k].value))
  }

  function WeaknessDescriptionRowsOf(c: Cve): seq<Row>
  {
    FlatMap(c.weaknesses, w => DescriptionsOfWeakness(c.id, w))
  }

  function CommentRowsOf(c: Cve): seq<Row>
  {
    seq(|c.vendorComments|, j requires 0 <= j < |c.vendorComments| =>
      CommentRow(c.id, c.vendorComments[j].organization, c.vendorComments[j].comment,
                 c.vendorComments[j].lastModified))
  }

  function MetricRows(id: string, ms: seq<CvssMetric>): (rows: seq<Row>)
    ensures |rows| == |ms|
    ensures forall j :: 0 <= j < |ms| ==> rows[j] == CvssRow(id, ms[j])
  {
    seq(|ms|, j requires 0 <= j < |ms| => CvssRow(id, ms[j]))
  }

  /** The CVSS v2 rows of a CVE: none when it has no metrics. */
  function V2RowsOf(c: Cve): seq<Row>
  {
    if c.metrics.None? then [] else MetricRows(c.id, c.metrics.value.v2)
  }

  /** The CVSS v3 rows of a CVE: its v3.0 metrics followed by its v3.1 metrics. */
  function V3RowsOf(c: Cve): seq<Row>
  {
    if c.metrics.None? then [] else MetricRows(c.id, c.metrics.value.v30 + c.metrics.value.v31)
  }

  /** The rows of a CVE's v3 metrics are those of its v3.0 metrics, then those of its v3.1 metrics. */
  lemma V3RowsOrder(c: Cve)
    requires c.metrics.Some?
    ensures V3RowsOf(c) == MetricRows(c.id, c.metrics.value.v30) + MetricRows(c.id, c.metrics.value.v31)
    ensures |V3RowsOf(c)| == |c.metrics.value.v30| + |c.metrics.value.v31|
  {
  }

  /** Over a batch, the v3 rows are grouped by CVE in batch order. */
  lemma V3RowsOfBatch(cves: seq<Cve>, c: Cve)
    ensures FlatMap(cves + [c], V3RowsOf) == FlatMap(cves, V3RowsOf) + V3RowsOf(c)
  {
    assert (cves + [c])[..|cves|] == cves;
  }

  // ---------------------------------------------------------------- the batch transaction

  function Conflict(update: bool, keys: seq<string>): OnConflict
  {
    if update then UpdateOn(keys) else DoNothing
  }

  /** An insert of the given rows, left out when there are none. */
  function InsertIfAny(table: Table, rows: seq<Row>, onConflict: OnConflict): (s: seq<Statement>)
    ensures rows == [] <==> s == []
    ensures rows != [] ==> s == [Insert(table, rows, onConflict)]
  {
    if rows == [] then [] else [Insert(table, rows, onConflict)]
  }

  /** Weakness descriptions are inserted only inside the branch that inserts weaknesses. */
  function WeaknessStatements(cves: seq<Cve>, update: bool): seq<Statement>
  {
    var weaknesses := FlatMap(cves, WeaknessRowsOf);
    if weaknesses == [] then []
    else
      [Insert(Weaknesses, weaknesses, Conflict(update, ["cve_id", "source", "type"]))] +
      InsertIfAny(WeaknessDescriptions, FlatMap(cves, WeaknessDescriptionRowsOf),
                  Conflict(update, ["cve_id", "source", "type", "lang", "value"]))
  }

  function NodeInsertOf(n: Node): NodeInsert
  {
    NodeInsert(n.operator, n.negate, if n.cpeMatch.Some? then n.cpeMatch.value else [])
  }

  function ConfigurationInsertsOf(c: Cve): (s: seq<Statement>)
    ensures |s| == |c.configurations|
  {
    seq(|c.configurations|, j requires 0 <= j < |c.configurations| =>
      var conf := c.configurations[j];
      InsertConfiguration(c.id, conf.operator, conf.negate,
        seq(|conf.nodes|, k requires 0 <= k < |conf.nodes| => NodeInsertOf(conf.nodes[k]))))
  }

  /** `_insert_configurations`: every configuration of the batch's CVEs deleted, then the batch's inserted. */
  function ConfigurationStatements(cves: seq<Cve>): seq<Statement>
  {
    [DeleteFor(Configurations, Ids(cves))] + FlatMap(cves, ConfigurationInsertsOf)
  }

  /** `_insert_cvss`: the metrics of every CVE in the batch deleted, then the batch's inserted. */
  function CvssStatements(cves: seq<Cve>): seq<Statement>
  {
    [DeleteFor(CvssV2, Ids(cves)), DeleteFor(CvssV3, Ids(cves))] +
    InsertIfAny(CvssV2, FlatMap(cves, V2RowsOf), Plain) +
    InsertIfAny(CvssV3, FlatMap(cves, V3RowsOf), Plain)
  }

  /** The statements of `add_cves` for a non-empty batch, in the order they run. */
  function BatchTransaction(cves: seq<Cve>, update: bool): (t: Transaction)
    ensures |t.statements| >= 1
    ensures t.statements[0] == Insert(Cves, CveRows(cves), Conflict(update, ["id"]))
  {
    Transaction([Insert(Cves, CveRows(cves), Conflict(update, ["id"]))] + ChildStatements(cves, update))
  }

  /** The statements after the CVE rows: the child tables, then configurations and metrics. */
  function ChildStatements(cves: seq<Cve>, update: bool): seq<Statement>
  {
      InsertIfAny(Descriptions, FlatMap(cves, DescriptionRowsOf), Conflict(update, ["cve_id", "lang", "value"])) +
      InsertIfAny(References, FlatMap(cves, ReferenceRowsOf), Conflict(update, ["cve_id", "url"])) +
      WeaknessStatements(cves, update) +
      InsertIfAny(VendorComments, FlatMap(cves, CommentRowsOf), Conflict(update, ["cve_id", "organization"])) +
      ConfigurationStatements(cves) +
      CvssStatements(cves)
  }

  /** A batch transaction is the insert into the CVE table followed by the child statements. */
  lemma BatchStatements(cves: seq<Cve>, update: bool)
    ensures BatchTransaction(cves, update).statements ==
      [Insert(Cves, CveRows(cves), Conflict(update, ["id"]))] + ChildStatements(cves, update)
  {
  }

  lemma SuffixOfAppend<X>(a: seq<X>, b: seq<X>, n: nat)
    requires n <= |b|
    ensures (a + b)[|a + b| - n..] == b[|b| - n..]
  {
  }

  /** The child statements end with the configuration statements and then the CVSS statements. */
  lemma ChildStatementsEnd(cves: seq<Cve>, update: bool)
    ensures var child := ChildStatements(cves, update);
      |child| >= 1 + |FlatMap(cves, ConfigurationInsertsOf)| + |CvssStatements(cves)| &&
      child[|child| - |CvssStatements(cves)|..] == CvssStatements(cves)
  {
    var cvss := CvssStatements(cves);
    var before :=
      InsertIfAny(Descriptions, FlatMap(cves, DescriptionRowsOf), Conflict(update, ["cve_id", "lang", "value"])) +
      InsertIfAny(References, FlatMap(cves, ReferenceRowsOf), Conflict(update, ["cve_id", "url"])) +
      WeaknessStatements(cves, update) +
      InsertIfAny(VendorComments, FlatMap(cves, CommentRowsOf), Conflict(update, ["cve_id", "organization"])) +
      ConfigurationStatements(cves);
    assert ChildStatements(cves, update) == before + cvss;
    assert (before + cvss)[|before|..] == cvss;
  }

  /**
   * A batch transaction starts with the insert of one row per CVE, upserting
   * on the id with `update` and skipping conflicts without it, and ends
   * with the CVSS statements.
   */
  lemma BatchTransactionShape(cves: seq<Cve>, update: bool)
    ensures var t := BatchTransaction(cves, update).statements;
      t[0] == Insert(Cves, CveRows(cves), if update then UpdateOn(["id"]) else DoNothing) &&
      |t| >= 4 + |FlatMap(cves, ConfigurationInsertsOf)| &&
      t[|t| - |CvssStatements(cves)|..] == CvssStatements(cves)
  {
    BatchStatements(cves, update);
    ChildStatementsEnd(cves, update);
    SuffixOfAppend([Insert(Cves, CveRows(cves), Conflict(update, ["id"]))], ChildStatements(cves, update),
                   |CvssStatements(cves)|);
  }

  /**
   * The configurations statement block deletes the configurations of every
   * CVE in the batch before any is inserted, and inserts one configuration
   * per configuration of the batch, in batch order.
   */
  lemma {:induction false} ConfigurationsReplaced(cves: seq<Cve>)
    ensures var s := ConfigurationStatements(cves);
      s[0] == DeleteFor(Configurations, Ids(cves)) &&
      (forall i :: 1 <= i < |s| ==> s[i].InsertConfiguration?) &&
      |s| == 1 + ConfigurationCount(cves)
    decreases |cves|
  {
    ConfigurationInsertsAreInserts(cves);
  }

  function ConfigurationCount(cves: seq<Cve>): nat
  {
    if cves == [] then 0 else ConfigurationCount(cves[..|cves| - 1]) + |cves[|cves| - 1].configurations|
  }

  lemma {:induction false} ConfigurationInsertsAreInserts(cves: seq<Cve>)
    ensures var s := FlatMap(cves, ConfigurationInsertsOf);
      |s| == ConfigurationCount(cves) && forall i :: 0 <= i < |s| ==> s[i].InsertConfiguration?
    decreases |cves|
  {
    if cves != [] {
      ConfigurationInsertsAreInserts(cves[..|cves| - 1]);
    }
  }

  /**
   * The configuration inserted for the j-th configuration of a CVE belongs
   * to that CVE and carries its operator, its negation and one node insert
   * per node, with a node's missing match list inserted as no matches.
   */
  lemma ConfigurationInsertOf(c: Cve, j: nat, k: nat)
    requires j < |c.configurations| && k < |c.configurations[j].nodes|
    ensures var s := ConfigurationInsertsOf(c)[j];
      s.cveId == c.id && s.operator == c.configurations[j].operator &&
      s.negate == c.configurations[j].negate &&
      |s.nodes| == |c.configurations[j].nodes| &&
      s.nodes[k].matches == (if c.configurations[j].nodes[k].cpeMatch.None? then []
                             else c.configurations[j].nodes[k].cpeMatch.value)
  {
  }

  /**
   * `_insert_cvss` as a loop over the batch, collecting the ids and the v2
   * and v3 rows, then the two deletes and the inserts that have rows.
   */
  method InsertCvss(cves: seq<Cve>) returns (statements: seq<Statement>)
    ensures statements == CvssStatements(cves)
  {
    var v2: seq<Row> := [];
    var v3: seq<Row> := [];
    var ids: seq<string> := [];
    var i := 0;
    while i < |cves|
      invariant 0 <= i <= |cves|
      invariant ids == Ids(cves[..i])
      invariant v2 == FlatMap(cves[..i], V2RowsOf)
      invariant v3 == FlatMap(cves[..i], V3RowsOf)
    {
      var c := cves[i];
      assert cves[..i + 1][..i] == cves[..i] && cves[..i + 1][i] == c;
      ids := ids + [c.id];
      if c.metrics.Some? {
        v2 := v2 + MetricRows(c.id, c.metrics.value.v2);
        v3 := v3 + MetricRows(c.id, c.metrics.value.v30 + c.metrics.value.v31);
      }
      i := i + 1;
    }
    assert cves[..i] == cves;
    statements := [DeleteFor(CvssV2, ids), DeleteFor(CvssV3, ids)];
    if v2 != [] {
      statements := statements + [Insert(CvssV2, v2, Plain)];
    }
    if v3 != [] {
      statements := statements + [Insert(CvssV3, v3, Plain)];
    }
  }

  // ---------------------------------------------------------------- the effect on a metrics table

  /** The rows of a table that belong to none of the given CVEs: what a delete for them keeps. */
  function Without(table: seq<Row>, ids: seq<string>): (kept: seq<Row>)
    ensures forall x :: x in kept <==> x in table && x.cveId !in ids
  {
    if table == [] then []
    else (if table[0].cveId in ids then [] else [table[0]]) + Without(table[1..], ids)
  }

  /** A metrics table after the batch's delete and insert. */
  function ReplaceMetrics(table: seq<Row>, cves: seq<Cve>, f: Cve -> seq<Row>): seq<Row>
  {
    Without(table, Ids(cves)) + FlatMap(cves, f)
  }

  /** The rows a metric function yields for a CVE belong to it, and it yields none without metrics. */
  ghost predicate MetricRowsOfOwnCve(f: Cve -> seq<Row>)
  {
    forall c: Cve, x: Row :: x in f(c) ==> x.cveId == c.id && c.metrics.Some?
  }

  lemma MetricRowsOfOwnCveHolds()
    ensures MetricRowsOfOwnCve(V2RowsOf) && MetricRowsOfOwnCve(V3RowsOf)
  {
    forall c: Cve, x: Row | x in V2RowsOf(c)
      ensures x.cveId == c.id && c.metrics.Some?
    {
      var rows := MetricRows(c.id, c.metrics.value.v2);
      var j :| 0 <= j < |rows| && rows[j] == x;
    }
    forall c: Cve, x: Row | x in V3RowsOf(c)
      ensures x.cveId == c.id && c.metrics.Some?
    {
      var rows := MetricRows(c.id, c.metrics.value.v30 + c.metrics.value.v31);
      var j :| 0 <= j < |rows| && rows[j] == x;
    }
  }

  /**
   * After a batch, a metrics table holds for each CVE of the batch only the
   * rows the batch inserted, none at all for a CVE that has no metrics in
   * the batch, and the rows of every other CVE unchanged.
   */
  lemma MetricsReplaced(table: seq<Row>, cves: seq<Cve>, f: Cve -> seq<Row>, x: Row, id: string)
    requires MetricRowsOfOwnCve(f)
    ensures x in ReplaceMetrics(table, cves, f) && x.cveId in Ids(cves) ==> x in FlatMap(cves, f)
    ensures x.cveId !in Ids(cves) ==> (x in ReplaceMetrics(table, cves, f) <==> x in table)
    ensures (forall i :: 0 <= i < |cves| && cves[i].id == id ==> cves[i].metrics.None?) ==>
      forall y :: y in ReplaceMetrics(table, cves, f) && id in Ids(cves) ==> y.cveId != id
  {
    if x in FlatMap(cves, f) {
      FlatMapOrigin(cves, f, x);
    }
    if forall i :: 0 <= i < |cves| && cves[i].id == id ==> cves[i].metrics.None? {
      forall y | y in ReplaceMetrics(table, cves, f) && id in Ids(cves)
        ensures y.cveId != id
      {
        if y in FlatMap(cves, f) {
          FlatMapOrigin(cves, f, y);
        }
      }
    }
  }

  // ---------------------------------------------------------------- buffering

  /** The transactions executed for the batches written, in order. */
  function Log(batches: seq<seq<Cve>>, update: bool): (log: seq<Transaction>)
    ensures |log| == |batches|
    ensures forall i :: 0 <= i < |batches| ==> log[i] == BatchTransaction(batches[i], update)
  {
    seq(|batches|, i requires 0 <= i < |batches| => BatchTransaction(batches[i], update))
  }

  /** The CVE rows a log of transactions inserts, in order. */
  function WrittenCves(log: seq<Transaction>): seq<Row>
  {
    if log == [] then [] else WrittenCves(log[..|log| - 1]) + CveRowsIn(log[|log| - 1])
  }

  /** The CVE rows a transaction inserts first, if it starts with an insert into the CVE table. */
  function CveRowsIn(t: Transaction): seq<Row>
  {
    if |t.statements| > 0 && t.statements[0].Insert? && t.statements[0].table == Cves
    then t.statements[0].rows else []
  }

  lemma LogSnoc(batches: seq<seq<Cve>>, update: bool)
    requires batches != []
    ensures Log(batches, update)[..|batches| - 1] == Log(batches[..|batches| - 1], update)
    ensures CveRowsIn(Log(batches, update)[|batches| - 1]) == CveRows(batches[|batches| - 1])
  {
  }

  /** Writing one more batch appends that batch's CVE rows. */
  lemma WrittenCvesSnoc(batches: seq<seq<Cve>>, update: bool)
    requires batches != []
    ensures WrittenCves(Log(batches, update)) ==
      WrittenCves(Log(batches[..|batches| - 1], update)) + CveRows(batches[|batches| - 1])
  {
    LogSnoc(batches, update);
  }

  lemma {:induction false} WrittenCvesOfLog(batches: seq<seq<Cve>>, update: bool)
    ensures WrittenCves(Log(batches, update)) == CveRows(Flatten(batches))
    decreases |batches|
  {
    if batches != [] {
      var prefix, last := batches[..|batches| - 1], batches[|batches| - 1];
      WrittenCvesSnoc(batches, update);
      WrittenCvesOfLog(prefix, update);
      CveRowsAppend(Flatten(prefix), last);
    }
  }

  /**
   * CVEs added one at a time and then a clean exit: the row of every CVE
   * has been written, once and in order, and nothing is left in the buffer.
   */
  lemma CleanExitWritesAll(cves: seq<Cve>, insertThreshold: int, update: bool)
    ensures var b := AddAll(NewBuffer(insertThreshold), cves).Exit(false);
      b.pending == [] && WrittenCves(Log(b.batches, update)) == CveRows(cves)
  {
    WriteBuffer.CleanExitWritesAll(cves, insertThreshold);
    WrittenCvesOfLog(AddAll(NewBuffer(insertThreshold), cves).Exit(false).batches, update);
  }

  class CveDatabaseManager {
    var pending: seq<Cve>
    var batches: seq<seq<Cve>>   // the batches written, in order
    const insertThreshold: int
    const update: bool
    const yieldPer: int

    function State(): Buffer<Cve>
      reads this
    {
      Buffer(pending, batches, insertThreshold)
    }

    /** The transactions executed so far. */
    function Transactions(): seq<Transaction>
      reads this
    {
      Log(batches, update)
    }

    constructor(insertThreshold: int, yieldPer: int, update: bool)
      ensures State() == NewBuffer(insertThreshold) && this.yieldPer == yieldPer && this.update == update
    {
      pending := [];
      batches := [];
      this.insertThreshold := insertThreshold;
      this.yieldPer := yieldPer;
      this.update := update;
    }

    /** `add_cves`: nothing for an empty batch; otherwise one transaction, then an empty buffer. */
    method AddCves(cves: seq<Cve>)
      modifies this
      ensures State() == old(State()).AddMany(cves)
      ensures cves != [] ==> Transactions() == old(Transactions()) + [BatchTransaction(cves, update)]
    {
      if cves == [] {
        return;
      }
      batches := batches + [cves];
      pending := [];
    }

    method Add(c: Cve)
      modifies this
      ensures State() == old(State()).Add(c)
    {
      pending := pending + [c];
      if |pending| > insertThreshold {
        AddCves(pending);
      }
    }

    /** `__aexit__`, told whether an exception is leaving the context. */
    method Exit(raised: bool)
      modifies this
      ensures State() == old(State()).Exit(raised)
    {
      if !raised {
        AddCves(pending);
      }
    }
  }

  // ---------------------------------------------------------------- queries

  /** An argument that is one string or a list of strings, as `cve_ids` and `keywords` are. */
  datatype Strs = NoStrs | One(s: string) | Many(items: seq<string>)
  {
    predicate Truthy()
    {
      (One? && s != "") || (Many? && items != [])
    }

    /** A single string becomes a one-element list. */
    function AsList(): (l: seq<string>)
      ensures One? ==> l == [s]
      ensures Many? ==> l == items
    {
      match this
      case NoStrs => []
      case One(s) => [s]
      case Many(items) => items
    }
  }

  /** The filters of `find` and `count`; dates are datetime objects and so always truthy. */
  datatype CveFilter = CveFilter(
    cveIds: Strs,
    lastModificationStartDate: Option<string>,
    lastModificationEndDate: Option<string>,
    publishedStartDate: Option<string>,
    publishedEndDate: Option<string>,
    sourceIdentifier: Option<string>,
    noRejected: bool,
    keywords: Strs,
    cweId: Option<string>,
    cvssV2Vector: Option<string>,
    cvssV3Vector: Option<string>,
    cvssV2Severity: Option<string>,
    cvssV3Severity: Option<string>)

  const NoCveFilter := CveFilter(NoStrs, None, None, None, None, None, false, NoStrs, None, None, None, None, None)

  datatype MetricTable = V2Metrics | V3Metrics

  datatype Clause =
    | IdIn(ids: seq<string>)
    | LastModifiedAtLeast(date: string)
    | LastModifiedAtMost(date: string)
    | PublishedAtLeast(date: string)
    | PublishedAtMost(date: string)
    | SourceIdentifierIs(source: string)
    | StatusIsNot(status: string)
    /** Every pattern matches, case-insensitively, some description of the CVE. */
    | AllDescriptionsMatch(patterns: seq<string>)
    | CweIs(cwe: string)
    /** Some metric of the relation has a vector string containing the text, ignoring case. */
    | VectorContains(relation: MetricTable, text: string)
    /** Some metric of the relation has a base severity, read from the `column` table, equal to the text. */
    | SeverityIs(relation: MetricTable, column: MetricTable, severity: string)

  /** The regular expression a keyword becomes: the keyword at the start of a word. */
  function KeywordPattern(keyword: string): string
  {
    "(^| )" + keyword + ".*"
  }

  function KeywordPatterns(keywords: seq<string>): (ps: seq<string>)
    ensures |ps| == |keywords|
    ensures forall i :: 0 <= i < |keywords| ==> ps[i] == KeywordPattern(keywords[i])
  {
    seq(|keywords|, i requires 0 <= i < |keywords| => KeywordPattern(keywords[i]))
  }

  /** The v2 severity clause as written: it reads the severity from the v3 table inside the v2 relation. */
  function V2SeverityClauseAsWritten(severity: string): Clause
  {
    SeverityIs(V2Metrics, V3Metrics, Upper(severity))
  }

  /** The v2 severity clause with the severity read from the v2 metrics themselves. */
  function V2SeverityClause(severity: string): (c: Clause)
    ensures c.SeverityIs? && c.relation == c.column == V2Metrics && c.severity == Upper(severity)
  {
    SeverityIs(V2Metrics, V2Metrics, Upper(severity))
  }

  /** A clause is coherent when the severity it compares belongs to the metrics it ranges over. */
  predicate Coherent(c: Clause)
  {
    c.SeverityIs? ==> c.relation == c.column
  }

  /** The as-written v2 severity clause is not coherent, for every severity. */
  lemma V2SeverityAsWrittenIncoherent(severity: string)
    ensures !Coherent(V2SeverityClauseAsWritten(severity))
    ensures V2SeverityClauseAsWritten(severity) != V2SeverityClause(severity)
  {
  }

  /** `_get_clauses`: one clause per truthy filter, in a fixed order. */
  function GetClauses(f: CveFilter): seq<Clause>
  {
    RecordClauses(f) + TextClauses(f) + MetricClauses(f)
  }

  /** The filters on the CVE's own columns: ids and dates. */
  function RecordClauses(f: CveFilter): (cs: seq<Clause>)
    ensures |cs| == Ind(f.cveIds.Truthy()) + Ind(f.lastModificationStartDate.Some?) +
      Ind(f.lastModificationEndDate.Some?) + Ind(f.publishedStartDate.Some?) + Ind(f.publishedEndDate.Some?)
    ensures forall c :: c in cs ==> !c.SeverityIs?
  {
    (if f.cveIds.Truthy() then [IdIn(f.cveIds.AsList())] else []) +
    (if f.lastModificationStartDate.Some? then [LastModifiedAtLeast(f.lastModificationStartDate.value)] else []) +
    (if f.lastModificationEndDate.Some? then [LastModifiedAtMost(f.lastModificationEndDate.value)] else []) +
    (if f.publishedStartDate.Some? then [PublishedAtLeast(f.publishedStartDate.value)] else []) +
    (if f.publishedEndDate.Some? then [PublishedAtMost(f.publishedEndDate.value)] else [])
  }

  /** The filters on source, status, descriptions and weaknesses. */
  function TextClauses(f: CveFilter): (cs: seq<Clause>)
    ensures |cs| == Ind(Truthy(f.sourceIdentifier)) + Ind(f.noRejected) + Ind(f.keywords.Truthy()) +
      Ind(Truthy(f.cweId))
    ensures forall c :: c in cs ==> !c.SeverityIs?
  {
    (if Truthy(f.sourceIdentifier) then [SourceIdentifierIs(f.sourceIdentifier.value)] else []) +
    (if f.noRejected then [StatusIsNot(StatusValue(Rejected))] else []) +
    (if f.keywords.Truthy() then [AllDescriptionsMatch(KeywordPatterns(f.keywords.AsList()))] else []) +
    (if Truthy(f.cweId) then [CweIs(f.cweId.value)] else [])
  }

  /** The filters on the CVSS metrics. */
  function MetricClauses(f: CveFilter): (cs: seq<Clause>)
    ensures |cs| == Ind(Truthy(f.cvssV2Vector)) + Ind(Truthy(f.cvssV3Vector)) +
      Ind(Truthy(f.cvssV2Severity)) + Ind(Truthy(f.cvssV3Severity))
    ensures forall c :: c in cs ==> Coherent(c)
  {
    (if Truthy(f.cvssV2Vector) then [VectorContains(V2Metrics, f.cvssV2Vector.value)] else []) +
    (if Truthy(f.cvssV3Vector) then [VectorContains(V3Metrics, f.cvssV3Vector.value)] else []) +
    (if Truthy(f.cvssV2Severity) then [V2SeverityClause(f.cvssV2Severity.value)] else []) +
    (if Truthy(f.cvssV3Severity) then [SeverityIs(V3Metrics, V3Metrics, Upper(f.cvssV3Severity.value))] else [])
  }

  function Ind(b: bool): nat { if b then 1 else 0 }

  /** The number of filters that are set. */
  function FilterCount(f: CveFilter): nat
  {
    Ind(f.cveIds.Truthy()) + Ind(f.lastModificationStartDate.Some?) + Ind(f.lastModificationEndDate.Some?) +
    Ind(f.publishedStartDate.Some?) + Ind(f.publishedEndDate.Some?) + Ind(Truthy(f.sourceIdentifier)) +
    Ind(f.noRejected) + Ind(f.keywords.Truthy()) + Ind(Truthy(f.cweId)) + Ind(Truthy(f.cvssV2Vector)) +
    Ind(Truthy(f.cvssV3Vector)) + Ind(Truthy(f.cvssV2Severity)) + Ind(Truthy(f.cvssV3Severity))
  }

  /**
   * One clause per set filter and nothing else: no filters give no clause,
   * and every clause compares a severity within the metrics it ranges over.
   */
  lemma ClausesPerFilter(f: CveFilter)
    ensures |GetClauses(f)| == FilterCount(f)
    ensures FilterCount(f) == 0 <==> GetClauses(f) == []
    ensures forall c :: c in GetClauses(f) ==> Coherent(c)
  {
    var a, b, m := RecordClauses(f), TextClauses(f), MetricClauses(f);
    assert forall c :: c in a + b + m ==> c in a || c in b || c in m;
  }

  /** A single CVE id becomes a one-element id list, as the first clause. */
  lemma SingleIdClause(f: CveFilter)
    requires f.cveIds.One? && f.cveIds.s != ""
    ensures GetClauses(f)[0] == IdIn([f.cveIds.s])
  {
  }

  /** Leaving out rejected CVEs compares the status with "Rejected". */
  lemma NoRejectedClause(f: CveFilter)
    requires f.noRejected
    ensures StatusIsNot("Rejected") in GetClauses(f)
  {
  }

  /** A select of CVEs with all their child rows, ordered by id. */
  datatype Query = Query(clauses: seq<Clause>, limit: Option<int>, offset: Option<int>)

  /** The select `find` streams. */
  function Find(f: CveFilter, limit: Option<int>, index: Option<int>): (q: Query)
    ensures q.clauses == GetClauses(f) && q.limit == limit && q.offset == index
  {
    Query(GetClauses(f), limit, index)
  }

  /** `all`: `find` without arguments. */
  function All(): (q: Query)
    ensures q.clauses == [] && q.limit.None? && q.offset.None?
  {
    ClausesPerFilter(NoCveFilter);
    assert FilterCount(NoCveFilter) == 0;
    Find(NoCveFilter, None, None)
  }

  /** The clauses of the count `count` runs: the same as `find`'s. */
  function CountClauses(f: CveFilter): (cs: seq<Clause>)
    ensures cs == Find(f, None, None).clauses
  {
    GetClauses(f)
  }
}

=== FILE: cve_models.dfy ===
/**
 * The CVE table helpers: the string-list column type, stored as one
 * comma-joined text, and the vulnerability status values.
 */
module CveModels {
  import opened Errors
  import opened Strings

  const LIST_SEPARATOR := ','

  /** `StrListType.process_bind_param`: the elements joined with ",". */
  function BindStrList(value: seq<string>): (stored: string)
    ensures value == [] ==> stored == ""
    ensures |value| == 1 ==> stored == value[0]
    ensures Count(stored, LIST_SEPARATOR) >= |value| - 1
  {
    JoinCount(value);
    Join(value, LIST_SEPARATOR)
  }

  /** Joining `n` pieces puts at least `n - 1` separators into the text. */
  lemma {:induction false} JoinCount(parts: seq<string>)
    ensures Count(Join(parts, LIST_SEPARATOR), LIST_SEPARATOR) >= |parts| - 1
  {
    if |parts| > 1 {
      JoinCount(parts[1..]);
      var rest := Join(parts[1..], LIST_SEPARATOR);
      CountAppend(parts[0], [LIST_SEPARATOR] + rest, LIST_SEPARATOR);
      CountAppend([LIST_SEPARATOR], rest, LIST_SEPARATOR);
      assert Count([LIST_SEPARATOR], LIST_SEPARATOR) == 1;
      assert parts[0] + [LIST_SEPARATOR] + rest == parts[0] + ([LIST_SEPARATOR] + rest);
    }
  }

  /** `StrListType.process_result_value`: an empty or null column reads as []; otherwise its split on ",". */
  function ResultStrList(value: Option<string>): (items: seq<string>)
    ensures (value.None? || value.value == "") <==> items == []
    ensures forall i :: 0 <= i < |items| ==> LIST_SEPARATOR !in items[i]
  {
    if value.Some? && value.value != "" then Split(value.value, LIST_SEPARATOR) else []
  }

  /** A non-empty stored value is split into one more piece than it has separators, and joins back to itself. */
  lemma ReadJoinsBack(stored: string)
    requires stored != ""
    ensures |ResultStrList(Some(stored))| == Count(stored, LIST_SEPARATOR) + 1
    ensures BindStrList(ResultStrList(Some(stored))) == stored
  {
    SplitLength(stored, LIST_SEPARATOR);
    JoinSplit(stored, LIST_SEPARATOR);
  }

  /** Joining is empty only for [] and [""]. */
  lemma JoinEmpty(parts: seq<string>)
    requires Join(parts, LIST_SEPARATOR) == ""
    ensures parts == [] || parts == [""]
  {
    if |parts| > 1 {
      assert false;
    }
  }

  /**
   * Reading back what was bound returns the original list, whenever no
   * element contains "," and the list is not [""].
   */
  lemma ReadBound(value: seq<string>)
    requires forall i :: 0 <= i < |value| ==> LIST_SEPARATOR !in value[i]
    requires value != [""]
    ensures ResultStrList(Some(BindStrList(value))) == value
  {
    var stored := BindStrList(value);
    if stored == "" {
      JoinEmpty(value);
    } else {
      SplitJoin(value, LIST_SEPARATOR);
    }
  }

  /** The excluded cases: [""] reads back as [], and an element holding "," reads back as several. */
  lemma ReadBoundExceptions(x: string, y: string)
    requires LIST_SEPARATOR !in x && LIST_SEPARATOR !in y
    ensures ResultStrList(Some(BindStrList([""]))) == []
    ensures ResultStrList(Some(BindStrList([x + [LIST_SEPARATOR] + y]))) == [x, y]
  {
    SplitJoin([x, y], LIST_SEPARATOR);
    assert Join([x, y], LIST_SEPARATOR) == x + [LIST_SEPARATOR] + Join([y], LIST_SEPARATOR);
  }

  /** The vulnerability statuses; `Rejected` is an alias of `REJECTED`, not a member of its own. */
  datatype VulnStatus = Rejected | Analyzed | AwaitingAnalysis | Modified | Received | UndergoingAnalysis

  /** The stored text of each status. */
  function StatusValue(s: VulnStatus): (v: string)
    ensures v != ""
  {
    match s
    case Rejected => "Rejected"
    case Analyzed => "Analyzed"
    case AwaitingAnalysis => "Awaiting Analysis"
    case Modified => "Modified"
    case Received => "Received"
    case UndergoingAnalysis => "Undergoing Analysis"
  }

  /** Lookup by member name, `VulnStatus[name]`; both spellings of the rejected status name one member. */
  function StatusByName(name: string): (r: Option<VulnStatus>)
    ensures name == "REJECTED" || name == "Rejected" ==> r == Some(Rejected)
  {
    match name
    case "REJECTED" => Some(Rejected)
    case "Rejected" => Some(Rejected)
    case "ANALYZED" => Some(Analyzed)
    case "AWAITING_ANALYSIS" => Some(AwaitingAnalysis)
    case "MODIFIED" => Some(Modified)
    case "RECEIVED" => Some(Received)
    case "UNDERGOING_ANALYSIS" => Some(UndergoingAnalysis)
    case _ => None
  }

  /** Lookup by stored text, `VulnStatus(value)`. */
  function StatusByValue(value: string): (r: Option<VulnStatus>)
    ensures r.Some? ==> StatusValue(r.value) == value
  {
    match value
    case "Rejected" => Some(Rejected)
    case "Analyzed" => Some(Analyzed)
    case "Awaiting Analysis" => Some(AwaitingAnalysis)
    case "Modified" => Some(Modified)
    case "Received" => Some(Received)
    case "Undergoing Analysis" => Some(UndergoingAnalysis)
    case _ => None
  }

  /** Every status reads back from its stored text, so distinct statuses store distinct texts. */
  lemma StatusValueRoundTrip(s: VulnStatus)
    ensures StatusByValue(StatusValue(s)) == Some(s)
  {
  }

  lemma StatusValueInjective(s: VulnStatus, t: VulnStatus)
    requires StatusValue(s) == StatusValue(t)
    ensures s == t
  {
    StatusValueRoundTrip(s);
    StatusValueRoundTrip(t);
  }

  /** The two names of the rejected status give the same value, "Rejected". */
  lemma RejectedAlias(upper: string, alias: string)
    requires upper == "REJECTED" && alias == "Rejected"
    ensures StatusByName(upper) == StatusByName(alias) == Some(Rejected)
    ensures StatusValue(StatusByName(alias).value) == "Rejected"
  {
  }
}

=== FILE: db_producer.dfy ===
/**
 * The database producer: resolves its connection settings, reports the
 * database's item count as the expected total, and streams the items,
 * converted one by one, into chunks of at most the queue's chunk size.
 */
module DatabaseProducer {
  import opened Errors
  import opened Settings
  import opened ChunkQueue
  import opened Pipeline
  import opened Processor

  /**
   * The environment port as this producer reads it: unset or empty gives
   * None, a number is used, anything else makes `int()` raise ValueError.
   */
  function EnvPortValue(port: EnvPort): (r: Result<Option<int>>)
    ensures r.Err? <==> port.NotNumeric?
    ensures port.Unset? || port.Empty? ==> r == Ok(None)
    ensures port.Numeric? ==> r == Ok(Some(port.n))
  {
    match port
    case Unset => Ok(None)
    case Empty => Ok(None)
    case Numeric(n) => Ok(Some(n))
    case NotNumeric => Err(ValueError("invalid literal for int() with base 10"))
  }

  /** The constructor's settings resolution; the port is read before the credentials are checked. */
  function ResolveConfig(args: DbArgs, env: DbEnv, itemTypePlural: string): (r: Result<DbConnection>)
    ensures env.port.NotNumeric? ==> r.Err? && r.error.ValueError?
  {
    var envPort :- EnvPortValue(env.port);
    ResolveWithPort(args, env, envPort, itemTypePlural)
  }

  /** Without user, and without password, the constructor raises CLIError; the user is checked first. */
  lemma MissingCredentials(args: DbArgs, env: DbEnv, itemTypePlural: string)
    requires !env.port.NotNumeric?
    ensures !Truthy(args.user) && !Truthy(env.user) ==>
      ResolveConfig(args, env, itemTypePlural) == Err(CliError("Missing user for " + itemTypePlural + " database"))
    ensures Truthy(OrElse(args.user, env.user)) && !Truthy(args.password) && !Truthy(env.password) ==>
      ResolveConfig(args, env, itemTypePlural) == Err(CliError("Missing password for " + itemTypePlural + " database"))
  {
  }

  /** With nothing but credentials given, the defaults apply: scap on localhost:5432, no schema. */
  lemma ConfigDefaults(user: string, password: string, itemTypePlural: string)
    requires user != "" && password != ""
    ensures ResolveConfig(DbArgs(None, None, None, None, Some(user), Some(password), false), NoEnv, itemTypePlural)
      == Ok(DbConnection(user, password, "localhost", 5432, "scap", None, false))
  {
  }

  /**
   * Each setting is the argument when it is truthy, else the environment
   * variable when that is truthy, else the default.
   */
  lemma ConfigPrecedence(args: DbArgs, env: DbEnv, itemTypePlural: string)
    requires ResolveConfig(args, env, itemTypePlural).Ok?
    ensures var c := ResolveConfig(args, env, itemTypePlural).value;
      c.dbname == (if Truthy(args.name) then args.name.value
                   else if Truthy(env.name) then env.name.value else "scap") &&
      c.host == (if Truthy(args.host) then args.host.value
                 else if Truthy(env.host) then env.host.value else "localhost") &&
      c.schema == (if Truthy(args.schema) then args.schema
                   else if Truthy(env.schema) then env.schema else None) &&
      c.port == (if TruthyInt(args.port) then args.port.value
                 else if env.port.Numeric? && env.port.n != 0 then env.port.n else 5432) &&
      c.user == OrElse(args.user, env.user).value &&
      c.password == OrElse(args.password, env.password).value &&
      c.echo == args.echoSql
  {
  }

  /** `fetch_initial_data`: the database's item count, passed on unchanged. */
  function ExpectedTotal(dbCount: int): int
  {
    dbCount
  }

  /**
   * A processor run whose producer reads from the database: the total the
   * processor receives is the database's count, so the run is skipped
   * exactly when the database reports no items.
   */
  method ProcessDatabase<T>(p: ScapProcessor<T>, dbCount: int, schedule: seq<Actor>) returns (r: RunResult)
    requires p.Valid()
    modifies p.producer, p.worker, p.queue
    ensures r == Skipped <==> dbCount <= 0
    ensures dbCount <= 0 ==> p.Snapshot() == old(p.Snapshot())
    ensures dbCount > 0 ==> r == Ran(p.Snapshot().Status())
  {
    r := p.Run(ExpectedTotal(dbCount), schedule);
  }

  /** How many items the producer puts per chunk: the chunk size, but at least one. */
  function Width(chunkSize: int): (w: nat)
    ensures w >= 1
    ensures chunkSize >= 1 ==> w == chunkSize
  {
    if chunkSize >= 1 then chunkSize else 1
  }

  /**
   * The chunks of a stream of items, independently of any loop: runs of
   * `Width(chunkSize)` consecutive items, the last run possibly shorter.
   */
  function Rechunk<T>(items: seq<T>, chunkSize: int): seq<seq<T>>
    decreases |items|
  {
    var w := Width(chunkSize);
    if |items| == 0 then []
    else if |items| <= w then [items]
    else [items[..w]] + Rechunk(items[w..], chunkSize)
  }

  /** Concatenating the chunks gives back the items: none dropped, duplicated or reordered. */
  lemma {:induction false} RechunkFlatten<T>(items: seq<T>, chunkSize: int)
    ensures Flatten(Rechunk(items, chunkSize)) == items
    decreases |items|
  {
    var w := Width(chunkSize);
    if |items| == 0 {
    } else if |items| <= w {
      FlattenSingleton(items);
    } else {
      var first, rest := items[..w], items[w..];
      calc {
        Flatten(Rechunk(items, chunkSize));
        Flatten([first] + Rechunk(rest, chunkSize));
      == { FlattenConcat([first], Rechunk(rest, chunkSize)); FlattenSingleton(first); }
        first + Flatten(Rechunk(rest, chunkSize));
      == { RechunkFlatten(rest, chunkSize); }
        first + rest;
      == { assert first + rest == items; }
        items;
      }
    }
  }

  /**
   * Every chunk is non-empty; all but the last hold exactly `Width(chunkSize)`
   * items and the last holds between one and that many.
   */
  lemma {:induction false} RechunkSizes<T>(items: seq<T>, chunkSize: int)
    ensures forall c | c in Rechunk(items, chunkSize) :: 1 <= |c| <= Width(chunkSize)
    ensures forall i | 0 <= i < |Rechunk(items, chunkSize)| - 1 :: |Rechunk(items, chunkSize)[i]| == Width(chunkSize)
    decreases |items|
  {
    var w := Width(chunkSize);
    if |items| > w {
      RechunkSizes(items[w..], chunkSize);
      var rest := Rechunk(items[w..], chunkSize);
      var cs := [items[..w]] + rest;
      assert cs == Rechunk(items, chunkSize);
      forall i | 0 <= i < |cs| - 1
        ensures |cs[i]| == w
      {
        if i > 0 {
          assert cs[i] == rest[i - 1];
        }
      }
    }
  }

  /** n items make ceil(n / Width(chunkSize)) chunks; no items make none. */
  lemma {:induction false} RechunkCount<T>(items: seq<T>, chunkSize: int)
    ensures var n := |Rechunk(items, chunkSize)|;
      (n - 1) * Width(chunkSize) < |items| <= n * Width(chunkSize)
    ensures items == [] <==> Rechunk(items, chunkSize) == []
    decreases |items|
  {
    var w := Width(chunkSize);
    if |items| > w {
      RechunkCount(items[w..], chunkSize);
      var m := |Rechunk(items[w..], chunkSize)|;
      assert |Rechunk(items, chunkSize)| == m + 1;
      assert (m + 1) * w == m * w + w;
    }
  }

  /** The last piece of a chunk sequence, if it is not a full chunk. */
  function Tail<T>(chunk: seq<T>): seq<seq<T>>
  {
    if chunk == [] then [] else [chunk]
  }

  /**
   * One more item extends the last chunk when it has room, and starts a new
   * chunk otherwise.
   */
  lemma {:induction false} RechunkSnoc<T>(items: seq<T>, x: T, chunkSize: int)
    ensures var cs := Rechunk(items, chunkSize);
      if cs == [] || |cs[|cs| - 1]| == Width(chunkSize) then
        Rechunk(items + [x], chunkSize) == cs + [[x]]
      else
        Rechunk(items + [x], chunkSize) == cs[..|cs| - 1] + [cs[|cs| - 1] + [x]]
    decreases |items|
  {
    var w := Width(chunkSize);
    if |items| == 0 {
      assert items + [x] == [x];
    } else if |items| < w {
    } else if |items| == w {
      assert (items + [x])[..w] == items;
      assert (items + [x])[w..] == [x];
    } else {
      assert (items + [x])[..w] == items[..w];
      assert (items + [x])[w..] == items[w..] + [x];
      RechunkSnoc(items[w..], x, chunkSize);
      var rest := Rechunk(items[w..], chunkSize);
      assert Rechunk(items, chunkSize) == [items[..w]] + rest;
      assert rest != [];
    }
  }

  /**
   * The chunks that are full: what was put before a conversion error ended
   * the loop, the partial chunk being dropped.
   */
  function FullChunks<T>(items: seq<T>, chunkSize: int): seq<seq<T>>
  {
    var cs := Rechunk(items, chunkSize);
    if cs != [] && |cs[|cs| - 1]| < Width(chunkSize) then cs[..|cs| - 1] else cs
  }

  /**
   * The full chunks hold exactly `Width(chunkSize)` items each and are a
   * prefix of the items that leaves out fewer than one chunk's worth.
   */
  lemma FullChunksShape<T>(items: seq<T>, chunkSize: int)
    ensures var fs := FullChunks(items, chunkSize);
      (forall i :: 0 <= i < |fs| ==> |fs[i]| == Width(chunkSize)) &&
      Flatten(fs) <= items && |items| - |Flatten(fs)| < Width(chunkSize)
  {
    var cs := Rechunk(items, chunkSize);
    RechunkSizes(items, chunkSize);
    RechunkFlatten(items, chunkSize);
    if cs != [] {
      var k := |cs| - 1;
      assert cs == cs[..k] + [cs[k]];
      FlattenAppend(cs[..k], cs[k]);
    }
  }

  /** Converting a stream item by item, stopping at the first conversion error. */
  function Convert<D, T>(stream: seq<D>, convert: D -> Result<T>): (r: (seq<T>, Option<Error>))
    ensures |r.0| <= |stream|
    ensures r.1.None? ==> |r.0| == |stream|
    decreases |stream|
  {
    if stream == [] then ([], None)
    else
      var (items, err) := Convert(stream[..|stream| - 1], convert);
      if err.Some? then (items, err)
      else
        match convert(stream[|stream| - 1])
        case Err(e) => (items, Some(e))
        case Ok(item) => (items + [item], None)
  }

  /** One more item, while no conversion has failed: it is converted, or its error ends the conversion. */
  lemma ConvertNext<D, T>(stream: seq<D>, convert: D -> Result<T>, i: nat)
    requires i < |stream| && Convert(stream[..i], convert).1.None?
    ensures convert(stream[i]).Err? ==>
      Convert(stream[..i + 1], convert) == (Convert(stream[..i], convert).0, Some(convert(stream[i]).error))
    ensures convert(stream[i]).Ok? ==>
      Convert(stream[..i + 1], convert) == (Convert(stream[..i], convert).0 + [convert(stream[i]).value], None)
  {
    assert stream[..i + 1][..i] == stream[..i];
  }

  /** Once a conversion failed, later items change nothing. */
  lemma {:induction false} ConvertStops<D, T>(stream: seq<D>, convert: D -> Result<T>, j: nat)
    requires j <= |stream|
    requires Convert(stream[..j], convert).1.Some?
    ensures Convert(stream, convert) == Convert(stream[..j], convert)
    decreases |stream| - j
  {
    if j < |stream| {
      var s' := stream[..|stream| - 1];
      assert s'[..j] == stream[..j];
      ConvertStops(s', convert, j);
    } else {
      assert stream[..j] == stream;
    }
  }

  /**
   * What `run_loop` puts: the chunks of the converted items when the stream
   * ends normally; only the full chunks when a conversion error ends it.
   */
  function Plan<D, T>(stream: seq<D>, convert: D -> Result<T>, chunkSize: int): seq<seq<T>>
  {
    var (items, err) := Convert(stream, convert);
    if err.None? then Rechunk(items, chunkSize) else FullChunks(items, chunkSize)
  }

  function Ending<D, T>(stream: seq<D>, convert: D -> Result<T>): Outcome
  {
    var (_, err) := Convert(stream, convert);
    if err.None? then Pass else Fail(err.value)
  }

  /**
   * The loop's invariant: the items converted so far chunk into the chunks
   * put, followed by the open chunk when it is not empty.
   */
  ghost predicate LoopInv<T>(items: seq<T>, puts: seq<seq<T>>, chunk: seq<T>, chunkSize: int)
  {
    Rechunk(items, chunkSize) == puts + Tail(chunk) &&
    |chunk| < Width(chunkSize) &&
    (puts == [] || |puts[|puts| - 1]| == Width(chunkSize))
  }

  lemma AppendToChunk<T>(items: seq<T>, puts: seq<seq<T>>, chunk: seq<T>, x: T, chunkSize: int)
    requires LoopInv(items, puts, chunk, chunkSize)
    ensures Rechunk(items + [x], chunkSize) == puts + [chunk + [x]]
    ensures |chunk + [x]| >= chunkSize <==> |chunk + [x]| == Width(chunkSize)
  {
    RechunkSnoc(items, x, chunkSize);
    var cs := Rechunk(items, chunkSize);
    if chunk == [] {
      assert cs == puts + [] == puts;
      assert chunk + [x] == [x];
    } else {
      assert cs == puts + [chunk];
      assert cs[|cs| - 1] == chunk;
      assert cs[..|cs| - 1] == puts;
    }
  }

  lemma LoopInvFullChunks<T>(items: seq<T>, puts: seq<seq<T>>, chunk: seq<T>, chunkSize: int)
    requires LoopInv(items, puts, chunk, chunkSize)
    ensures FullChunks(items, chunkSize) == puts
    ensures Rechunk(items, chunkSize) == puts + Tail(chunk)
  {
    if chunk == [] {
      assert puts + Tail(chunk) == puts;
    } else {
      assert (puts + [chunk])[..|puts|] == puts;
    }
  }

  /**
   * `run_loop`: converts each streamed item, collects items into a chunk,
   * puts the chunk once it holds `chunkSize` items, and puts the last,
   * partial chunk after the stream ends.  Returns the chunks put, in order,
   * the final value of the local counter, and how the loop ended; the
   * `finally` clause marks the producer finished in every case (see the
   * Pipeline module).
   */
  method RunLoop<D, T>(stream: seq<D>, convert: D -> Result<T>, chunkSize: int)
    returns (puts: seq<seq<T>>, count: int, ending: Outcome)
    ensures puts == Plan(stream, convert, chunkSize)
    ensures ending == Ending(stream, convert)
    ensures count == TotalLen(puts)
    ensures ending == Pass ==> count == |stream|
  {
    puts := [];
    count := 0;
    ending := Pass;
    var chunk: seq<T> := [];
    ghost var items: seq<T> := [];
    var i := 0;
    while i < |stream|
      invariant 0 <= i <= |stream|
      invariant Convert(stream[..i], convert) == (items, None)
      invariant LoopInv(items, puts, chunk, chunkSize)
      invariant count == TotalLen(puts)
    {
      ConvertNext(stream, convert, i);
      var converted := convert(stream[i]);
      if converted.Err? {
        ending := Fail(converted.error);
        ConvertStops(stream, convert, i + 1);
        assert Convert(stream, convert) == (items, Some(converted.error));
        LoopInvFullChunks(items, puts, chunk, chunkSize);
        return;
      }
      AppendToChunk(items, puts, chunk, converted.value, chunkSize);
      items := items + [converted.value];
      chunk := chunk + [converted.value];
      if |chunk| >= chunkSize {
        FlattenAppend(puts, chunk);
        count := count + |chunk|;
        puts := puts + [chunk];
        chunk := [];
        assert puts + Tail(chunk) == puts;
      }
      i := i + 1;
    }
    assert stream[..i] == stream;
    RechunkFlatten(items, chunkSize);
    LoopInvFullChunks(items, puts, chunk, chunkSize);
    if chunk != [] {
      FlattenAppend(puts, chunk);
      count := count + |chunk|;
      puts := puts + [chunk];
    }
  }

  /** Fifteen items in chunks of three: five full chunks. */
  lemma FifteenItemsInFiveChunks<T>(items: seq<T>)
    requires |items| == 15
    ensures var plan := Rechunk(items, 3);
      |plan| == 5 && (forall c | c in plan :: |c| == 3)
  {
    var plan := Rechunk(items, 3);
    RechunkCount(items, 3);
    RechunkSizes(items, 3);
    RechunkFlatten(items, 3);
    assert |plan| == 5;
    forall c | c in plan
      ensures |c| == 3
    {
      var i :| 0 <= i < |plan| && plan[i] == c;
      if i == 4 {
        FlattenAppend(plan[..4], plan[4]);
        assert plan == plan[..4] + [plan[4]];
        assert TotalLen(plan[..4]) == 12 by {
          assert forall j | 0 <= j < 4 :: |plan[..4][j]| == 3;
          SumOfFullChunks(plan[..4], 3);
        }
      }
    }
  }

  /**
   * Fifteen streamed items with chunk size 3 are put as five chunks of three;
   * through a queue of size 2 they reach the worker as the fifteen items in
   * their original order, and the run completes.
   */
  lemma FifteenItemsThroughSmallQueue<T>(items: seq<T>)
    requires |items| == 15
    ensures var plan := Rechunk(items, 3);
      |plan| == 5 && (forall c | c in plan :: |c| == 3) &&
      var r := Exec(Init(plan, Pass, 2, 3, None, true), Rounds(5) + [ProducerTask, WorkerTask]);
      r.Some? && r.value.Status() == Some(Pass) &&
      Flatten(r.value.worker.handled) == items && r.value.worker.processed == 15
  {
    var plan := Rechunk(items, 3);
    FifteenItemsInFiveChunks(items);
    RechunkFlatten(items, 3);
    CompletingSchedule(plan, 2, 3, true);
  }

  /** k chunks of w items hold k * w items. */
  lemma {:induction false} SumOfFullChunks<T>(cs: seq<seq<T>>, w: nat)
    requires forall j | 0 <= j < |cs| :: |cs[j]| == w
    ensures TotalLen(cs) == |cs| * w
    decreases |cs|
  {
    if cs != [] {
      var k := |cs| - 1;
      assert cs == cs[..k] + [cs[k]];
      FlattenAppend(cs[..k], cs[k]);
      SumOfFullChunks(cs[..k], w);
    }
  }
}

=== FILE: db_worker.dfy ===
/**
 * The database write worker's connection settings: each setting is the
 * argument, else the environment variable, else the default, and a missing
 * user or password is refused before anything is stored.
 */
module DatabaseWorker {
  import opened Errors
  import opened Settings
  import DatabaseProducer

  /**
   * The environment port as the worker reads it: `int()` is applied to the
   * variable itself, so an unset variable (a TypeError, caught) gives None
   * while an empty or non-numeric one raises ValueError, which is not caught.
   */
  function EnvPortValue(port: EnvPort): (r: Result<Option<int>>)
    ensures r.Err? <==> port.Empty? || port.NotNumeric?
    ensures r.Err? ==> r.error.ValueError?
    ensures port.Unset? ==> r == Ok(None)
    ensures port.Numeric? ==> r == Ok(Some(port.n))
  {
    match port
    case Unset => Ok(None)
    case Empty => Err(ValueError("invalid literal for int() with base 10: ''"))
    case Numeric(n) => Ok(Some(n))
    case NotNumeric => Err(ValueError("invalid literal for int() with base 10"))
  }

  /** The worker's constructor; its error messages always name the CPE database. */
  function ResolveConfig(args: DbArgs, env: DbEnv): (r: Result<DbConnection>)
    ensures env.port.Empty? || env.port.NotNumeric? ==> r.Err? && r.error.ValueError?
  {
    var envPort :- EnvPortValue(env.port);
    ResolveWithPort(args, env, envPort, "CPE")
  }

  /** No user from argument or environment: CLIError; a user but no password: CLIError. */
  lemma MissingCredentials(args: DbArgs, env: DbEnv)
    requires env.port.Unset? || env.port.Numeric?
    ensures !Truthy(args.user) && !Truthy(env.user) ==>
      ResolveConfig(args, env) == Err(CliError("Missing user for CPE database"))
    ensures Truthy(OrElse(args.user, env.user)) && !Truthy(args.password) && !Truthy(env.password) ==>
      ResolveConfig(args, env) == Err(CliError("Missing password for CPE database"))
    ensures ResolveConfig(args, env).Err? <==>
      !Truthy(OrElse(args.user, env.user)) || !Truthy(OrElse(args.password, env.password))
  {
  }

  /** With nothing but credentials, the worker connects to scap on localhost:5432 without a schema. */
  lemma ConfigDefaults(user: string, password: string, echoSql: bool)
    requires user != "" && password != ""
    ensures ResolveConfig(DbArgs(None, None, None, None, Some(user), Some(password), echoSql), NoEnv)
      == Ok(DbConnection(user, password, "localhost", 5432, "scap", None, echoSql))
  {
  }

  /** Truthy arguments win over any environment, and echo_sql is passed through unchanged. */
  lemma ArgumentsOverride(name: string, schema: string, host: string, port: int,
                          user: string, password: string, echoSql: bool, env: DbEnv)
    requires name != "" && schema != "" && host != "" && port != 0 && user != "" && password != ""
    requires env.port.Unset? || env.port.Numeric?
    ensures ResolveConfig(DbArgs(Some(name), Some(schema), Some(host), Some(port),
                                 Some(user), Some(password), echoSql), env)
      == Ok(DbConnection(user, password, host, port, name, Some(schema), echoSql))
  {
  }

  /**
   * The worker and the producer read DATABASE_PORT differently: when it is
   * set but empty the producer falls back to the default port, while the
   * worker fails with ValueError.  Otherwise they agree.
   */
  lemma EmptyPortDiffers(args: DbArgs, env: DbEnv)
    ensures env.port.Empty? ==>
      ResolveConfig(args, env).Err? && ResolveConfig(args, env).error.ValueError? &&
      DatabaseProducer.ResolveConfig(args, env, "CPE") == DatabaseProducer.ResolveConfig(args, env.(port := Unset), "CPE")
    ensures !env.port.Empty? ==> ResolveConfig(args, env) == DatabaseProducer.ResolveConfig(args, env, "CPE")
  {
  }
}

=== FILE: errors.dfy ===
/**
 * The failures the SCAP tools raise or let through, as values, and the
 * Option/Result wrappers every fallible operation returns.
 */
module Errors {

  datatype Option<T> = None | Some(value: T)

  datatype Result<T> = Ok(value: T) | Err(error: Error)
  {
    predicate IsFailure() { Err? }

    function PropagateFailure<U>(): Result<U>
      requires Err?
    {
      Err(error)
    }

    function Extract(): T
      requires Ok?
    {
      value
    }
  }

  /** The outcome of an operation that returns nothing. */
  datatype Outcome = Pass | Fail(error: Error)

  datatype Error =
    | ScapError(msg: string)          // the package's base error
    | CliError(msg: string)           // a ScapError raised for bad settings
    | VersionRangeError(msg: string)  // a ScapError raised by VersionRange
    | TimerError(msg: string)
    | TypeError(msg: string)
    | ValueError(msg: string)
    | AttributeError(msg: string)
    | JsonDecodeError                 // a response body that is not JSON
    | HttpTransportError              // an httpx.HTTPError without a status
    | HttpStatusError(status: int)    // httpx.HTTPStatusError
    | CpeParseError(name: string)     // pontos rejected this CPE name
    | CancelledError
    | KeyboardInterrupt
    | ExceptionGroup(errors: seq<Error>)  // what asyncio.TaskGroup raises

  /** Instances of ScapError, including its subclasses. */
  predicate IsScapError(e: Error)
  {
    e.ScapError? || e.CliError? || e.VersionRangeError?
  }

  /** Instances of httpx.HTTPError, including HTTPStatusError. */
  predicate IsHttpError(e: Error)
  {
    e.HttpTransportError? || e.HttpStatusError?
  }
}

=== FILE: json_utils.dfy ===
/**
 * The JSON helpers: snake_case to camelCase key conversion with the
 * removal of None values, the UUID format check used by schema validation,
 * the UUID encoding, and the outcome of validating a written document.
 */
module JsonUtils {
  import opened Errors
  import opened Strings

  // ---------------------------------------------------------------- keys

  /** `"".join(parts)` */
  function Concat(parts: seq<string>): (s: string)
  {
    if parts == [] then "" else parts[0] + Concat(parts[1..])
  }

  /** Each part title-cased, in order. */
  function TitleAll(parts: seq<string>): (ts: seq<string>)
    ensures |ts| == |parts|
    ensures forall i :: 0 <= i < |parts| ==> ts[i] == Title(parts[i])
  {
    seq(|parts|, i requires 0 <= i < |parts| => Title(parts[i]))
  }

  /**
   * `_snake_to_camel`: the first "_"-separated part is kept as it is, the
   * others are title-cased and appended without separator.
   */
  function SnakeToCamel(key: string): string
  {
    var parts := Split(key, '_');
    parts[0] + Concat(TitleAll(parts[1..]))
  }

  lemma {:induction false} ConcatLength(parts: seq<string>)
    ensures |Concat(parts)| == SumLengths(parts)
  {
    if parts != [] {
      ConcatLength(parts[1..]);
    }
  }

  function SumLengths(parts: seq<string>): nat
  {
    if parts == [] then 0 else |parts[0]| + SumLengths(parts[1..])
  }

  lemma {:induction false} ConcatWithout(parts: seq<string>, c: char)
    requires forall i :: 0 <= i < |parts| ==> c !in parts[i]
    ensures c !in Concat(parts)
  {
    if parts != [] {
      ConcatWithout(parts[1..], c);
    }
  }

  /** Title-casing keeps every character that is not a letter where it is, and adds none. */
  lemma TitleKeepsNonLetters(s: string, c: char)
    requires !IsLetter(c)
    ensures c in Title(s) <==> c in s
  {
    TitlePointwise(s);
    if c in s {
      var i :| 0 <= i < |s| && s[i] == c;
      assert Title(s)[i] == c;
    }
    if c in Title(s) {
      var i :| 0 <= i < |s| && Title(s)[i] == c;
      assert !IsLetter(s[i]);
      assert s[i] == c;
    }
  }

  /** A converted key contains no "_". */
  lemma SnakeToCamelHasNoUnderscore(key: string)
    ensures '_' !in SnakeToCamel(key)
  {
    var parts := Split(key, '_');
    var ts := TitleAll(parts[1..]);
    forall i | 0 <= i < |ts|
      ensures '_' !in ts[i]
    {
      TitleKeepsNonLetters(parts[1..][i], '_');
    }
    ConcatWithout(ts, '_');
  }

  /** A key without "_" is returned unchanged. */
  lemma SnakeToCamelKeepsPlainKey(key: string)
    requires '_' !in key
    ensures SnakeToCamel(key) == key
  {
    SplitWithout(key, '_');
  }

  lemma {:induction false} SplitWithout(s: string, sep: char)
    requires sep !in s
    ensures Split(s, sep) == [s]
  {
    if s != [] {
      SplitWithout(s[1..], sep);
      assert s[0] != sep;
      assert Split(s, sep) == [[s[0]] + s[1..]];
      assert [s[0]] + s[1..] == s;
    }
  }

  /** Converting a converted key again changes nothing. */
  lemma SnakeToCamelIdempotent(key: string)
    ensures SnakeToCamel(SnakeToCamel(key)) == SnakeToCamel(key)
  {
    SnakeToCamelHasNoUnderscore(key);
    SnakeToCamelKeepsPlainKey(SnakeToCamel(key));
  }

  /** Exactly the underscores are removed: the length drops by their number. */
  lemma SnakeToCamelLength(key: string)
    ensures |SnakeToCamel(key)| == |key| - Count(key, '_')
  {
    var parts := Split(key, '_');
    SplitLength(key, '_');
    JoinSplit(key, '_');
    ConcatLength(TitleAll(parts[1..]));
    TitleAllLengths(parts[1..]);
    JoinLength(parts, '_');
  }

  lemma {:induction false} TitleAllLengths(parts: seq<string>)
    ensures SumLengths(TitleAll(parts)) == SumLengths(parts)
  {
    if parts != [] {
      TitleAllLengths(parts[1..]);
      assert TitleAll(parts)[1..] == TitleAll(parts[1..]);
    }
  }

  lemma {:induction false} JoinLength(parts: seq<string>, sep: char)
    requires |parts| >= 1
    ensures |Join(parts, sep)| == |parts[0]| + SumLengths(parts[1..]) + |parts| - 1
    decreases |parts|
  {
    if |parts| > 1 {
      JoinLength(parts[1..], sep);
      assert parts[1..][1..] == parts[2..];
    } else {
      assert parts[1..] == [];
    }
  }

  /**
   * A key made of "_"-free parts joined by "_" becomes its first part
   * followed by the others title-cased.
   */
  lemma SnakeToCamelOfParts(parts: seq<string>)
    requires |parts| >= 1
    requires forall i :: 0 <= i < |parts| ==> '_' !in parts[i]
    ensures SnakeToCamel(Join(parts, '_')) == parts[0] + Concat(TitleAll(parts[1..]))
  {
    SplitJoin(parts, '_');
  }

  /** `results_per_page` becomes `resultsPerPage`. */
  lemma SnakeToCamelExample(key: string)
    requires key == "results_per_page"
    ensures SnakeToCamel(key) == "resultsPerPage"
  {
    var parts := ["results", "per", "page"];
    JoinExample();
    SnakeToCamelOfParts(parts);
    TitleExample();
    assert parts[1..] == ["per", "page"];
    assert TitleAll(parts[1..]) == ["Per", "Page"];
    ConcatExample();
  }

  lemma JoinExample()
    ensures Join(["results", "per", "page"], '_') == "results_per_page"
  {
    var parts := ["results", "per", "page"];
    assert parts[1..] == ["per", "page"];
    assert parts[1..][1..] == ["page"];
  }

  lemma TitleExample()
    ensures Title("per") == "Per" && Title("page") == "Page"
  {
  }

  lemma ConcatExample()
    ensures Concat(["Per", "Page"]) == "PerPage"
  {
    assert ["Per", "Page"][1..] == ["Page"];
    assert Concat(["Page"]) == "Page";
  }

  // ---------------------------------------------------------------- documents

  /** A JSON-like Python value: dicts keep their insertion order. */
  datatype Json =
    | JNull
    | JBool(b: bool)
    | JInt(n: int)
    | JStr(s: string)
    | JList(items: seq<Json>)
    | JDict(entries: seq<(string, Json)>)

  function Keys(entries: seq<(string, Json)>): set<string>
  {
    set i | 0 <= i < |entries| :: entries[i].0
  }

  predicate UniqueKeys(entries: seq<(string, Json)>)
  {
    forall i, j :: 0 <= i < j < |entries| ==> entries[i].0 != entries[j].0
  }

  lemma KeysAppend(entries: seq<(string, Json)>, p: (string, Json))
    ensures Keys(entries + [p]) == Keys(entries) + {p.0}
  {
    var r := entries + [p];
    forall x | x in Keys(r)
      ensures x in Keys(entries) + {p.0}
    {
      var i :| 0 <= i < |r| && r[i].0 == x;
      if i < |entries| {
        assert entries[i].0 == x;
      }
    }
    forall x | x in Keys(entries) + {p.0}
      ensures x in Keys(r)
    {
      if x == p.0 {
        assert r[|entries|].0 == x;
      } else {
        var i :| 0 <= i < |entries| && entries[i].0 == x;
        assert r[i].0 == x;
      }
    }
  }

  /** The position of a key in a dict, if present. */
  function KeyIndex(entries: seq<(string, Json)>, k: string): (r: Option<nat>)
    ensures r.None? <==> k !in Keys(entries)
    ensures r.Some? ==> r.value < |entries| && entries[r.value].0 == k
  {
    if entries == [] then None
    else if entries[|entries| - 1].0 == k then Some(|entries| - 1)
    else
      var r := KeyIndex(entries[..|entries| - 1], k);
      KeysAppend(entries[..|entries| - 1], entries[|entries| - 1]);
      assert entries[..|entries| - 1] + [entries[|entries| - 1]] == entries;
      if r.None? then None else Some(r.value)
  }

  /** `d[k] = v`: an existing key keeps its place and gets the new value; a new key goes last. */
  function Put(entries: seq<(string, Json)>, k: string, v: Json): (r: seq<(string, Json)>)
    ensures Keys(r) == Keys(entries) + {k}
    ensures UniqueKeys(entries) ==> UniqueKeys(r)
    ensures forall p :: p in r ==> p in entries || p == (k, v)
    ensures (k, v) in r
  {
    match KeyIndex(entries, k)
    case Some(i) =>
      var r := entries[i := (k, v)];
      assert forall j :: 0 <= j < |r| ==> r[j].0 == entries[j].0;
      assert Keys(r) == Keys(entries);
      assert r[i] == (k, v);
      r
    case None =>
      var r := entries + [(k, v)];
      KeysAppend(entries, (k, v));
      assert r[|entries|] == (k, v);
      r
  }

  /**
   * `_convert_keys_to_camel`: dict keys are converted and entries whose
   * converted value is None are dropped; lists are converted element by
   * element; anything else is returned as it is.
   */
  function ConvertKeys(j: Json): Json
    decreases j
  {
    match j
    case JList(items) => JList(ConvertItems(j, |items|))
    case JDict(entries) => JDict(ConvertEntries(j, |entries|))
    case _ => j
  }

  function ConvertItems(d: Json, n: nat): (r: seq<Json>)
    requires d.JList? && n <= |d.items|
    ensures |r| == n
    decreases d, n
  {
    if n == 0 then [] else ConvertItems(d, n - 1) + [ConvertKeys(d.items[n - 1])]
  }

  /** The first n entries of a dict, converted in order. */
  function ConvertEntries(d: Json, n: nat): seq<(string, Json)>
    requires d.JDict? && n <= |d.entries|
    decreases d, n
  {
    if n == 0 then []
    else
      var prev := ConvertEntries(d, n - 1);
      var (k, v) := d.entries[n - 1];
      var nv := ConvertKeys(v);
      if nv == JNull then prev else Put(prev, SnakeToCamel(k), nv)
  }

  /** No dict, at any depth, holds a None value. */
  predicate NoNullValues(j: Json)
    decreases j
  {
    match j
    case JList(items) => forall i :: 0 <= i < |items| ==> NoNullValues(items[i])
    case JDict(entries) => forall i :: 0 <= i < |entries| ==> entries[i].1 != JNull && NoNullValues(entries[i].1)
    case _ => true
  }

  /** Lists keep their length and order, None elements included. */
  lemma {:induction false} ConvertItemsPointwise(d: Json, n: nat)
    requires d.JList? && n <= |d.items|
    ensures forall i :: 0 <= i < n ==> ConvertItems(d, n)[i] == ConvertKeys(d.items[i])
  {
    if n > 0 {
      ConvertItemsPointwise(d, n - 1);
    }
  }

  lemma ConvertList(items: seq<Json>)
    ensures ConvertKeys(JList(items)).JList?
    ensures |ConvertKeys(JList(items)).items| == |items|
    ensures forall i :: 0 <= i < |items| ==> ConvertKeys(JList(items)).items[i] == ConvertKeys(items[i])
    ensures forall i :: 0 <= i < |items| ==> items[i] == JNull ==> ConvertKeys(JList(items)).items[i] == JNull
  {
    ConvertItemsPointwise(JList(items), |items|);
  }

  /** Values that are neither dicts nor lists are returned unchanged. */
  lemma ConvertScalar(j: Json)
    requires !j.JList? && !j.JDict?
    ensures ConvertKeys(j) == j
  {
  }

  /** Entry p of a converted dict comes from original entry m. */
  predicate ComesFrom(d: Json, m: int, p: (string, Json))
    requires d.JDict?
  {
    0 <= m < |d.entries| && p.0 == SnakeToCamel(d.entries[m].0) &&
    p.1 == ConvertKeys(d.entries[m].1) && p.1 != JNull
  }

  /** Original entry m of a dict survives conversion under key k. */
  predicate KeptAs(d: Json, m: int, k: string)
    requires d.JDict?
  {
    0 <= m < |d.entries| && k == SnakeToCamel(d.entries[m].0) && ConvertKeys(d.entries[m].1) != JNull
  }

  /** A converted dict has unique keys, even when two original keys convert to the same one. */
  lemma {:induction false} ConvertEntriesUnique(d: Json, n: nat)
    requires d.JDict? && n <= |d.entries|
    ensures UniqueKeys(ConvertEntries(d, n))
  {
    if n > 0 {
      ConvertEntriesUnique(d, n - 1);
    }
  }

  /** Every converted entry is an original entry with its key and value converted, the value not None. */
  lemma {:induction false} ConvertEntriesOrigin(d: Json, n: nat)
    requires d.JDict? && n <= |d.entries|
    ensures forall p :: p in ConvertEntries(d, n) ==> exists m :: m < n && ComesFrom(d, m, p)
  {
    if n > 0 {
      ConvertEntriesOrigin(d, n - 1);
      var prev := ConvertEntries(d, n - 1);
      forall p | p in ConvertEntries(d, n)
        ensures exists m :: m < n && ComesFrom(d, m, p)
      {
        if p !in prev {
          assert ComesFrom(d, n - 1, p);
        }
      }
    }
  }

  /** A key is present exactly when some original entry converts to it with a value that is not None. */
  lemma {:induction false} ConvertEntriesKeys(d: Json, n: nat)
    requires d.JDict? && n <= |d.entries|
    ensures forall k :: k in Keys(ConvertEntries(d, n)) <==> exists m :: m < n && KeptAs(d, m, k)
  {
    if n > 0 {
      ConvertEntriesKeys(d, n - 1);
      forall k | k in Keys(ConvertEntries(d, n))
        ensures exists m :: m < n && KeptAs(d, m, k)
      {
        if k !in Keys(ConvertEntries(d, n - 1)) {
          assert KeptAs(d, n - 1, k);
        }
      }
      forall k | exists m :: m < n && KeptAs(d, m, k)
        ensures k in Keys(ConvertEntries(d, n))
      {
        var m :| m < n && KeptAs(d, m, k);
        if m < n - 1 {
          assert k in Keys(ConvertEntries(d, n - 1));
        }
      }
    }
  }

  /** No dict in the converted value holds None, at any nesting depth. */
  lemma {:induction false} ConvertDropsNulls(j: Json)
    ensures NoNullValues(ConvertKeys(j))
    decreases j
  {
    match j
    case JList(items) =>
      ConvertItemsPointwise(j, |items|);
      forall i | 0 <= i < |items|
        ensures NoNullValues(ConvertKeys(j).items[i])
      {
        ConvertDropsNulls(items[i]);
      }
    case JDict(entries) =>
      var r := ConvertEntries(j, |entries|);
      ConvertEntriesOrigin(j, |entries|);
      forall i | 0 <= i < |r|
        ensures r[i].1 != JNull && NoNullValues(r[i].1)
      {
        assert r[i] in r;
        var m :| m < |entries| && ComesFrom(j, m, r[i]);
        ConvertDropsNulls(entries[m].1);
      }
    case _ =>
  }

  // ---------------------------------------------------------------- UUIDs

  predicate IsHex(c: char)
  {
    '0' <= c <= '9' || 'a' <= c <= 'f' || 'A' <= c <= 'F'
  }

  /** The positions of the four dashes of the 8-4-4-4-12 layout. */
  predicate IsDashPosition(i: int)
  {
    i == 8 || i == 13 || i == 18 || i == 23
  }

  /**
   * The UUID pattern on exactly 36 characters: hex groups of 8, 4, 4, 4
   * and 12 digits separated by dashes, version digit 4 and a variant digit
   * among 8, 9, a, b (either case).
   */
  predicate IsUuid4Text(s: string)
  {
    |s| == 36 &&
    (forall i :: 0 <= i < 36 ==> if IsDashPosition(i) then s[i] == '-' else IsHex(s[i])) &&
    s[14] == '4' && s[19] in "89abAB"
  }

  /**
   * `_custom_uuid_validate`: True when the pattern matches, None otherwise.
   * The pattern ends in `$`, which also matches before one trailing newline.
   */
  function CustomUuidValidate(value: string): (r: Option<bool>)
    ensures r == Some(true) <==>
      IsUuid4Text(value) || (|value| == 37 && value[36] == '\n' && IsUuid4Text(value[..36]))
    ensures r.Some? ==> r.value
  {
    if IsUuid4Text(value) || (|value| == 37 && value[36] == '\n' && IsUuid4Text(value[..36]))
    then Some(true) else None
  }

  /** A UUID as its 32 hexadecimal digits. */
  datatype Uuid = Uuid(digits: seq<nat>)
  {
    predicate Valid() { |digits| == 32 && forall i :: 0 <= i < 32 ==> digits[i] < 16 }
    /** Version 4, variant RFC 4122. */
    predicate IsVersion4() requires Valid() { digits[12] == 4 && 8 <= digits[16] <= 11 }
  }

  function HexChar(d: nat): (c: char)
    requires d < 16
    ensures IsHex(c) && !IsUpper(c)
  {
    "0123456789abcdef"[d]
  }

  /** The digit a character of the canonical text shows, dashes skipped. */
  function DigitIndex(i: nat): nat
    requires i < 36 && !IsDashPosition(i)
  {
    if i < 8 then i else if i < 13 then i - 1 else if i < 18 then i - 2 else if i < 23 then i - 3 else i - 4
  }

  /** `str(uuid)`: lower-case hex digits in the 8-4-4-4-12 layout. */
  function UuidText(u: Uuid): (s: string)
    requires u.Valid()
    ensures |s| == 36
    ensures forall i :: 0 <= i < 36 ==>
      if IsDashPosition(i) then s[i] == '-' else s[i] == HexChar(u.digits[DigitIndex(i)])
  {
    seq(36, i requires 0 <= i < 36 => if IsDashPosition(i) then '-' else HexChar(u.digits[DigitIndex(i)]))
  }

  /** The UUID branch of the encoder's `default`: the upper-case text. */
  function EncodeUuid(u: Uuid): (s: string)
    requires u.Valid()
    ensures |s| == 36 && forall i :: 0 <= i < 36 ==> !IsLower(s[i])
  {
    UpperHasNoLowercase(UuidText(u));
    Upper(UuidText(u))
  }

  /**
   * An encoded UUID passes the schema's UUID check exactly when it is a
   * version 4 UUID of the RFC 4122 variant.
   */
  lemma EncodedUuidValidates(u: Uuid)
    requires u.Valid()
    ensures CustomUuidValidate(EncodeUuid(u)) == Some(true) <==> u.IsVersion4()
  {
    var t := UuidText(u);
    var s := EncodeUuid(u);
    forall i | 0 <= i < 36
      ensures if IsDashPosition(i) then s[i] == '-' else IsHex(s[i])
    {
      if !IsDashPosition(i) {
        var c := t[i];
        assert IsHex(c);
        assert s[i] == UpperChar(c);
      }
    }
    assert DigitIndex(14) == 12 && DigitIndex(19) == 16;
    assert s[14] == UpperChar(HexChar(u.digits[12]));
    assert s[19] == UpperChar(HexChar(u.digits[16]));
    VersionDigit(u.digits[12]);
    VariantDigit(u.digits[16]);
  }

  lemma VersionDigit(d: nat)
    requires d < 16
    ensures UpperChar(HexChar(d)) == '4' <==> d == 4
  {
  }

  lemma VariantDigit(d: nat)
    requires d < 16
    ensures UpperChar(HexChar(d)) in "89abAB" <==> 8 <= d <= 11
  {
  }

  // ---------------------------------------------------------------- validation

  /**
   * `_validate_json`, given the schema's verdict on the document: without a
   * validator nothing happens; a violation is reported, and raised again
   * only when raise_error_on_validation is set.
   */
  function ValidateJson(hasValidator: bool, raiseOnError: bool, name: string, verdict: Outcome)
    : (r: (Option<string>, Outcome))
    ensures !hasValidator ==> r == (None, Pass)
    ensures hasValidator && verdict.Pass? ==> r == (None, Pass)
    ensures hasValidator && verdict.Fail? ==> r.0.Some? && (r.1 == if raiseOnError then verdict else Pass)
  {
    if !hasValidator then (None, Pass)
    else match verdict
      case Pass => (None, Pass)
      case Fail(_) =>
        (Some("JSON file " + name + " is invalid."), if raiseOnError then verdict else Pass)
  }
}

=== FILE: nvd_api.dfy ===
/**
 * The NVD API producer: how many items a download expects, how the
 * initial request is retried and how much of the retry budget is left for
 * the download, and the download loop that puts every page it receives.
 *
 * The API itself is not part of this model: each attempt's answer is given
 * as data.  An attempt of the initial request either yields the number of
 * available results or raises; an attempt of the download yields some
 * pages and then completes or raises.
 */
module NvdApiProducer {
  import opened Errors
  import opened ChunkQueue

  /** The exceptions that make the retry loop try again: JSON decode errors and every httpx.HTTPError. */
  predicate Retryable(e: Error)
  {
    e.JsonDecodeError? || IsHttpError(e)
  }

  /** How many attempts a retry loop makes at most: the first attempt always runs. */
  function Attempts(n: int): (m: nat)
    ensures m >= 1
    ensures n >= 1 ==> m == n
  {
    if n >= 1 then n else 1
  }

  /** Whether a failed attempt k of at most `Attempts(n)` is followed by another one. */
  predicate Continues(e: Error, k: nat, n: int)
  {
    Retryable(e) && k < Attempts(n)
  }

  // ---------------------------------------------------------------- since

  /** The `--since-from-file` path: missing, or present with the date its text parses to. */
  datatype SinceFile<D> = Missing | Present(parsed: Result<D>)

  /**
   * `since_from_args`: `--since` when given; otherwise the date read from an
   * existing `--since-from-file` (whose parse error propagates); otherwise
   * None, a missing file being ignored.
   */
  function SinceFromArgs<D>(since: Option<D>, sinceFromFile: Option<SinceFile<D>>): (r: Result<Option<D>>)
    ensures since.Some? ==> r == Ok(since)
    ensures since.None? && sinceFromFile.Some? && sinceFromFile.value.Present? ==>
      r == (match sinceFromFile.value.parsed case Ok(d) => Ok(Some(d)) case Err(e) => Err(e))
    ensures since.None? && (sinceFromFile.None? || sinceFromFile.value.Missing?) ==> r == Ok(None)
  {
    if since.Some? then Ok(since)
    else if sinceFromFile.Some? && sinceFromFile.value.Present? then
      var d :- sinceFromFile.value.parsed;
      Ok(Some(d))
    else Ok(None)
  }

  // ---------------------------------------------------------------- total

  /**
   * The expected total: 0 when no results are requested (`request_results`
   * is 0) or none are available; otherwise the smaller of the requested
   * number (all available ones when it is None) and the available number.
   */
  function ExpectedTotal(requestResults: Option<int>, resultCount: nat): int
  {
    if requestResults == Some(0) || resultCount == 0 then 0
    else
      var wanted := if requestResults.Some? then requestResults.value else resultCount;
      if wanted < resultCount then wanted else resultCount
  }

  /**
   * The total never exceeds the available count nor a positive cap; it is
   * positive exactly when results are available and the cap is absent or
   * positive, and it is the available count when no cap is given.
   */
  lemma ExpectedTotalBounds(requestResults: Option<int>, resultCount: nat)
    ensures ExpectedTotal(requestResults, resultCount) <= resultCount
    ensures requestResults.Some? && requestResults.value > 0 ==>
      ExpectedTotal(requestResults, resultCount) <= requestResults.value
    ensures ExpectedTotal(requestResults, resultCount) > 0 <==>
      resultCount > 0 && (requestResults.None? || requestResults.value > 0)
    ensures requestResults.None? ==> ExpectedTotal(requestResults, resultCount) == resultCount
    ensures requestResults.Some? && 0 < requestResults.value <= resultCount ==>
      ExpectedTotal(requestResults, resultCount) == requestResults.value
  {
  }

  // ---------------------------------------------------------------- retries

  /**
   * The retry loop from attempt k on, given each attempt's answer: the
   * number of the last attempt made and its answer.
   */
  function RetryFrom<R>(tries: seq<Result<R>>, n: int, k: nat): (nat, Result<R>)
    requires 1 <= k <= Attempts(n) <= |tries|
    decreases Attempts(n) - k
  {
    match tries[k - 1]
    case Ok(v) => (k, Ok(v))
    case Err(e) => if Continues(e, k, n) then RetryFrom(tries, n, k + 1) else (k, Err(e))
  }

  /** The retry loop with at most `n` attempts. */
  function Retry<R>(tries: seq<Result<R>>, n: int): (nat, Result<R>)
    requires Attempts(n) <= |tries|
  {
    RetryFrom(tries, n, 1)
  }

  lemma {:induction false} RetryFromOutcome<R>(tries: seq<Result<R>>, n: int, k: nat)
    requires 1 <= k <= Attempts(n) <= |tries|
    requires forall j :: 0 <= j < k - 1 ==> tries[j].Err? && Continues(tries[j].error, j + 1, n)
    ensures var (last, res) := RetryFrom(tries, n, k);
      k <= last <= Attempts(n) && res == tries[last - 1] &&
      (forall j :: 0 <= j < last - 1 ==> tries[j].Err? && Continues(tries[j].error, j + 1, n)) &&
      (res.Err? ==> !Continues(res.error, last, n))
    decreases Attempts(n) - k
  {
    if tries[k - 1].Err? && Continues(tries[k - 1].error, k, n) {
      RetryFromOutcome(tries, n, k + 1);
    }
  }

  /**
   * The retry loop stops at the first attempt that succeeds or raises an
   * error that is not retried, or at the last allowed attempt; every
   * earlier attempt raised a retryable error; the loop's answer is the
   * last attempt's answer.
   */
  lemma RetryOutcome<R>(tries: seq<Result<R>>, n: int)
    requires Attempts(n) <= |tries|
    ensures var (last, res) := Retry(tries, n);
      1 <= last <= Attempts(n) && res == tries[last - 1] &&
      (forall j :: 0 <= j < last - 1 ==> tries[j].Err? && Retryable(tries[j].error)) &&
      (res.Err? ==> !Retryable(res.error) || last == Attempts(n))
  {
    RetryFromOutcome(tries, n, 1);
  }

  /**
   * When attempt k of n succeeds, the budget left for the download,
   * n - (k - 1), lies between 1 and n.
   */
  lemma RetryBudget<R>(tries: seq<Result<R>>, n: int)
    requires n >= 1 && n <= |tries|
    ensures var (last, _) := Retry(tries, n);
      1 <= n - (last - 1) <= n
  {
    RetryOutcome(tries, n);
  }

  /** A first attempt that succeeds leaves the whole budget. */
  lemma FirstAttemptKeepsBudget<R>(tries: seq<Result<R>>, n: int)
    requires Attempts(n) <= |tries| && tries[0].Ok?
    ensures Retry(tries, n) == (1, tries[0])
  {
  }

  // ---------------------------------------------------------------- download

  /** One attempt of the download: the pages it yielded, then how it ended. */
  datatype DownloadAttempt<T> = DownloadAttempt(pages: seq<seq<T>>, end: Outcome)

  /**
   * The download loop from attempt k on: every page of every attempt made
   * is put, and the loop ends with the last attempt's outcome.
   */
  function DownloadFrom<T>(runs: seq<DownloadAttempt<T>>, n: int, k: nat): (seq<seq<T>>, Outcome)
    requires 1 <= k <= Attempts(n) <= |runs|
    decreases Attempts(n) - k
  {
    var a := runs[k - 1];
    if a.end.Fail? && Continues(a.end.error, k, n) then
      var (rest, ending) := DownloadFrom(runs, n, k + 1);
      (a.pages + rest, ending)
    else (a.pages, a.end)
  }

  /** One attempt of the download: a retried attempt's pages come before those of the attempts after it. */
  lemma DownloadFromStep<T>(runs: seq<DownloadAttempt<T>>, n: int, k: nat)
    requires 1 <= k <= Attempts(n) <= |runs|
    ensures var a := runs[k - 1];
      if a.end.Fail? && Continues(a.end.error, k, n) then
        k < Attempts(n) &&
        DownloadFrom(runs, n, k).0 == a.pages + DownloadFrom(runs, n, k + 1).0 &&
        DownloadFrom(runs, n, k).1 == DownloadFrom(runs, n, k + 1).1
      else DownloadFrom(runs, n, k) == (a.pages, a.end)
  {
  }

  /** The pages of the given attempts, in order. */
  function PagesOf<T>(runs: seq<DownloadAttempt<T>>): seq<seq<T>>
  {
    if runs == [] then [] else PagesOf(runs[..|runs| - 1]) + runs[|runs| - 1].pages
  }

  lemma {:induction false} PagesOfCons<T>(a: DownloadAttempt<T>, runs: seq<DownloadAttempt<T>>)
    ensures PagesOf([a] + runs) == a.pages + PagesOf(runs)
    decreases |runs|
  {
    if runs == [] {
      assert [a] + runs == [a];
      assert [a][..0] == [];
    } else {
      var ar := [a] + runs;
      assert ar[..|ar| - 1] == [a] + runs[..|runs| - 1];
      assert ar[|ar| - 1] == runs[|runs| - 1];
      PagesOfCons(a, runs[..|runs| - 1]);
    }
  }

  /** The number of the last download attempt made, from attempt k on. */
  function LastAttempt<T>(runs: seq<DownloadAttempt<T>>, n: int, k: nat): nat
    requires 1 <= k <= Attempts(n) <= |runs|
    decreases Attempts(n) - k
  {
    var a := runs[k - 1];
    if a.end.Fail? && Continues(a.end.error, k, n) then LastAttempt(runs, n, k + 1) else k
  }

  /** Where the download from attempt k stops, and that every attempt before it was retried. */
  lemma {:induction false} DownloadFromEnd<T>(runs: seq<DownloadAttempt<T>>, n: int, k: nat)
    requires 1 <= k <= Attempts(n) <= |runs|
    ensures var last := LastAttempt(runs, n, k);
      k <= last <= Attempts(n) &&
      DownloadFrom(runs, n, k).1 == runs[last - 1].end &&
      (runs[last - 1].end.Fail? ==> !Continues(runs[last - 1].end.error, last, n)) &&
      (forall j :: k - 1 <= j < last - 1 ==> runs[j].end.Fail? && Continues(runs[j].end.error, j + 1, n))
    decreases Attempts(n) - k
  {
    var a := runs[k - 1];
    if a.end.Fail? && Continues(a.end.error, k, n) {
      DownloadFromEnd(runs, n, k + 1);
    }
  }

  /** The pages the download from attempt k puts are those of the attempts up to where it stops. */
  lemma {:induction false} DownloadFromPages<T>(runs: seq<DownloadAttempt<T>>, n: int, k: nat)
    requires 1 <= k <= Attempts(n) <= |runs|
    requires k <= LastAttempt(runs, n, k) <= Attempts(n)
    ensures DownloadFrom(runs, n, k).0 == PagesOf(runs[k - 1..LastAttempt(runs, n, k)])
    decreases Attempts(n) - k
  {
    var a := runs[k - 1];
    if a.end.Fail? && Continues(a.end.error, k, n) {
      DownloadFromEnd(runs, n, k + 1);
      DownloadFromPages(runs, n, k + 1);
      var last := LastAttempt(runs, n, k + 1);
      assert runs[k - 1..last] == [a] + runs[k..last];
      PagesOfCons(a, runs[k..last]);
    } else {
      assert runs[k - 1..k] == [a];
      assert [a][..0] == [];
    }
  }

  lemma DownloadFromShape<T>(runs: seq<DownloadAttempt<T>>, n: int, k: nat)
    requires 1 <= k <= Attempts(n) <= |runs|
    ensures var last := LastAttempt(runs, n, k);
      k <= last <= Attempts(n) &&
      DownloadFrom(runs, n, k).0 == PagesOf(runs[k - 1..last]) &&
      DownloadFrom(runs, n, k).1 == runs[last - 1].end &&
      (runs[last - 1].end.Fail? ==> !Continues(runs[last - 1].end.error, last, n)) &&
      (forall j :: k - 1 <= j < last - 1 ==> runs[j].end.Fail? && Continues(runs[j].end.error, j + 1, n))
  {
    DownloadFromEnd(runs, n, k);
    DownloadFromPages(runs, n, k);
  }

  /**
   * What the download puts: every page of every attempt made, the pages of
   * failed attempts included, up to the attempt that completes, raises an
   * error that is not retried, or uses up the budget; and the loop ends with
   * that attempt's outcome.
   */
  lemma DownloadShape<T>(runs: seq<DownloadAttempt<T>>, n: int)
    requires Attempts(n) <= |runs|
    ensures var last := LastAttempt(runs, n, 1);
      1 <= last <= Attempts(n) &&
      DownloadFrom(runs, n, 1).0 == PagesOf(runs[..last]) &&
      DownloadFrom(runs, n, 1).1 == runs[last - 1].end &&
      (runs[last - 1].end.Fail? ==> !Retryable(runs[last - 1].end.error) || last == Attempts(n)) &&
      (forall j :: 0 <= j < last - 1 ==> runs[j].end.Fail? && Retryable(runs[j].end.error))
  {
    DownloadFromShape(runs, n, 1);
    assert runs[0..LastAttempt(runs, n, 1)] == runs[..LastAttempt(runs, n, 1)];
  }

  /** Puts each page in turn, adding its length to the counter. */
  method PutPages<T>(puts0: seq<seq<T>>, count0: int, pages: seq<seq<T>>) returns (puts: seq<seq<T>>, count: int)
    requires count0 == TotalLen(puts0)
    ensures puts == puts0 + pages
    ensures count == TotalLen(puts)
  {
    puts, count := puts0, count0;
    var i := 0;
    while i < |pages|
      invariant 0 <= i <= |pages|
      invariant puts == puts0 + pages[..i]
      invariant count == TotalLen(puts)
    {
      FlattenAppend(puts, pages[i]);
      count := count + |pages[i]|;
      assert puts0 + pages[..i + 1] == puts + [pages[i]] by {
        assert pages[..i + 1] == pages[..i] + [pages[i]];
      }
      puts := puts + [pages[i]];
      i := i + 1;
    }
    assert pages[..i] == pages;
  }

  class NvdApiProducer {
    const retryAttempts: int
    var additionalRetryAttempts: int
    const requestResults: Option<int>
    const startIndex: int
    var resultCount: Option<nat>   // the size of the results object, once created

    /** Before the initial request, the download budget equals the configured attempts. */
    constructor(retryAttempts: int, requestResults: Option<int>, startIndex: int)
      ensures this.retryAttempts == retryAttempts && additionalRetryAttempts == retryAttempts
      ensures this.requestResults == requestResults && this.startIndex == startIndex
      ensures resultCount.None?
    {
      this.retryAttempts := retryAttempts;
      additionalRetryAttempts := retryAttempts;
      this.requestResults := requestResults;
      this.startIndex := startIndex;
      resultCount := None;
    }

    /**
     * `fetch_initial_data`, given the answer of each attempt to create the
     * results object: each attempt first records the budget left for the
     * download, n - (k - 1); the first success yields the expected total,
     * and an error that ends the retry loop propagates.
     */
    method FetchInitialData(tries: seq<Result<nat>>) returns (r: Result<int>)
      requires Attempts(retryAttempts) <= |tries|
      modifies this
      ensures var (last, res) := Retry(tries, retryAttempts);
        additionalRetryAttempts == retryAttempts - (last - 1) &&
        (res.Ok? ==> resultCount == Some(res.value) && r == Ok(ExpectedTotal(requestResults, res.value))) &&
        (res.Err? ==> resultCount == old(resultCount) && r == Err(res.error))
    {
      var k := 1;
      while true
        invariant 1 <= k <= Attempts(retryAttempts)
        invariant RetryFrom(tries, retryAttempts, k) == Retry(tries, retryAttempts)
        invariant resultCount == old(resultCount)
        decreases Attempts(retryAttempts) - k
      {
        additionalRetryAttempts := retryAttempts - (k - 1);
        match tries[k - 1]
        case Ok(count) =>
          resultCount := Some(count);
          return Ok(ExpectedTotal(requestResults, count));
        case Err(e) =>
          if Continues(e, k, retryAttempts) {
            k := k + 1;
          } else {
            return Err(e);
          }
      }
    }

    /**
     * `run_loop`, given each download attempt: the counter starts at 0 once,
     * before the retry loop, and grows by each page's length as that page is
     * put; a retried attempt does not reset it.  Returns the pages put, in
     * order, the counter, and how the loop ended; the `finally` clause marks
     * the producer finished on every path (see the Pipeline module).
     */
    method RunLoop<T>(runs: seq<DownloadAttempt<T>>) returns (puts: seq<seq<T>>, count: int, ending: Outcome)
      requires Attempts(additionalRetryAttempts) <= |runs|
      ensures puts == DownloadFrom(runs, additionalRetryAttempts, 1).0
      ensures ending == DownloadFrom(runs, additionalRetryAttempts, 1).1
      ensures count == TotalLen(puts)
    {
      var n := additionalRetryAttempts;
      puts := [];
      count := 0;
      var k := 1;
      ghost var target := DownloadFrom(runs, n, 1);
      while true
        invariant 1 <= k <= Attempts(n)
        invariant puts + DownloadFrom(runs, n, k).0 == target.0
        invariant DownloadFrom(runs, n, k).1 == target.1
        invariant count == TotalLen(puts)
        decreases Attempts(n) - k
      {
        var a := runs[k - 1];
        ghost var before := puts;
        DownloadFromStep(runs, n, k);
        puts, count := PutPages(puts, count, a.pages);
        if a.end.Fail? && Continues(a.end.error, k, n) {
          assert puts + DownloadFrom(runs, n, k + 1).0 == before + (a.pages + DownloadFrom(runs, n, k + 1).0);
          k := k + 1;
        } else {
          ending := a.end;
          return;
        }
      }
    }
  }
}

=== FILE: pipeline.dfy ===
/**
 * The concurrent phase of a processor run: one producer task and one worker
 * task sharing a chunk queue inside an asyncio task group.  The two tasks
 * are modelled as one sequential system in which a scheduler picks, at each
 * step, which task makes its next atomic move.  A producer's put can only
 * happen while the queue has room; a worker's get only while a chunk is
 * held; each is otherwise suspended.
 *
 * The producer is described by its plan: the chunks its run loop puts, in
 * order, and how the loop ends (normally or with an error, after which the
 * `finally` clause still marks the producer finished).
 */
module Pipeline {
  import opened Errors
  import opened ChunkQueue

  datatype Actor = ProducerTask | WorkerTask

  datatype ProducerState<T> = ProducerState(
    plan: seq<seq<T>>,        // the chunks the run loop puts, in order
    ending: Outcome,          // how the run loop ends after its last put
    sent: nat,                // how many chunks of the plan are put so far
    done: Option<Outcome>)    // set once the run loop has returned or raised

  /** Where the worker's run loop is: at its loop guard, suspended in get_chunk, or returned. */
  datatype WorkerPc = AtGuard | AwaitingChunk | Exited(outcome: Outcome)

  datatype WorkerState<T> = WorkerState(
    pc: WorkerPc,
    progressTask: bool,       // whether `_loop_start` created the progress-bar task
    processed: int,           // the worker's item counter
    taken: seq<seq<T>>,       // chunks taken from the queue, in order
    handled: seq<seq<T>>)     // chunks whose handling completed, in order

  function NewProducer<T>(plan: seq<seq<T>>, ending: Outcome): ProducerState<T>
  {
    ProducerState(plan, ending, 0, None)
  }

  /** The worker right after `_loop_start`. */
  function NewWorker<T>(): WorkerState<T>
  {
    WorkerState(AtGuard, true, 0, [], [])
  }

  predicate ProducerEnabled<T>(p: ProducerState<T>, q: QueueState<T>)
  {
    p.done.None? && (p.sent < |p.plan| ==> !q.Full())
  }

  /** One move of the producer: put its next chunk, or finish and set the flag. */
  function ProducerStep<T>(p: ProducerState<T>, q: QueueState<T>): (ProducerState<T>, QueueState<T>)
    requires ProducerEnabled(p, q)
  {
    if p.sent < |p.plan| then (p.(sent := p.sent + 1), q.Put(p.plan[p.sent]))
    else (p.(done := Some(p.ending)), q.SetFinished())
  }

  predicate WorkerEnabled<T>(w: WorkerState<T>, q: QueueState<T>)
  {
    w.pc.AtGuard? || (w.pc.AwaitingChunk? && q.held != [])
  }

  /**
   * One move of the worker.  At the guard it either goes on to wait for a
   * chunk or leaves the loop.  Once a chunk is there it takes it, counts its
   * items, checks that its progress task exists (raising ScapError if not),
   * hands it to the handler (whose outcome is `handle`) and marks it done.  `countFirst` says whether the item counter is advanced before
   * the handler runs (the generic worker, the CPE download) or after it has
   * succeeded (the CVE download).
   */
  function WorkerStep<T>(w: WorkerState<T>, q: QueueState<T>, handle: Outcome, countFirst: bool)
    : (WorkerState<T>, QueueState<T>)
    requires WorkerEnabled(w, q)
  {
    if w.pc.AtGuard? then
      if q.MoreChunksExpected() then (w.(pc := AwaitingChunk), q)
      else (w.(pc := Exited(Pass)), q)
    else
      var c := q.Front();
      var q1 := q.Pop();
      var taken := w.taken + [c];
      var outcome := if w.progressTask then handle
                     else Fail(ScapError("Worker progress task is not defined"));
      match outcome
      case Fail(e) =>
        (w.(pc := Exited(Fail(e)), taken := taken,
            processed := if countFirst then w.processed + |c| else w.processed), q1)
      case Pass =>
        var w1 := w.(taken := taken, handled := w.handled + [c], processed := w.processed + |c|);
        match q1.TaskDone()
        case Ok(q2) => (w1.(pc := AtGuard), q2)
        case Err(e) => (w1.(pc := Exited(Fail(e))), q1)
  }

  /**
   * The whole system.  `failure`, when present, names the position (among
   * the chunks the worker takes) of the chunk whose handling raises, and
   * the error it raises.
   */
  datatype System<T> = System(
    producer: ProducerState<T>,
    worker: WorkerState<T>,
    queue: QueueState<T>,
    failure: Option<(nat, Error)>,
    countFirst: bool)
  {
    function HandleOutcome(): Outcome
    {
      if failure.Some? && failure.value.0 == |worker.taken| then Fail(failure.value.1) else Pass
    }

    /**
     * The result of the task group, once there is one: a task's error is
     * raised wrapped in an exception group (the other task is cancelled);
     * otherwise the run returns once the producer has returned, `join` has
     * returned and the worker has left its loop.
     */
    function Status(): Option<Outcome>
    {
      if worker.pc.Exited? && worker.pc.outcome.Fail? then
        Some(Fail(ExceptionGroup([worker.pc.outcome.error])))
      else if producer.done.Some? && producer.done.value.Fail? then
        Some(Fail(ExceptionGroup([producer.done.value.error])))
      else if producer.done == Some(Pass) && worker.pc == Exited(Pass) && queue.Joined() then
        Some(Pass)
      else None
    }

    predicate Enabled(a: Actor)
    {
      Status().None? &&
      match a
      case ProducerTask => ProducerEnabled(producer, queue)
      case WorkerTask => WorkerEnabled(worker, queue)
    }

    function Step(a: Actor): System<T>
      requires Enabled(a)
    {
      match a
      case ProducerTask =>
        var (p, q) := ProducerStep(producer, queue);
        this.(producer := p, queue := q)
      case WorkerTask =>
        var (w, q) := WorkerStep(worker, queue, HandleOutcome(), countFirst);
        this.(worker := w, queue := q)
    }

    /** Neither task can move and the run has no result: it never completes. */
    predicate Stuck()
    {
      Status().None? && !Enabled(ProducerTask) && !Enabled(WorkerTask)
    }
  }

  /** The system when the task group starts, on a freshly created queue. */
  function Init<T>(plan: seq<seq<T>>, ending: Outcome, queueSize: int, chunkSize: int,
                   failure: Option<(nat, Error)>, countFirst: bool): System<T>
  {
    System(NewProducer(plan, ending), NewWorker(), NewQueue(queueSize, chunkSize), failure, countFirst)
  }

  /** Runs a schedule; None when the schedule picks a task that cannot move. */
  function Exec<T>(s: System<T>, schedule: seq<Actor>): Option<System<T>>
    decreases |schedule|
  {
    if schedule == [] then Some(s)
    else if s.Enabled(schedule[0]) then Exec(s.Step(schedule[0]), schedule[1..])
    else None
  }

  /**
   * Runs a schedule in which a pick whose task cannot move (suspended, or
   * the run already has a result) changes nothing.
   */
  function Drive<T>(s: System<T>, schedule: seq<Actor>): System<T>
    decreases |schedule|
  {
    if schedule == [] then s
    else Drive(if s.Enabled(schedule[0]) then s.Step(schedule[0]) else s, schedule[1..])
  }

  /** The invariant every reachable state keeps. */
  ghost predicate Inv<T>(s: System<T>)
  {
    var p := s.producer;
    var w := s.worker;
    var q := s.queue;
    var failed := w.pc.Exited? && w.pc.outcome.Fail?;
    p.sent <= |p.plan| &&
    // every chunk put so far was taken or is still held, in put order
    p.plan[..p.sent] == w.taken + q.held &&
    (q.producerFinished <==> p.done.Some?) &&
    (p.done.Some? ==> p.sent == |p.plan| && p.done.value == p.ending) &&
    (q.maxSize > 0 ==> |q.held| <= q.maxSize) &&
    (if failed then |w.taken| == |w.handled| + 1 && w.handled == w.taken[..|w.handled|]
     else w.handled == w.taken) &&
    q.unfinished == |q.held| + |w.taken| - |w.handled| &&
    w.processed == (if s.countFirst then TotalLen(w.taken) else TotalLen(w.handled)) &&
    (w.pc == Exited(Pass) ==> q.producerFinished && q.held == [])
  }

  lemma InitInv<T>(plan: seq<seq<T>>, ending: Outcome, queueSize: int, chunkSize: int,
                   failure: Option<(nat, Error)>, countFirst: bool)
    ensures Inv(Init(plan, ending, queueSize, chunkSize, failure, countFirst))
  {
  }

  lemma ProducerStepKeepsInv<T>(s: System<T>)
    requires Inv(s)
    requires s.Enabled(ProducerTask)
    ensures Inv(s.Step(ProducerTask))
  {
    var p := s.producer;
    if p.sent < |p.plan| {
      assert p.plan[..p.sent + 1] == p.plan[..p.sent] + [p.plan[p.sent]];
      var s' := s.Step(ProducerTask);
      assert s'.queue.held == s.queue.held + [p.plan[p.sent]];
      assert s'.worker == s.worker;
    }
  }

  lemma TakeKeepsInv<T>(s: System<T>)
    requires Inv(s)
    requires s.Enabled(WorkerTask)
    requires s.worker.pc.AwaitingChunk?
    ensures Inv(s.Step(WorkerTask))
  {
    var w := s.worker;
    var q := s.queue;
    var c := q.Front();
    assert q.held == [c] + q.held[1..];
    assert w.taken + q.held == (w.taken + [c]) + q.held[1..];
    FlattenAppend(w.taken, c);
    FlattenAppend(w.handled, c);
    var s' := s.Step(WorkerTask);
    assert s'.queue.held == q.held[1..];
    if s.HandleOutcome().Fail? || !w.progressTask {
      assert (w.taken + [c])[..|w.handled|] == w.handled;
      assert s'.worker.taken == w.taken + [c];
    } else {
      assert q.Pop().unfinished >= 1;
      assert s'.worker.taken == w.taken + [c];
      assert s'.worker.handled == w.handled + [c];
    }
  }

  /** Every move of either task keeps the invariant. */
  lemma StepKeepsInv<T>(s: System<T>, a: Actor)
    requires Inv(s)
    requires s.Enabled(a)
    ensures Inv(s.Step(a))
  {
    match a
    case ProducerTask => ProducerStepKeepsInv(s);
    case WorkerTask =>
      if s.worker.pc.AwaitingChunk? {
        TakeKeepsInv(s);
      }
  }

  lemma {:induction false} ExecKeepsInv<T>(s: System<T>, schedule: seq<Actor>)
    requires Inv(s)
    requires Exec(s, schedule).Some?
    ensures Inv(Exec(s, schedule).value)
    decreases |schedule|
  {
    if schedule != [] {
      StepKeepsInv(s, schedule[0]);
      ExecKeepsInv(s.Step(schedule[0]), schedule[1..]);
    }
  }

  lemma {:induction false} DriveKeepsInv<T>(s: System<T>, schedule: seq<Actor>)
    requires Inv(s)
    ensures Inv(Drive(s, schedule))
    decreases |schedule|
  {
    if schedule != [] {
      if s.Enabled(schedule[0]) {
        StepKeepsInv(s, schedule[0]);
      }
      DriveKeepsInv(if s.Enabled(schedule[0]) then s.Step(schedule[0]) else s, schedule[1..]);
    }
  }

  /** A schedule whose every pick can move runs the same under both readings. */
  lemma {:induction false} ExecIsDrive<T>(s: System<T>, schedule: seq<Actor>)
    requires Exec(s, schedule).Some?
    ensures Drive(s, schedule) == Exec(s, schedule).value
    decreases |schedule|
  {
    if schedule != [] {
      ExecIsDrive(s.Step(schedule[0]), schedule[1..]);
    }
  }

  /**
   * No step touches the queue's sizes or its total_items: the expected total
   * is never stored there, so total_items keeps the value it was created with.
   */
  lemma {:induction false} DriveKeepsQueueSettings<T>(s: System<T>, schedule: seq<Actor>)
    ensures Drive(s, schedule).queue.totalItems == s.queue.totalItems
    ensures Drive(s, schedule).queue.maxSize == s.queue.maxSize
    ensures Drive(s, schedule).queue.chunkSize == s.queue.chunkSize
    decreases |schedule|
  {
    if schedule != [] {
      var s' := if s.Enabled(schedule[0]) then s.Step(schedule[0]) else s;
      assert s'.queue.totalItems == s.queue.totalItems;
      DriveKeepsQueueSettings(s', schedule[1..]);
    }
  }

  /** The producer's chunks, its ending and the worker's counting order are fixed when the system starts. */
  lemma {:induction false} DriveKeepsSetup<T>(s: System<T>, schedule: seq<Actor>)
    ensures Drive(s, schedule).producer.plan == s.producer.plan
    ensures Drive(s, schedule).producer.ending == s.producer.ending
    ensures Drive(s, schedule).countFirst == s.countFirst
    decreases |schedule|
  {
    if schedule != [] {
      var s' := if s.Enabled(schedule[0]) then s.Step(schedule[0]) else s;
      assert s'.producer.plan == s.producer.plan;
      DriveKeepsSetup(s', schedule[1..]);
    }
  }

  /**
   * Whatever the schedule, the worker has handled a prefix of the plan, in
   * plan order, and no more chunks than the producer put.
   */
  lemma HandledIsPrefixOfPlan<T>(s: System<T>)
    requires Inv(s)
    ensures s.worker.handled <= s.producer.plan
    ensures |s.worker.handled| <= s.producer.sent
  {
    var p := s.producer;
    var w := s.worker;
    assert w.taken <= p.plan[..p.sent];
    assert w.handled <= w.taken;
  }

  /**
   * A run that completes normally delivered the whole plan: every chunk was
   * taken and handled exactly once, in order, `join` had nothing pending,
   * and the worker counted every item.
   */
  lemma CompletedDeliversAll<T>(s: System<T>)
    requires Inv(s)
    requires s.Status() == Some(Pass)
    ensures s.worker.taken == s.producer.plan
    ensures s.worker.handled == s.producer.plan
    ensures Flatten(s.worker.handled) == Flatten(s.producer.plan)
    ensures s.worker.processed == TotalLen(s.producer.plan)
    ensures s.producer.done == Some(Pass) && s.queue.Joined() && s.queue.held == []
  {
    var p := s.producer;
    assert p.plan[..p.sent] == p.plan;
    assert s.worker.taken + [] == s.worker.taken;
  }

  /** Splitting a schedule in two runs the halves one after the other. */
  lemma {:induction false} ExecAppend<T>(s: System<T>, a: seq<Actor>, b: seq<Actor>)
    ensures Exec(s, a + b) ==
      (match Exec(s, a) case None => None case Some(t) => Exec(t, b))
    decreases |a|
  {
    if a == [] {
      assert a + b == b;
    } else {
      assert (a + b)[0] == a[0];
      assert (a + b)[1..] == a[1..] + b;
      if s.Enabled(a[0]) {
        ExecAppend(s.Step(a[0]), a[1..], b);
      }
    }
  }

  /** Producer puts, worker checks its guard, worker takes and handles: one chunk. */
  const OneChunk: seq<Actor> := [ProducerTask, WorkerTask, WorkerTask]

  /** `n` rounds of `OneChunk`. */
  function Rounds(n: nat): seq<Actor>
  {
    if n == 0 then [] else Rounds(n - 1) + OneChunk
  }

  /** The state after the first `k` chunks of the plan went through the queue, one at a time. */
  function AfterRounds<T>(s0: System<T>, k: nat): System<T>
    requires k <= |s0.producer.plan|
  {
    var plan := s0.producer.plan;
    s0.(producer := s0.producer.(sent := k),
        worker := s0.worker.(taken := plan[..k], handled := plan[..k],
                             processed := TotalLen(plan[..k])))
  }

  /** From the state after `k - 1` chunks, one more round delivers chunk `k - 1`. */
  lemma OneChunkDelivers<T>(s0: System<T>, k: nat)
    requires s0 == Init(s0.producer.plan, Pass, s0.queue.maxSize, s0.queue.chunkSize, None, s0.countFirst)
    requires 0 < k <= |s0.producer.plan|
    ensures Exec(AfterRounds(s0, k - 1), OneChunk) == Some(AfterRounds(s0, k))
  {
    var plan := s0.producer.plan;
    var s := AfterRounds(s0, k - 1);
    var c := plan[k - 1];
    assert plan[..k] == plan[..k - 1] + [c];
    FlattenAppend(plan[..k - 1], c);
    var s1 := s.Step(ProducerTask);
    assert s1.queue.held == [c];
    var s2 := s1.Step(WorkerTask);
    assert s2.worker.pc == AwaitingChunk;
    var s3 := s2.Step(WorkerTask);
    assert s3 == AfterRounds(s0, k);
  }

  lemma {:induction false} RoundsDeliver<T>(s0: System<T>, k: nat)
    requires s0 == Init(s0.producer.plan, Pass, s0.queue.maxSize, s0.queue.chunkSize, None, s0.countFirst)
    requires k <= |s0.producer.plan|
    ensures Exec(s0, Rounds(k)) == Some(AfterRounds(s0, k))
  {
    if k == 0 {
      assert s0.producer.plan[..0] == [];
    } else {
      RoundsDeliver(s0, k - 1);
      ExecAppend(s0, Rounds(k - 1), OneChunk);
      OneChunkDelivers(s0, k);
    }
  }

  /** Producer finishes, then the worker finds its guard false: the run returns. */
  lemma FinishThenExit<T>(s: System<T>)
    requires s.producer.sent == |s.producer.plan| && s.producer.done.None?
    requires s.producer.ending == Pass && s.worker.pc == AtGuard
    requires s.queue.held == [] && s.queue.unfinished == 0 && !s.queue.producerFinished
    ensures Exec(s, [ProducerTask, WorkerTask]) ==
      Some(s.(producer := s.producer.(done := Some(Pass)),
              worker := s.worker.(pc := Exited(Pass)),
              queue := s.queue.SetFinished()))
  {
    var s1 := s.Step(ProducerTask);
    assert s1 == s.(producer := s.producer.(done := Some(Pass)), queue := s.queue.SetFinished());
    var s2 := s1.Step(WorkerTask);
    assert s2 == s1.(worker := s.worker.(pc := Exited(Pass)));
    assert Exec(s2, []) == Some(s2);
    assert [ProducerTask, WorkerTask][1..] == [WorkerTask];
    assert [WorkerTask][1..] == [];
  }

  /** The worker checks its guard first and waits; then the producer finishes. */
  lemma WaitThenFinish<T>(s: System<T>)
    requires s.producer.sent == |s.producer.plan| && s.producer.done.None?
    requires s.producer.ending == Pass && s.worker.pc == AtGuard
    requires s.queue.held == [] && s.queue.unfinished == 0 && !s.queue.producerFinished
    ensures Exec(s, [WorkerTask, ProducerTask]) ==
      Some(s.(producer := s.producer.(done := Some(Pass)),
              worker := s.worker.(pc := AwaitingChunk),
              queue := s.queue.SetFinished()))
  {
    var s1 := s.Step(WorkerTask);
    assert s1 == s.(worker := s.worker.(pc := AwaitingChunk));
    var s2 := s1.Step(ProducerTask);
    assert s2 == s1.(producer := s.producer.(done := Some(Pass)), queue := s.queue.SetFinished());
    assert Exec(s2, []) == Some(s2);
    assert [WorkerTask, ProducerTask][1..] == [ProducerTask];
    assert [ProducerTask][1..] == [];
  }

  /**
   * Some schedule completes every run whose producer and handler succeed:
   * one chunk at a time, then the producer finishes before the worker checks
   * its guard again.  The run returns normally with the whole plan handled.
   */
  lemma CompletingSchedule<T>(plan: seq<seq<T>>, queueSize: int, chunkSize: int, countFirst: bool)
    ensures var s0 := Init(plan, Pass, queueSize, chunkSize, None, countFirst);
      var r := Exec(s0, Rounds(|plan|) + [ProducerTask, WorkerTask]);
      r.Some? && r.value.Status() == Some(Pass) && r.value.worker.handled == plan &&
      r.value.worker.processed == TotalLen(plan)
  {
    var s0 := Init(plan, Pass, queueSize, chunkSize, None, countFirst);
    RoundsDeliver(s0, |plan|);
    ExecAppend(s0, Rounds(|plan|), [ProducerTask, WorkerTask]);
    assert plan[..|plan|] == plan;
    var s := AfterRounds(s0, |plan|);
    FinishThenExit(s);
  }

  /**
   * The worker can be stranded: if it checks its guard after handling the
   * last chunk but before the producer sets the finished flag, it waits in
   * get_chunk on a queue that stays empty.  Every chunk has been handled and
   * `join` would return, yet neither task can move and the task group never
   * exits.  This holds for every plan, the empty one included.
   */
  lemma StrandingSchedule<T>(plan: seq<seq<T>>, queueSize: int, chunkSize: int, countFirst: bool)
    ensures var s0 := Init(plan, Pass, queueSize, chunkSize, None, countFirst);
      var r := Exec(s0, Rounds(|plan|) + [WorkerTask, ProducerTask]);
      r.Some? && r.value.Stuck() && r.value.worker.handled == plan && r.value.queue.Joined()
  {
    var s0 := Init(plan, Pass, queueSize, chunkSize, None, countFirst);
    RoundsDeliver(s0, |plan|);
    ExecAppend(s0, Rounds(|plan|), [WorkerTask, ProducerTask]);
    assert plan[..|plan|] == plan;
    var s := AfterRounds(s0, |plan|);
    WaitThenFinish(s);
    var t := s.(producer := s.producer.(done := Some(Pass)),
                worker := s.worker.(pc := AwaitingChunk),
                queue := s.queue.SetFinished());
    assert Exec(s0, Rounds(|plan|) + [WorkerTask, ProducerTask]) == Some(t);
    WaitingOnEmptyIsStuck(t);
  }

  /** A worker waiting on an empty queue after the producer finished can never move again. */
  lemma WaitingOnEmptyIsStuck<T>(t: System<T>)
    requires t.worker.pc == AwaitingChunk && t.queue.held == []
    requires t.producer.done == Some(Pass)
    ensures t.Stuck()
  {
  }
}

=== FILE: processor.dfy ===
/**
 * The processor: creates the one queue shared by its producer and worker,
 * skips the run when the producer expects no items, and otherwise runs the
 * producer's and the worker's loops until the task group has a result.
 */
module Processor {
  import opened Errors
  import opened ChunkQueue
  import opened Pipeline
  import opened ProducerBase
  import opened WorkerBase

  /** Python's `size or default` for an optional integer. */
  function SizeOrDefault(size: Option<int>, default: int): (r: int)
    ensures size.Some? && size.value != 0 ==> r == size.value
    ensures size.None? || size == Some(0) ==> r == default
  {
    if size.Some? && size.value != 0 then size.value else default
  }

  /** The queue's bound: the given size, or 3 when it is None or 0. */
  function QueueSizeOrDefault(queueSize: Option<int>): int
  {
    SizeOrDefault(queueSize, DEFAULT_QUEUE_SIZE)
  }

  /** The producer's chunk size: the given size, or 100 when it is None or 0. */
  function ChunkSizeOrDefault(chunkSize: Option<int>): int
  {
    SizeOrDefault(chunkSize, DEFAULT_CHUNK_SIZE)
  }

  lemma SizeDefaults(queueSize: Option<int>, chunkSize: Option<int>)
    ensures queueSize.None? || queueSize == Some(0) ==> QueueSizeOrDefault(queueSize) == 3
    ensures chunkSize.None? || chunkSize == Some(0) ==> ChunkSizeOrDefault(chunkSize) == 100
    ensures queueSize.Some? && queueSize.value != 0 ==> QueueSizeOrDefault(queueSize) == queueSize.value
    ensures chunkSize.Some? && chunkSize.value != 0 ==> ChunkSizeOrDefault(chunkSize) == chunkSize.value
  {
  }

  /**
   * The `--queue-size` option as the command-line parser declares it: its
   * default is the chunk-size default, 100, not the queue-size default.
   */
  function QueueSizeOptionAsWritten(given: Option<int>): int
  {
    if given.Some? then given.value else DEFAULT_CHUNK_SIZE
  }

  /** The `--queue-size` option with the queue-size default, 3. */
  function QueueSizeOption(given: Option<int>): int
  {
    if given.Some? then given.value else DEFAULT_QUEUE_SIZE
  }

  /**
   * Without `--queue-size`, the parser as written bounds the queue at 100
   * chunks (10000 items at the default chunk size) instead of 3 chunks.
   */
  lemma QueueSizeOptionDefaultDiffers()
    ensures QueueSizeOrDefault(Some(QueueSizeOptionAsWritten(None))) == 100
    ensures QueueSizeOrDefault(Some(QueueSizeOption(None))) == DEFAULT_QUEUE_SIZE
  {
  }

  /**
   * With the queue-size default, parsing the option and then applying the
   * constructor's fallback gives the queue the constructor alone would
   * build, whether or not the option was given.
   */
  lemma QueueSizeOptionAgrees(given: Option<int>)
    ensures QueueSizeOrDefault(Some(QueueSizeOption(given))) == QueueSizeOrDefault(given)
    ensures QueueSizeOrDefault(Some(QueueSizeOptionAsWritten(given))) == QueueSizeOrDefault(given) <==> given.Some?
  {
  }

  /** Passing an option explicitly gives the same queue either way. */
  lemma QueueSizeOptionGiven(n: int)
    ensures QueueSizeOption(Some(n)) == QueueSizeOptionAsWritten(Some(n)) == n
  {
  }

  datatype RunResult = Skipped | Ran(status: Option<Outcome>)

  class ScapProcessor<T> {
    const producer: BaseScapProducer<T>
    const worker: BaseScapWorker<T>
    const queue: ScapChunkQueue<T>
    // the position of the chunk whose handling raises, if any, and the error
    const failure: Option<(nat, Error)>

    /** Producer and worker share this processor's queue. */
    ghost predicate Valid()
      reads this, producer, worker
    {
      producer.queue == queue && worker.queue == queue && worker.queueAssigned
    }

    /** The processor's objects seen as one pipeline system. */
    function Snapshot(): System<T>
      reads producer, worker, queue
    {
      System(producer.State(), worker.State(), queue.State(), failure, true)
    }

    /**
     * Creates one queue with the given sizes (or their defaults) and hands
     * that same queue to both producer and worker.
     */
    constructor(producer: BaseScapProducer<T>, worker: BaseScapWorker<T>,
                queueSize: Option<int>, chunkSize: Option<int>, failure: Option<(nat, Error)>)
      modifies producer, worker
      ensures this.producer == producer && this.worker == worker && this.failure == failure
      ensures fresh(queue) && Valid()
      ensures queue.State() == NewQueue(QueueSizeOrDefault(queueSize), ChunkSizeOrDefault(chunkSize))
      ensures producer.State() == old(producer.State()) && worker.State() == old(worker.State())
    {
      this.producer := producer;
      this.worker := worker;
      this.failure := failure;
      queue := new ScapChunkQueue(QueueSizeOrDefault(queueSize), ChunkSizeOrDefault(chunkSize));
      new;
      producer.SetQueue(queue);
      worker.SetQueue(queue);
    }

    /**
     * `run`, given what the producer's `fetch_initial_data` returned and the
     * order in which the scheduler picks the two tasks.  When no items are
     * expected neither loop starts.  Otherwise the worker's loop start runs
     * and then each pick moves its task if that task can move.
     */
    method Run(total: int, schedule: seq<Actor>) returns (r: RunResult)
      requires Valid()
      modifies producer, worker, queue
      ensures total <= 0 ==> r == Skipped && Snapshot() == old(Snapshot())
      ensures total > 0 ==>
        Snapshot() == Drive(old(Snapshot()).(worker := old(Snapshot()).worker.(progressTask := true)), schedule) &&
        r == Ran(Snapshot().Status())
    {
      if total <= 0 {
        return Skipped;
      }
      var started := worker.LoopStart();
      ghost var s0 := Snapshot();
      assert Drive(Snapshot(), schedule[0..]) == Drive(s0, schedule) by {
        assert schedule[0..] == schedule;
      }
      var i := 0;
      while i < |schedule|
        invariant 0 <= i <= |schedule|
        invariant Valid()
        invariant Drive(Snapshot(), schedule[i..]) == Drive(s0, schedule)
      {
        var s := Snapshot();
        assert schedule[i..][0] == schedule[i] && schedule[i..][1..] == schedule[i + 1..];
        if s.Enabled(schedule[i]) {
          match schedule[i]
          case ProducerTask =>
            producer.RunLoopStep();
          case WorkerTask =>
            worker.Step(s.HandleOutcome(), true);
        }
        i := i + 1;
      }
      assert schedule[i..] == [];
      r := Ran(Snapshot().Status());
    }
  }
}

=== FILE: producer_base.dfy ===
/**
 * The producer base class: the queue it puts into (assigned by the
 * processor), the results it may hold, and the default `fetch_initial_data`
 * and `run_loop`.  A concrete producer's run loop is described by the chunks
 * it puts and how it ends (its plan, see the Pipeline module); the object
 * advances through that plan one put at a time.
 */
module ProducerBase {
  import opened Errors
  import opened ChunkQueue
  import opened Pipeline

  class BaseScapProducer<T> {
    var queue: ScapChunkQueue?<T>
    var hasResults: bool           // whether `results` holds an NVD results object
    var verbose: Option<int>
    var plan: seq<seq<T>>
    var ending: Outcome
    var sent: nat
    var done: Option<Outcome>

    function State(): ProducerState<T>
      reads this
    {
      ProducerState(plan, ending, sent, done)
    }

    /**
     * A new producer has no queue and no results.  `verbose` is stored as
     * given, None included, because the fallback guard in the source tests
     * the constant None and so never applies.
     */
    constructor(verbose: Option<int>, plan: seq<seq<T>>, ending: Outcome)
      ensures queue == null && !hasResults && this.verbose == verbose
      ensures State() == NewProducer(plan, ending)
    {
      queue := null;
      hasResults := false;
      this.verbose := verbose;
      this.plan := plan;
      this.ending := ending;
      sent := 0;
      done := None;
    }

    method SetQueue(q: ScapChunkQueue<T>)
      modifies this
      ensures queue == q
      ensures hasResults == old(hasResults) && verbose == old(verbose) && State() == old(State())
    {
      queue := q;
    }

    /** The default expected total. */
    method FetchInitialData() returns (total: int)
      ensures total == 0
    {
      total := 0;
    }

    /**
     * The default run loop: it only marks the producer finished, and fails
     * with AttributeError when no queue was assigned.
     */
    method DefaultRunLoop() returns (r: Outcome)
      modifies queue
      ensures queue == null ==> r.Fail? && r.error.AttributeError?
      ensures queue != null ==> r == Pass && queue.State() == old(queue.State()).SetFinished()
    {
      if queue == null {
        r := Fail(AttributeError("'NoneType' object has no attribute 'set_producer_finished'"));
      } else {
        queue.SetProducerFinished();
        r := Pass;
      }
    }

    /** One move of the run loop: put the next chunk of the plan, or finish. */
    method RunLoopStep()
      requires queue != null
      requires ProducerEnabled(State(), queue.State())
      modifies this, queue
      ensures queue == old(queue) && hasResults == old(hasResults) && verbose == old(verbose)
      ensures (State(), queue.State()) == ProducerStep(old(State()), old(queue.State()))
    {
      if sent < |plan| {
        queue.PutChunk(plan[sent]);
        sent := sent + 1;
      } else {
        done := Some(ending);
        queue.SetProducerFinished();
      }
    }
  }
}

=== FILE: queue.dfy ===
/**
 * The chunk queue shared by one producer and one worker: an asyncio queue
 * of chunks (lists of items), a "producer finished" flag, the chunk size the
 * producer should use, and asyncio's count of unfinished tasks that `join`
 * waits on.  `QueueState` is the queue as a value; `ScapChunkQueue` is the
 * object the producer and the worker update in place.
 */
module ChunkQueue {
  import opened Errors

  const DEFAULT_QUEUE_SIZE := 3
  const DEFAULT_CHUNK_SIZE := 100

  /** The items of a sequence of chunks, in order. */
  function Flatten<T>(chunks: seq<seq<T>>): seq<T>
  {
    if chunks == [] then [] else Flatten(chunks[..|chunks| - 1]) + chunks[|chunks| - 1]
  }

  /** The number of items in a sequence of chunks. */
  function TotalLen<T>(chunks: seq<seq<T>>): (n: nat)
    ensures n == |Flatten(chunks)|
  {
    if chunks == [] then 0 else TotalLen(chunks[..|chunks| - 1]) + |chunks[|chunks| - 1]|
  }

  lemma FlattenAppend<T>(chunks: seq<seq<T>>, c: seq<T>)
    ensures Flatten(chunks + [c]) == Flatten(chunks) + c
    ensures TotalLen(chunks + [c]) == TotalLen(chunks) + |c|
  {
    assert (chunks + [c])[..|chunks|] == chunks;
  }

  lemma FlattenSingleton<T>(c: seq<T>)
    ensures Flatten([c]) == c
  {
    assert [c][..0] == [];
  }

  /** Flattening distributes over concatenation of chunk sequences. */
  lemma {:induction false} FlattenConcat<T>(a: seq<seq<T>>, b: seq<seq<T>>)
    ensures Flatten(a + b) == Flatten(a) + Flatten(b)
    decreases |b|
  {
    if b == [] {
      assert a + b == a;
    } else {
      var b' := b[..|b| - 1];
      var c := b[|b| - 1];
      assert a + b == (a + b') + [c];
      assert b == b' + [c];
      FlattenConcat(a, b');
      FlattenAppend(a + b', c);
      FlattenAppend(b', c);
    }
  }

  /** What each element yields, concatenated in order: the rows a batch yields for one table. */
  function FlatMap<A, B>(xs: seq<A>, f: A -> seq<B>): seq<B>
  {
    if xs == [] then [] else FlatMap(xs[..|xs| - 1], f) + f(xs[|xs| - 1])
  }

  lemma {:induction false} FlatMapAppend<A, B>(xs: seq<A>, ys: seq<A>, f: A -> seq<B>)
    ensures FlatMap(xs + ys, f) == FlatMap(xs, f) + FlatMap(ys, f)
    decreases |ys|
  {
    if ys == [] {
      assert xs + ys == xs;
    } else {
      var k := |ys| - 1;
      assert (xs + ys)[..|xs + ys| - 1] == xs + ys[..k];
      FlatMapAppend(xs, ys[..k], f);
    }
  }

  /** Nothing is yielded exactly when no element yields anything. */
  lemma {:induction false} FlatMapEmpty<A, B>(xs: seq<A>, f: A -> seq<B>)
    ensures FlatMap(xs, f) == [] <==> forall i :: 0 <= i < |xs| ==> f(xs[i]) == []
    decreases |xs|
  {
    if xs != [] {
      var k := |xs| - 1;
      FlatMapEmpty(xs[..k], f);
      assert forall i :: 0 <= i < k ==> xs[..k][i] == xs[i];
    }
  }

  /** Everything yielded comes from one of the elements. */
  lemma {:induction false} FlatMapOrigin<A, B>(xs: seq<A>, f: A -> seq<B>, y: B)
    requires y in FlatMap(xs, f)
    ensures exists i :: 0 <= i < |xs| && y in f(xs[i])
    decreases |xs|
  {
    var k := |xs| - 1;
    if y in f(xs[k]) {
    } else {
      FlatMapOrigin(xs[..k], f, y);
      var i :| 0 <= i < k && y in f(xs[..k][i]);
      assert xs[..k][i] == xs[i];
    }
  }

  datatype QueueState<T> = QueueState(
    held: seq<seq<T>>,       // chunks put and not yet taken, oldest first
    maxSize: int,            // asyncio maxsize; zero or less means unbounded
    chunkSize: int,
    totalItems: int,
    producerFinished: bool,
    unfinished: nat)         // puts not yet matched by task_done
  {
    /** `asyncio.Queue.full()`: only a positive maxsize bounds the queue. */
    predicate Full() { maxSize > 0 && |held| >= maxSize }

    /** Whether the worker should go on taking chunks. */
    predicate MoreChunksExpected() { !(producerFinished && held == []) }

    /** The state `join` waits for. */
    predicate Joined() { unfinished == 0 }

    /** `put_chunk`, once the queue has room. */
    function Put(chunk: seq<T>): QueueState<T>
      requires !Full()
    {
      this.(held := held + [chunk], unfinished := unfinished + 1)
    }

    /** The chunk `get_chunk` hands out: the oldest one. */
    function Front(): seq<T>
      requires held != []
    {
      held[0]
    }

    /** The queue after `get_chunk` took the front chunk. */
    function Pop(): QueueState<T>
      requires held != []
    {
      this.(held := held[1..])
    }

    function SetFinished(): QueueState<T>
    {
      this.(producerFinished := true)
    }

    /** `task_done`: asyncio raises ValueError when nothing is unfinished. */
    function TaskDone(): Result<QueueState<T>>
    {
      if unfinished == 0 then Err(ValueError("task_done() called too many times"))
      else Ok(this.(unfinished := unfinished - 1))
    }
  }

  /** Setting the finished flag twice is the same as once, and never adds or removes a chunk. */
  lemma SetFinishedIdempotent<T>(q: QueueState<T>)
    ensures q.SetFinished().SetFinished() == q.SetFinished()
    ensures q.SetFinished().held == q.held && q.SetFinished().unfinished == q.unfinished
    ensures !q.SetFinished().MoreChunksExpected() <==> q.held == []
  {
  }

  /** A new queue: holds nothing, producer not finished, total_items 1. */
  function NewQueue<T>(queueSize: int, chunkSize: int): (q: QueueState<T>)
    ensures q.held == [] && !q.producerFinished && q.Joined()
    ensures q.maxSize == queueSize && q.chunkSize == chunkSize && q.totalItems == 1
  {
    QueueState([], queueSize, chunkSize, 1, false, 0)
  }

  /** A sequence of queue operations by producer and worker, for stating FIFO order. */
  datatype Op<T> = PutOp(chunk: seq<T>) | GetOp | TaskDoneOp

  /** The chunks a sequence of operations puts, in order. */
  function Puts<T>(ops: seq<Op<T>>): seq<seq<T>>
  {
    if ops == [] then []
    else (if ops[0].PutOp? then [ops[0].chunk] else []) + Puts(ops[1..])
  }

  function TaskDones<T>(ops: seq<Op<T>>): nat
  {
    if ops == [] then 0 else (if ops[0].TaskDoneOp? then 1 else 0) + TaskDones(ops[1..])
  }

  /**
   * Runs the operations in order and returns the final queue and the chunks
   * the gets took, or None when an operation would block (a put on a full
   * queue, a get on an empty one) or raise (a surplus task_done).
   */
  function Apply<T>(q: QueueState<T>, ops: seq<Op<T>>): Option<(QueueState<T>, seq<seq<T>>)>
    decreases |ops|
  {
    if ops == [] then Some((q, []))
    else match ops[0]
      case PutOp(c) =>
        if q.Full() then None else Apply(q.Put(c), ops[1..])
      case GetOp =>
        if q.held == [] then None
        else
          (match Apply(q.Pop(), ops[1..])
           case None => None
           case Some(r) => Some((r.0, [q.Front()] + r.1)))
      case TaskDoneOp =>
        match q.TaskDone()
        case Err(_) => None
        case Ok(q') => Apply(q', ops[1..])
  }

  /** A get that goes through takes the front chunk and puts nothing. */
  lemma ApplyGet<T>(q: QueueState<T>, ops: seq<Op<T>>)
    requires ops != [] && ops[0].GetOp? && Apply(q, ops).Some?
    ensures q.held != [] && q.held == [q.Front()] + q.Pop().held
    ensures Apply(q.Pop(), ops[1..]).Some?
    ensures Apply(q, ops).value.0 == Apply(q.Pop(), ops[1..]).value.0
    ensures Apply(q, ops).value.1 == [q.Front()] + Apply(q.Pop(), ops[1..]).value.1
    ensures Puts(ops) == Puts(ops[1..])
  {
  }

  /** A put that goes through appends its chunk, and a task_done leaves what is held alone. */
  lemma ApplyPutOrTaskDone<T>(q: QueueState<T>, ops: seq<Op<T>>)
    requires ops != [] && !ops[0].GetOp? && Apply(q, ops).Some?
    ensures ops[0].PutOp? ==>
      !q.Full() && Apply(q, ops) == Apply(q.Put(ops[0].chunk), ops[1..]) &&
      Puts(ops) == [ops[0].chunk] + Puts(ops[1..]) && q.Put(ops[0].chunk).held == q.held + [ops[0].chunk]
    ensures ops[0].TaskDoneOp? ==>
      q.TaskDone().Ok? && Apply(q, ops) == Apply(q.TaskDone().value, ops[1..]) &&
      Puts(ops) == Puts(ops[1..]) && q.TaskDone().value.held == q.held
  {
  }

  /**
   * FIFO order: what was held plus everything put equals everything taken
   * plus what is still held, so chunks leave in exactly the order they came.
   */
  lemma {:induction false} ApplyKeepsOrder<T>(q: QueueState<T>, ops: seq<Op<T>>)
    requires Apply(q, ops).Some?
    ensures q.held + Puts(ops) == Apply(q, ops).value.1 + Apply(q, ops).value.0.held
    decreases |ops|
  {
    if ops != [] {
      match ops[0]
      case PutOp(c) =>
        ApplyPutOrTaskDone(q, ops);
        ApplyKeepsOrder(q.Put(c), ops[1..]);
        assert q.held + Puts(ops) == q.Put(c).held + Puts(ops[1..]);
      case GetOp =>
        ApplyGet(q, ops);
        ApplyKeepsOrder(q.Pop(), ops[1..]);
        var r := Apply(q.Pop(), ops[1..]).value;
        calc {
          q.held + Puts(ops);
          [q.Front()] + (q.Pop().held + Puts(ops[1..]));
          [q.Front()] + (r.1 + r.0.held);
          ([q.Front()] + r.1) + r.0.held;
        }
      case TaskDoneOp =>
        ApplyPutOrTaskDone(q, ops);
        ApplyKeepsOrder(q.TaskDone().value, ops[1..]);
    }
  }

  /**
   * A bounded queue never holds more than its maxsize, and every task_done
   * matches an earlier put: unfinished counts puts minus task_done calls.
   */
  lemma {:induction false} ApplyKeepsBounds<T>(q: QueueState<T>, ops: seq<Op<T>>)
    requires Apply(q, ops).Some?
    requires q.maxSize > 0 ==> |q.held| <= q.maxSize
    ensures var q' := Apply(q, ops).value.0;
      (q.maxSize > 0 ==> |q'.held| <= q.maxSize) &&
      q'.maxSize == q.maxSize &&
      q'.unfinished + TaskDones(ops) == q.unfinished + |Puts(ops)|
    decreases |ops|
  {
    if ops != [] {
      match ops[0]
      case PutOp(c) => ApplyKeepsBounds(q.Put(c), ops[1..]);
      case GetOp => ApplyKeepsBounds(q.Pop(), ops[1..]);
      case TaskDoneOp => ApplyKeepsBounds(q.TaskDone().value, ops[1..]);
    }
  }

  function Gets<T>(n: nat): seq<Op<T>>
  {
    if n == 0 then [] else [GetOp] + Gets(n - 1)
  }

  /**
   * Once the producer has finished, taking every held chunk hands them out in
   * order and leaves the worker's loop guard false.
   */
  lemma {:induction false} DrainAfterFinish<T>(q: QueueState<T>)
    requires q.producerFinished
    ensures Apply(q, Gets(|q.held|)).Some?
    ensures Apply(q, Gets(|q.held|)).value.1 == q.held
    ensures !Apply(q, Gets(|q.held|)).value.0.MoreChunksExpected()
    decreases |q.held|
  {
    if q.held != [] {
      DrainAfterFinish(q.Pop());
      assert Gets<T>(|q.held|)[1..] == Gets(|q.Pop().held|);
      assert q.held == [q.Front()] + q.Pop().held;
    }
  }

  /** The queue object the producer and the worker share. */
  class ScapChunkQueue<T> {
    var held: seq<seq<T>>
    const maxSize: int
    const chunkSize: int
    var totalItems: int
    var producerFinished: bool
    var unfinished: nat

    function State(): QueueState<T>
      reads this
    {
      QueueState(held, maxSize, chunkSize, totalItems, producerFinished, unfinished)
    }

    constructor(queueSize: int, chunkSize: int)
      ensures State() == NewQueue(queueSize, chunkSize)
    {
      held := [];
      maxSize := queueSize;
      this.chunkSize := chunkSize;
      totalItems := 1;
      producerFinished := false;
      unfinished := 0;
    }

    /** Called by the producer once the queue has room (asyncio suspends it until then). */
    method PutChunk(chunk: seq<T>)
      requires !State().Full()
      modifies this
      ensures State() == old(State()).Put(chunk)
    {
      held := held + [chunk];
      unfinished := unfinished + 1;
    }

    /** Called by the worker once a chunk is there (asyncio suspends it until then). */
    method GetChunk() returns (chunk: seq<T>)
      requires held != []
      modifies this
      ensures chunk == old(State()).Front()
      ensures State() == old(State()).Pop()
    {
      chunk := held[0];
      held := held[1..];
    }

    predicate MoreChunksExpected()
      reads this
    {
      !(producerFinished && held == [])
    }

    method SetProducerFinished()
      modifies this
      ensures State() == old(State()).SetFinished()
    {
      producerFinished := true;
    }

    method TaskDone() returns (r: Outcome)
      modifies this
      ensures old(State()).TaskDone().Ok? ==> r == Pass && State() == old(State()).TaskDone().value
      ensures old(State()).TaskDone().Err? ==> r == Fail(old(State()).TaskDone().error) && State() == old(State())
    {
      if unfinished == 0 {
        r := Fail(ValueError("task_done() called too many times"));
      } else {
        unfinished := unfinished - 1;
        r := Pass;
      }
    }

    /** The condition `join` waits for. */
    predicate Joined()
      reads this
    {
      unfinished == 0
    }

    lemma MoreChunksExpectedAgrees()
      ensures MoreChunksExpected() == State().MoreChunksExpected()
    {
    }
  }
}

=== FILE: settings.dfy ===
/**
 * Settings resolved "argument, else environment variable, else default"
 * with Python's `or`: an empty string, zero and None all count as missing.
 */
module Settings {
  import opened Errors

  const DEFAULT_POSTGRES_USER := "scap"
  const DEFAULT_POSTGRES_HOST := "localhost"
  const DEFAULT_POSTGRES_PORT := 5432
  const DEFAULT_POSTGRES_DATABASE_NAME := "scap"
  const DEFAULT_VERBOSITY := 0
  const DEFAULT_RETRIES := 20

  predicate Truthy(s: Option<string>) { s.Some? && s.value != "" }
  predicate TruthyInt(n: Option<int>) { n.Some? && n.value != 0 }

  /** `a or b` on optional strings. */
  function OrElse(a: Option<string>, b: Option<string>): (r: Option<string>)
    ensures Truthy(a) ==> r == a
    ensures !Truthy(a) ==> r == b
  {
    if Truthy(a) then a else b
  }

  /** `a or b` on optional integers. */
  function OrElseInt(a: Option<int>, b: Option<int>): (r: Option<int>)
    ensures TruthyInt(a) ==> r == a
    ensures !TruthyInt(a) ==> r == b
  {
    if TruthyInt(a) then a else b
  }

  /** What the DATABASE_PORT variable holds, as far as `int()` is concerned. */
  datatype EnvPort = Unset | Empty | Numeric(n: int) | NotNumeric

  /** The environment variables the database settings read. */
  datatype DbEnv = DbEnv(
    name: Option<string>,       // DATABASE_NAME
    schema: Option<string>,     // DATABASE_SCHEMA
    host: Option<string>,       // DATABASE_HOST
    port: EnvPort,              // DATABASE_PORT
    user: Option<string>,       // DATABASE_USER
    password: Option<string>)   // DATABASE_PASSWORD

  /** The database arguments a producer or worker is constructed with. */
  datatype DbArgs = DbArgs(
    name: Option<string>,
    schema: Option<string>,
    host: Option<string>,
    port: Option<int>,
    user: Option<string>,
    password: Option<string>,
    echoSql: bool)

  /** The arguments the PostgreSQL connection is created with. */
  datatype DbConnection = DbConnection(
    user: string,
    password: string,
    host: string,
    port: int,
    dbname: string,
    schema: Option<string>,
    echo: bool)

  const NoEnv := DbEnv(None, None, None, Unset, None, None)

  /**
   * The common tail of both resolutions, once the environment port is
   * known: name, schema, host and port fall back to their defaults, and a
   * missing user, then a missing password, raise CLIError.
   */
  function ResolveWithPort(args: DbArgs, env: DbEnv, envPort: Option<int>, itemTypePlural: string)
    : (r: Result<DbConnection>)
    ensures r.Err? <==> !Truthy(OrElse(args.user, env.user)) || !Truthy(OrElse(args.password, env.password))
    ensures r.Err? ==> r.error.CliError?
    ensures r.Ok? ==> r.value.dbname != "" && r.value.host != "" && r.value.port != 0
    ensures r.Ok? ==> r.value.schema != Some("")
    ensures r.Ok? ==> r.value.echo == args.echoSql
  {
    var name := OrElse(OrElse(args.name, env.name), Some(DEFAULT_POSTGRES_DATABASE_NAME));
    var schema := OrElse(OrElse(args.schema, env.schema), None);
    var host := OrElse(OrElse(args.host, env.host), Some(DEFAULT_POSTGRES_HOST));
    var port := OrElseInt(OrElseInt(args.port, envPort), Some(DEFAULT_POSTGRES_PORT));
    var user := OrElse(args.user, env.user);
    var password := OrElse(args.password, env.password);
    if !Truthy(user) then Err(CliError("Missing user for " + itemTypePlural + " database"))
    else if !Truthy(password) then Err(CliError("Missing password for " + itemTypePlural + " database"))
    else Ok(DbConnection(user.value, password.value, host.value, port.value, name.value, schema, args.echoSql))
  }
}

=== FILE: strings.dfy ===
/**
 * Text helpers with Python's string semantics, restricted to ASCII:
 * `str.split(sep)`, `sep.join(parts)`, `str.upper()` and `str.title()`.
 * Characters outside ASCII are treated as uncased.
 */
module Strings {

  predicate IsUpper(c: char) { 'A' <= c <= 'Z' }
  predicate IsLower(c: char) { 'a' <= c <= 'z' }

  /** A "cased" character in the sense of `str.title()`. */
  predicate IsLetter(c: char) { IsUpper(c) || IsLower(c) }

  function UpperChar(c: char): (u: char)
    ensures IsLower(c) ==> IsUpper(u) && u as int == c as int - 32
    ensures !IsLower(c) ==> u == c
  {
    if IsLower(c) then (c as int - 32) as char else c
  }

  function LowerChar(c: char): (l: char)
    ensures IsUpper(c) ==> IsLower(l) && l as int == c as int + 32
    ensures !IsUpper(c) ==> l == c
  {
    if IsUpper(c) then (c as int + 32) as char else c
  }

  /** `s.upper()` */
  function Upper(s: string): (u: string)
    ensures |u| == |s|
    ensures forall i :: 0 <= i < |s| ==> u[i] == UpperChar(s[i])
  {
    if s == [] then [] else [UpperChar(s[0])] + Upper(s[1..])
  }

  lemma UpperHasNoLowercase(s: string)
    ensures forall i :: 0 <= i < |Upper(s)| ==> !IsLower(Upper(s)[i])
  {
  }

  /**
   * `s.title()`: a letter becomes upper case when it starts the string or
   * follows a non-letter, lower case otherwise; other characters are kept.
   * `afterLetter` says whether the character before `s` was a letter.
   */
  function TitleFrom(s: string, afterLetter: bool): (t: string)
    ensures |t| == |s|
  {
    if s == [] then []
    else
      var c := if !IsLetter(s[0]) then s[0]
               else if afterLetter then LowerChar(s[0])
               else UpperChar(s[0]);
      [c] + TitleFrom(s[1..], IsLetter(s[0]))
  }

  function Title(s: string): (t: string)
    ensures |t| == |s|
  {
    TitleFrom(s, false)
  }

  /** The case a title-cased character takes, read off its left neighbour. */
  function TitleCharAt(s: string, i: nat): char
    requires i < |s|
  {
    if !IsLetter(s[i]) then s[i]
    else if i > 0 && IsLetter(s[i - 1]) then LowerChar(s[i])
    else UpperChar(s[i])
  }

  lemma {:induction false} TitleFromAt(s: string, afterLetter: bool, i: nat)
    requires i < |s|
    ensures TitleFrom(s, afterLetter)[i] ==
      (if !IsLetter(s[i]) then s[i]
       else if (if i == 0 then afterLetter else IsLetter(s[i - 1])) then LowerChar(s[i])
       else UpperChar(s[i]))
    decreases i
  {
    if i > 0 {
      TitleFromAt(s[1..], IsLetter(s[0]), i - 1);
    }
  }

  /** Each character of `s.title()` depends only on itself and its left neighbour. */
  lemma TitlePointwise(s: string)
    ensures forall i :: 0 <= i < |s| ==> Title(s)[i] == TitleCharAt(s, i)
  {
    forall i | 0 <= i < |s|
      ensures Title(s)[i] == TitleCharAt(s, i)
    {
      TitleFromAt(s, false, i);
    }
  }

  /** `s.split(sep)`: never empty, and no piece contains the separator. */
  function Split(s: string, sep: char): (parts: seq<string>)
    ensures |parts| >= 1
    ensures forall i :: 0 <= i < |parts| ==> sep !in parts[i]
  {
    if s == [] then [""]
    else if s[0] == sep then [""] + Split(s[1..], sep)
    else
      var rest := Split(s[1..], sep);
      [[s[0]] + rest[0]] + rest[1..]
  }

  /** `sep.join(parts)` */
  function Join(parts: seq<string>, sep: char): (s: string)
  {
    if |parts| == 0 then ""
    else if |parts| == 1 then parts[0]
    else parts[0] + [sep] + Join(parts[1..], sep)
  }

  /** The number of separators in a string. */
  function Count(s: string, c: char): nat
  {
    if s == [] then 0 else (if s[0] == c then 1 else 0) + Count(s[1..], c)
  }

  /** Splitting and joining back with the same separator restores the text. */
  lemma {:induction false} JoinSplit(s: string, sep: char)
    ensures Join(Split(s, sep), sep) == s
  {
    if s == [] {
    } else if s[0] == sep {
      JoinSplit(s[1..], sep);
      var rest := Split(s[1..], sep);
      assert Split(s, sep) == [""] + rest;
      assert Join([""] + rest, sep) == "" + [sep] + Join(rest, sep);
    } else {
      JoinSplit(s[1..], sep);
      var rest := Split(s[1..], sep);
      var parts := [[s[0]] + rest[0]] + rest[1..];
      if |rest| == 1 {
        assert Join(parts, sep) == [s[0]] + rest[0];
      } else {
        assert parts[1..] == rest[1..];
        assert Join(rest, sep) == rest[0] + [sep] + Join(rest[1..], sep);
        assert Join(parts, sep) == [s[0]] + rest[0] + [sep] + Join(rest[1..], sep);
      }
    }
  }

  /** A separator-free prefix glues onto the first piece of what follows it. */
  lemma {:induction false} SplitPrefix(p: string, t: string, sep: char)
    requires sep !in p
    ensures Split(p + t, sep) == [p + Split(t, sep)[0]] + Split(t, sep)[1..]
  {
    if p != [] {
      assert (p + t)[0] == p[0];
      assert (p + t)[1..] == p[1..] + t;
      SplitPrefix(p[1..], t, sep);
      assert [p[0]] + (p[1..] + Split(t, sep)[0]) == p + Split(t, sep)[0];
    } else {
      var parts := Split(t, sep);
      assert p + t == t;
      assert p + parts[0] == parts[0];
      assert parts == [parts[0]] + parts[1..];
    }
  }

  /**
   * Joining separator-free pieces and splitting again gives the pieces back;
   * `|parts| >= 1` because `"".split(sep)` is `[""]`, never `[]`.
   */
  lemma {:induction false} SplitJoin(parts: seq<string>, sep: char)
    requires |parts| >= 1
    requires forall i :: 0 <= i < |parts| ==> sep !in parts[i]
    ensures Split(Join(parts, sep), sep) == parts
  {
    if |parts| == 1 {
      SplitPrefix(parts[0], "", sep);
      assert parts[0] + "" == parts[0];
    } else {
      var tail := parts[1..];
      SplitJoin(tail, sep);
      var rest := Join(tail, sep);
      assert Join(parts, sep) == parts[0] + ([sep] + rest);
      SplitPrefix(parts[0], [sep] + rest, sep);
      assert ([sep] + rest)[0] == sep;
      assert ([sep] + rest)[1..] == rest;
      assert Split([sep] + rest, sep) == [""] + tail;
      assert parts[0] + "" == parts[0];
      assert parts == [parts[0]] + tail;
    }
  }

  lemma {:induction false} CountAppend(a: string, b: string, c: char)
    ensures Count(a + b, c) == Count(a, c) + Count(b, c)
  {
    if a != [] {
      assert (a + b)[1..] == a[1..] + b;
      CountAppend(a[1..], b, c);
    } else {
      assert a + b == b;
    }
  }

  /** Splitting drops exactly the separators: the pieces hold the other characters. */
  lemma {:induction false} SplitLength(s: string, sep: char)
    ensures |Split(s, sep)| == Count(s, sep) + 1
  {
    if s != [] {
      SplitLength(s[1..], sep);
    }
  }
}

=== FILE: timer.dfy ===
/**
 * The stopwatch the command runner times a run with.  The clock is an
 * integer reading passed in by the caller of each operation.
 */
module Timing {
  import opened Errors

  /** When the running timer was started, and the time the last stop measured. */
  datatype TimerState = TimerState(start: Option<int>, elapsed: Option<int>)
  {
    predicate Running() { start.Some? }
  }

  const NOT_RUNNING := TimerState(None, None)

  const ALREADY_RUNNING := TimerError("Timer is already running.")
  const NOT_STARTED := TimerError("Timer is not running.")

  /** `start`: refused on a running timer, otherwise records the start reading. */
  function StartAt(s: TimerState, now: int): (r: Result<TimerState>)
    ensures r.Err? <==> s.Running()
    ensures r.Err? ==> r.error == ALREADY_RUNNING
    ensures r.Ok? ==> r.value.Running() && r.value.elapsed == s.elapsed
  {
    if s.start.Some? then Err(ALREADY_RUNNING) else Ok(TimerState(Some(now), s.elapsed))
  }

  /** `stop`: refused on a timer that is not running, otherwise the elapsed time and the stopped timer. */
  function StopAt(s: TimerState, now: int): (r: Result<(int, TimerState)>)
    ensures r.Err? <==> !s.Running()
    ensures r.Err? ==> r.error == NOT_STARTED
    ensures r.Ok? ==> !r.value.1.Running() && r.value.1.elapsed == Some(r.value.0)
  {
    if s.start.None? then Err(NOT_STARTED)
    else
      var elapsed := now - s.start.value;
      Ok((elapsed, TimerState(None, Some(elapsed))))
  }

  /** Stopping a timer started at t0 at the reading t1 measures t1 - t0 and leaves it ready to start again. */
  lemma StartStopMeasures(s: TimerState, t0: int, t1: int)
    requires !s.Running()
    ensures StartAt(s, t0).Ok?
    ensures StopAt(StartAt(s, t0).value, t1) == Ok((t1 - t0, TimerState(None, Some(t1 - t0))))
    ensures StartAt(StopAt(StartAt(s, t0).value, t1).value.1, t1).Ok?
  {
  }

  /** A `with` block: entering starts the timer, leaving stops it, whether the body raised or not. */
  function WithBlock(s: TimerState, enter: int, exit: int): (r: Result<TimerState>)
  {
    var started :- StartAt(s, enter);
    Ok(StopAt(started, exit).value.1)
  }

  /** A run of `with` blocks, each given its enter and exit readings. */
  function WithBlocks(s: TimerState, blocks: seq<(int, int)>): Result<TimerState>
    decreases |blocks|
  {
    if blocks == [] then Ok(s)
    else
      var s' :- WithBlock(s, blocks[0].0, blocks[0].1);
      WithBlocks(s', blocks[1..])
  }

  /**
   * A timer that is not running can be used in any number of `with` blocks
   * in a row: each succeeds, and after them the timer is stopped with the
   * last block's duration as its elapsed time.
   */
  lemma {:induction false} WithBlocksRepeat(s: TimerState, blocks: seq<(int, int)>)
    requires !s.Running()
    ensures WithBlocks(s, blocks).Ok?
    ensures !WithBlocks(s, blocks).value.Running()
    ensures blocks != [] ==>
      WithBlocks(s, blocks).value.elapsed == Some(blocks[|blocks| - 1].1 - blocks[|blocks| - 1].0)
    ensures blocks == [] ==> WithBlocks(s, blocks).value == s
    decreases |blocks|
  {
    if blocks != [] {
      StartStopMeasures(s, blocks[0].0, blocks[0].1);
      var s' := WithBlock(s, blocks[0].0, blocks[0].1).value;
      WithBlocksRepeat(s', blocks[1..]);
      if |blocks| > 1 {
        assert blocks[1..][|blocks[1..]| - 1] == blocks[|blocks| - 1];
      }
    }
  }

  /** A call of the timer's interface, with the clock reading it sees. */
  datatype TimerCall = Start(now: int) | Stop(now: int)

  /** One call: a refused call raises and leaves the timer as it was. */
  function Call(s: TimerState, c: TimerCall): (TimerState, Option<Error>)
  {
    match c
    case Start(now) =>
      (match StartAt(s, now) case Ok(s') => (s', None) case Err(e) => (s, Some(e)))
    case Stop(now) =>
      (match StopAt(s, now) case Ok((_, s')) => (s', None) case Err(e) => (s, Some(e)))
  }

  /** The timer after a sequence of calls, each one's error caught by the caller. */
  function Calls(s: TimerState, cs: seq<TimerCall>): TimerState
    decreases |cs|
  {
    if cs == [] then s else Calls(Call(s, cs[0]).0, cs[1..])
  }

  /**
   * `elapsed_time` only changes at a stop that succeeds: calls that reach
   * no running timer with a stop leave it as it was, so a new timer reports
   * None until its first stop.
   */
  lemma {:induction false} ElapsedOnlyFromStops(s: TimerState, cs: seq<TimerCall>)
    requires forall i :: 0 <= i < |cs| ==> cs[i].Start?
    ensures Calls(s, cs).elapsed == s.elapsed
    ensures cs != [] ==> Calls(s, cs).Running()
    ensures cs == [] ==> Calls(s, cs) == s
    decreases |cs|
  {
    if cs != [] {
      ElapsedOnlyFromStops(Call(s, cs[0]).0, cs[1..]);
    }
  }

  /** A call refused for the wrong state changes nothing, and each refusal has its own message. */
  lemma RefusedCallsChangeNothing(s: TimerState, c: TimerCall)
    ensures Call(s, c).1.Some? <==> (c.Start? == s.Running())
    ensures Call(s, c).1.Some? ==>
      (Call(s, c).0 == s && Call(s, c).1.value == (if c.Start? then ALREADY_RUNNING else NOT_STARTED))
  {
  }

  /** `Timer`: the two fields its `start` and `stop` update. */
  class Timer {
    var startTime: Option<int>
    var elapsedTime: Option<int>

    function State(): TimerState
      reads this
    {
      TimerState(startTime, elapsedTime)
    }

    constructor()
      ensures State() == NOT_RUNNING
    {
      startTime := None;
      elapsedTime := None;
    }

    method Start(now: int) returns (r: Outcome)
      modifies this
      ensures r.Fail? <==> old(State()).Running()
      ensures r.Fail? ==> r.error == ALREADY_RUNNING && State() == old(State())
      ensures r.Pass? ==> State() == StartAt(old(State()), now).value
    {
      if startTime.Some? {
        return Fail(ALREADY_RUNNING);
      }
      startTime := Some(now);
      r := Pass;
    }

    method Stop(now: int) returns (r: Result<int>)
      modifies this
      ensures r.Err? <==> !old(State()).Running()
      ensures r.Err? ==> r.error == NOT_STARTED && State() == old(State())
      ensures r.Ok? ==> (r.value, State()) == StopAt(old(State()), now).value
    {
      if startTime.None? {
        return Err(NOT_STARTED);
      }
      var elapsed := now - startTime.value;
      elapsedTime := Some(elapsed);
      startTime := None;
      r := Ok(elapsed);
    }

    /** `__enter__` starts the timer. */
    method Enter(now: int) returns (r: Outcome)
      modifies this
      ensures r.Fail? <==> old(State()).Running()
      ensures r.Fail? ==> State() == old(State())
      ensures r.Pass? ==> State() == StartAt(old(State()), now).value
    {
      r := Start(now);
    }

    /** `__exit__` stops the timer, whatever the block raised, and lets that error through. */
    method Exit(now: int) returns (r: Outcome)
      modifies this
      ensures r.Fail? <==> !old(State()).Running()
      ensures r.Fail? ==> State() == old(State())
      ensures r.Pass? ==> State() == StopAt(old(State()), now).value.1
    {
      var stopped := Stop(now);
      r := if stopped.Ok? then Pass else Fail(stopped.error);
    }
  }
}

=== FILE: worker_base.dfy ===
/**
 * The worker base class: the queue it takes chunks from (assigned by the
 * processor), its item counter and progress task, and its run loop.  The
 * loop is advanced one atomic move at a time (see the Pipeline module);
 * what the concrete worker's `_handle_chunk` does with a chunk is given to
 * each move as the outcome of that call.
 */
module WorkerBase {
  import opened Errors
  import opened ChunkQueue
  import opened Pipeline

  class BaseScapWorker<T> {
    // The queue attribute is only declared by the constructor; it exists
    // once `set_queue` has run.
    var queueAssigned: bool
    var queue: ScapChunkQueue?<T>
    var verbose: Option<int>
    var progressTask: bool
    var processed: int
    var pc: WorkerPc
    var taken: seq<seq<T>>
    var handled: seq<seq<T>>

    function State(): WorkerState<T>
      reads this
    {
      WorkerState(pc, progressTask, processed, taken, handled)
    }

    constructor(verbose: Option<int>)
      ensures !queueAssigned && queue == null && this.verbose == verbose
      ensures !progressTask && processed == 0 && taken == [] && handled == [] && pc == AtGuard
    {
      queueAssigned := false;
      queue := null;
      this.verbose := verbose;
      progressTask := false;
      processed := 0;
      pc := AtGuard;
      taken := [];
      handled := [];
    }

    method SetQueue(q: ScapChunkQueue<T>)
      modifies this
      ensures queueAssigned && queue == q
      ensures verbose == old(verbose) && State() == old(State())
    {
      queueAssigned := true;
      queue := q;
    }

    /**
     * The start of `run_loop`: it fails when no queue was ever assigned
     * (the attribute does not exist) or the assigned queue is None, and
     * otherwise creates the progress task.
     */
    method LoopStart() returns (r: Outcome)
      modifies this
      ensures !old(queueAssigned) ==> r.Fail? && r.error.AttributeError? && State() == old(State())
      ensures old(queueAssigned) && old(queue) == null ==>
        r == Fail(ScapError("No queue has been assigned")) && State() == old(State())
      ensures old(queueAssigned) && old(queue) != null ==>
        r == Pass && State() == old(State()).(progressTask := true)
      ensures queueAssigned == old(queueAssigned) && queue == old(queue) && verbose == old(verbose)
    {
      if !queueAssigned {
        r := Fail(AttributeError("'BaseScapWorker' object has no attribute '_queue'"));
      } else if queue == null {
        r := Fail(ScapError("No queue has been assigned"));
      } else {
        progressTask := true;
        r := Pass;
      }
    }

    /**
     * One move of the run loop: test the loop guard, or take a chunk, count
     * it, check the progress task, hand it over and mark it done.
     */
    method Step(handle: Outcome, countFirst: bool)
      requires queue != null
      requires WorkerEnabled(State(), queue.State())
      modifies this, queue
      ensures queueAssigned == old(queueAssigned) && queue == old(queue) && verbose == old(verbose)
      ensures (State(), queue.State()) == WorkerStep(old(State()), old(queue.State()), handle, countFirst)
    {
      if pc.AtGuard? {
        if queue.MoreChunksExpected() {
          pc := AwaitingChunk;
        } else {
          pc := Exited(Pass);
        }
      } else {
        var chunk := queue.GetChunk();
        taken := taken + [chunk];
        var outcome := if progressTask then handle
                       else Fail(ScapError("Worker progress task is not defined"));
        if outcome.Fail? {
          if countFirst {
            processed := processed + |chunk|;
          }
          pc := Exited(outcome);
        } else {
          processed := processed + |chunk|;
          handled := handled + [chunk];
          var marked := queue.TaskDone();
          if marked.Fail? {
            pc := Exited(marked);
          } else {
            pc := AtGuard;
          }
        }
      }
    }
  }
}

=== FILE: write_buffer.dfy ===
/**
 * The write buffering the three database managers share: records are
 * appended to a pending buffer, which is written as one batch once it is
 * longer than the insert threshold and again when the manager's context is
 * left without an exception.  A batch call with an empty sequence writes
 * nothing; any other batch call empties the buffer afterwards, even when
 * the batch it wrote was not the buffer.  `batches` is the sequence of
 * batches written so far; each manager maps a batch to the transaction it
 * executes.
 */
module WriteBuffer {
  import opened ChunkQueue

  datatype Buffer<T> = Buffer(pending: seq<T>, batches: seq<seq<T>>, insertThreshold: int)
  {
    /** The batch call (`add_cves`, `add_cpes`, `add_cpe_match_strings`). */
    function AddMany(xs: seq<T>): Buffer<T>
    {
      if xs == [] then this else this.(batches := batches + [xs], pending := [])
    }

    /** `add`: buffer the record and flush once the buffer is longer than the threshold. */
    function Add(x: T): Buffer<T>
    {
      var buffered := this.(pending := pending + [x]);
      if |buffered.pending| > insertThreshold then buffered.AddMany(buffered.pending) else buffered
    }

    /** `__aexit__`: the buffer is written on a clean exit and kept when an exception is leaving. */
    function Exit(raised: bool): Buffer<T>
    {
      if raised then this else AddMany(pending)
    }

    /** Everything handed to the manager so far: the written records, then the buffered ones. */
    function Stored(): seq<T>
    {
      Flatten(batches) + pending
    }
  }

  function NewBuffer<T>(insertThreshold: int): (b: Buffer<T>)
    ensures b.pending == [] && b.batches == [] && b.insertThreshold == insertThreshold
  {
    Buffer([], [], insertThreshold)
  }

  /** Adding records one at a time. */
  function AddAll<T>(b: Buffer<T>, xs: seq<T>): Buffer<T>
    decreases |xs|
  {
    if xs == [] then b else AddAll(b.Add(xs[0]), xs[1..])
  }

  /**
   * A batch call writes nothing for an empty sequence; otherwise it writes
   * exactly that sequence as one batch and leaves the buffer empty.
   */
  lemma AddManyWritesOneBatch<T>(b: Buffer<T>, xs: seq<T>)
    ensures xs == [] ==> b.AddMany(xs) == b
    ensures xs != [] ==> b.AddMany(xs).batches == b.batches + [xs] && b.AddMany(xs).pending == []
    ensures xs != [] ==> Flatten(b.AddMany(xs).batches) == Flatten(b.batches) + xs
  {
    if xs != [] {
      FlattenAppend(b.batches, xs);
    }
  }

  /**
   * `add` appends to the buffer and writes nothing while the buffer stays
   * within the threshold; once it grows past the threshold the whole buffer
   * is written as one batch and emptied.
   */
  lemma AddFlushesPastThreshold<T>(b: Buffer<T>, x: T)
    ensures |b.pending| + 1 <= b.insertThreshold ==>
      b.Add(x).pending == b.pending + [x] && b.Add(x).batches == b.batches
    ensures |b.pending| + 1 > b.insertThreshold ==>
      b.Add(x).pending == [] && b.Add(x).batches == b.batches + [b.pending + [x]]
  {
  }

  /** With a non-negative threshold the buffer never holds more than the threshold between calls. */
  lemma AddKeepsBufferBounded<T>(b: Buffer<T>, x: T)
    requires 0 <= b.insertThreshold && |b.pending| <= b.insertThreshold
    ensures |b.Add(x).pending| <= b.insertThreshold
  {
  }

  lemma AddKeepsStored<T>(b: Buffer<T>, x: T)
    ensures b.Add(x).Stored() == b.Stored() + [x]
  {
    var buffered := b.pending + [x];
    if |buffered| > b.insertThreshold {
      FlattenAppend(b.batches, buffered);
    }
  }

  /**
   * Nothing is lost, duplicated or reordered: what was written plus what is
   * buffered is what was there before followed by the added records.
   */
  lemma {:induction false} AddAllKeepsEverything<T>(b: Buffer<T>, xs: seq<T>)
    ensures AddAll(b, xs).Stored() == b.Stored() + xs
    decreases |xs|
  {
    if xs == [] {
    } else {
      AddKeepsStored(b, xs[0]);
      AddAllKeepsEverything(b.Add(xs[0]), xs[1..]);
      assert [xs[0]] + xs[1..] == xs;
    }
  }

  /** After a clean exit every added record has been written, in order, and nothing is buffered. */
  lemma CleanExitWritesAll<T>(xs: seq<T>, insertThreshold: int)
    ensures AddAll(NewBuffer(insertThreshold), xs).Exit(false).pending == []
    ensures Flatten(AddAll(NewBuffer(insertThreshold), xs).Exit(false).batches) == xs
  {
    var b := AddAll(NewBuffer(insertThreshold), xs);
    AddAllKeepsEverything(NewBuffer<T>(insertThreshold), xs);
    AddManyWritesOneBatch(b, b.pending);
  }

  /** An exit with an exception writes nothing more and keeps the buffer. */
  lemma RaisingExitKeepsBuffer<T>(b: Buffer<T>)
    ensures b.Exit(true) == b
  {
  }

  /** Every batch written is non-empty. */
  ghost predicate BatchesNonEmpty<T>(b: Buffer<T>)
  {
    forall i :: 0 <= i < |b.batches| ==> b.batches[i] != []
  }

  lemma AddKeepsBatchesNonEmpty<T>(b: Buffer<T>, x: T)
    requires BatchesNonEmpty(b)
    ensures BatchesNonEmpty(b.Add(x)) && BatchesNonEmpty(b.Exit(false))
  {
  }
}
